=== FILE: README.md ===
# CYOA-Engine reader: a Dafny model

CYOA-Engine is a choose-your-own-adventure reader app, with a few maintenance scripts and
test suites around it. This project models its core and proves properties of the model:

- the reading screen: the page shown, the back-button history, the decision counter and the
  sample-limit paywall;
- the device store: saved page, chapter, decision path and the unlock flag;
- the story list and the chapter menu;
- the story loader, the language provider and the translator `t`;
- the platform checks for the delete emoji and the blur view;
- the image-map generator;
- the story validation tests and the translation-key test;
- the Python scripts that remove duplicate page ids, report over-long texts and blank old
  images.

Every screen action is a pure function from the old state and the store to the new ones.
The store (`AsyncStore`) is a map from keys to strings. JSON documents are one `Json.Value`
datatype. The app's own story records are the typed `StoryModel.Page`.

Modules follow the source files:

| file | module | source |
|---|---|---|
| wrappers.dfy | Wrappers | Option and Result |
| text.dfy | Text | JavaScript and Python string functions |
| json.dfy | Json | JSON values |
| sequences.dfy | Sequences | order-keeping selections (`filter`) |
| async_store.dfy | AsyncStore | the key-value store |
| story_model.dfy | StoryModel | the story block, pages, choices, chapters |
| progress_manager.dfy | ProgressManager | storage/progressManager.ts |
| path_codec.dfy | DecisionPathCodec | `JSON.stringify`/`JSON.parse` of a decision path |
| unlock_manager.dfy | UnlockManager, StorageLayout | storage/unlockManager.ts |
| story_engine.dfy | StoryEngine | app/story.tsx |
| story_list.dfy | StoryList | app/storyList.tsx |
| chapter_menu.dfy | ChapterMenu | components/ChapterSelectMenu.tsx |
| story_loader.dfy | StoryLoader | storyloader.ts |
| language_provider.dfy | LanguageProvider, LocalizationIndex | localization/LanguageProvider.tsx, localization/index.ts |
| localization.dfy | Localization | the key walk and the placeholder substitution of `t` |
| locale_keys.dfy | LocaleKeys | __test__/localization.test.js |
| platform.dfy | PlatformService | components/PlatformService.ts |
| image_map.dfy | ImageMap | assets/generateImageMap.js |
| object_counts.dfy | ObjectCounts | counting in a plain object vs in a `Map` |
| story_validation.dfy | StoryValidation | __test__/storyValidation.test.js, test/storyValidation.test.js |
| py_story.dfy | PyStory | the Python scripts' `data.get("story", [])` and `page.get` |
| remove_duplicate_ids.dfy | RemoveDuplicateIds | stories/utils/remove_duplicate_ids.py |
| check_long_texts.dfy | CheckLongTexts | stories/utils/check_long_texts.py |
| clean_story_images.dfy | CleanStoryImages | scripts/clean_story_images.py |

## Model

| member | source | states |
|---|---|---|
| StoryEngine.InitialPageId | app/story.tsx:47-50 | the opening page is non-empty: the resume page when it is a non-empty id, otherwise "intro" |
| StoryEngine.Start | app/story.tsx:56-62 | mounting starts with an empty history, a zero count and no paywall; a non-empty saved page is shown, otherwise the initial page |
| StoryEngine.StartResumesSavedPage | app/story.tsx:56-62 | after a save, reopening the story shows the saved page, whatever resume page was requested |
| StoryEngine.HandleChoice | app/story.tsx:80-93 | a choice always pushes the current page onto the history. Blocked (not unlocked and count+1 at or over the sample limit): the paywall shows and page, count and store stay. Otherwise: the page becomes nextId, the count rises by one, the saved page is nextId and no other key changes |
| StoryEngine.GoBack | app/story.tsx:137-147 | back exists exactly when the history is non-empty; it pops one entry, keeps the count and paywall, and shows the popped id when it is non-empty |
| StoryEngine.TapTarget | app/story.tsx:95-103 | a tap follows a choice exactly on a page with a single choice whose lower-cased caption contains "continue", and follows that choice |
| StoryEngine.ChoiceListIffNoTap | app/story.tsx:154-155 | the choice buttons render exactly when a tap does nothing |
| StoryEngine.ContinueIsCaseInsensitive | app/story.tsx:97-98 | a single choice whose caption lower-cases to "continue" ("Continue", "CONTINUE", ...) is followed by a tap |
| StoryEngine.Step | app/story.tsx:80-155 | one user action raises the decision count by at most one and never lowers it |
| StoryEngine.RunCountMonotone | app/story.tsx:84-92 | over any sequence of actions the count never decreases and rises by at most the number of actions |
| StoryEngine.StepKeepsUnlock | app/story.tsx:90 | no action on the screen changes whether the story is unlocked |
| StoryEngine.RunStaysBelowSampleLimit | app/story.tsx:84-88 | in a story not bought, the count never reaches the sample limit, however the user plays |
| StoryEngine.RunNeverPaywalled | app/story.tsx:85 | in a bought story, or one without a sample limit, the paywall never appears |
| StoryEngine.SampleLimitOfThree | app/story.tsx:84-92 | with a sample limit of 3, two choices go through and the third shows the paywall |
| StoryEngine.BackAfterChoice | app/story.tsx:137-147 | back after a choice returns to the previous page and history but keeps the count |
| StoryModel.FindPage | app/story.tsx:78 | finds the first page with the id, or none exactly when no page has it |
| ProgressManager.KeyInjective | storage/progressManager.ts:4-8 | two progress keys are equal exactly when slot and story id are equal |
| ProgressManager.KeyMembership | storage/progressManager.ts:17-64 | which slots of which stories each clear function removes |
| ProgressManager.LoadProgress | storage/progressManager.ts:13-15 | the saved page is absent exactly when its key is not stored |
| ProgressManager.LoadProgressAfterSave | storage/progressManager.ts:9-15 | a saved page is loaded back, and other stories' pages are unchanged |
| ProgressManager.ClearProgress | storage/progressManager.ts:17-24 | exactly the four listed keys of the story are removed, nothing else changes |
| ProgressManager.ClearProgressSlots | storage/progressManager.ts:17-24 | clearing removes the story's page, unlocked chapters, history and "currentPath_" entry; keeps its chapter and decision path; touches no other story |
| ProgressManager.ClearProgressOnly | storage/progressManager.ts:57-64 | exactly the three listed keys of the story are removed, nothing else changes |
| ProgressManager.ClearProgressOnlySlots | storage/progressManager.ts:57-64 | the language-change clear also keeps the unlocked-chapters entry |
| ProgressManager.LoadSavedDecisionPath | storage/progressManager.ts:43-55 | no stored path loads as null |
| ProgressManager.DecisionPathRoundTrip | storage/progressManager.ts:29-55 | a saved decision path loads back unchanged |
| ProgressManager.DecisionPathSurvivesClears | storage/progressManager.ts:22-62 | neither clear removes the decision path: they remove "currentPath_" and the path is kept under "currentPath:" |
| ProgressManager.FirstPlayed | storage/progressManager.ts:80-89 | the first story with a non-empty saved page, and none before it has one |
| ProgressManager.GetLastPlayedStory | storage/progressManager.ts:70-98 | the first story with a saved page, with that page and its title, else the first story at "intro"; nothing only for an empty story file |
| ProgressManager.LoadChapterProgress | storage/progressManager.ts:111-120 | the saved chapter is absent exactly when its key is not stored |
| ProgressManager.ClearChapterProgress | storage/progressManager.ts:122-128 | removes the story's chapter key and nothing else |
| ProgressManager.ChapterProgressRoundTrip | storage/progressManager.ts:100-128 | a saved chapter loads back; clearing it loads null; saving other slots and clearProgress leave it alone |
| DecisionPathCodec.Encode | storage/progressManager.ts:36 | the encoded path is a bracketed JSON array text |
| DecisionPathCodec.QuoteAll | storage/progressManager.ts:36 | each item is quoted separately, in order |
| DecisionPathCodec.UnescapeEscapeCode | storage/progressManager.ts:36-50 | parsing an escape that `JSON.stringify` writes gives back its character |
| DecisionPathCodec.DecodeBodyOfEscape | storage/progressManager.ts:36-50 | parsing a string literal's escaped body gives back the string and the rest of the text |
| DecisionPathCodec.DecodeItemsOfJoin | storage/progressManager.ts:36-50 | parsing the comma-joined quoted items gives back the items |
| DecisionPathCodec.DecodeEncode | storage/progressManager.ts:36-50 | `JSON.parse(JSON.stringify(path))` is the path, for every array of strings |
| UnlockManager.UnlockKeyInjective | storage/unlockManager.ts:3 | unlock keys of different stories differ |
| UnlockManager.UnlockStoryEffect | storage/unlockManager.ts:5-12 | after unlocking, the story is unlocked and every other story keeps its status |
| StorageLayout.UnlockKeyIsNoProgressKey | storage/unlockManager.ts:3 | no unlock key is a progress key |
| StorageLayout.ClearsKeepUnlock | storage/progressManager.ts:17-64 | neither clear re-locks any story |
| StorageLayout.SaveAndUnlockIndependent | storage/unlockManager.ts:5-12 | saving a page does not change unlock status, and unlocking does not change a saved page |
| StoryList.TitleMap | app/storyList.tsx:139-142 | the title map has exactly the ids of the chapters as own keys; a chapter id "__proto__" stores nothing |
| StoryList.TitleMapLastWins | app/storyList.tsx:140-142 | an id other than "__proto__" maps to the title of its last chapter |
| StoryList.Load | app/storyList.tsx:111-147 | loading fails exactly when the screen's file map has no file for the language, or some listed story's id is neither a key of the file nor an inherited `Object.prototype` member; otherwise the three maps hold exactly the listed ids other than "__proto__", each with its unlock status, its saved chapter and the titles of the block `data[id]` (none for an inherited member), and the reset flags are kept |
| StoryList.JapaneseListFails | app/storyList.tsx:112-122 | the provider's "ja" has no file in the screen's map, so the list fails before any story is listed |
| StoryList.ProviderLanguagesList | app/storyList.tsx:112-147 | with the provider's code mapped to its file code, every offered language loads its list whenever each listed story has a block |
| StoryList.LoadBlocks | app/storyList.tsx:123-147 | the loop over one file fails exactly when some listed story's `data[id]` is undefined (not a key, not an inherited member); otherwise the three maps hold exactly the listed ids other than "__proto__" with their status, saved chapter and the titles of `data[id]`, and the reset flags are kept |
| StoryList.InheritedIdIsListed | app/storyList.tsx:135-143 | a story whose id is an inherited member such as "constructor" is listed, with an empty title map |
| StoryList.ProtoIdStoresNothing | app/storyList.tsx:136-143 | a story with id "__proto__" loads but leaves no entry in any of the three maps |
| StoryList.TitlesFromOwnBlock | app/storyList.tsx:133-143 | a story listed under another key takes its chapter titles from the block stored under its id |
| StoryList.DisplayedChapterId | app/storyList.tsx:199 | the card's chapter is the saved non-empty chapter, otherwise "intro" |
| StoryList.LoadedChapterIsSaved | app/storyList.tsx:123-199 | after saving a chapter and loading the file's stories, the card shows that chapter |
| StoryList.CardStatus | app/storyList.tsx:200-261 | an unlocked story shows "continue" with its chapter title, or the intro caption; any other story shows the sample-limit notice |
| StoryList.Delete | app/storyList.tsx:168-174 | deleting is the store's `clearProgress` for the story, re-locks nothing, sets only that story's chapter to "intro" and flags a reset |
| StoryList.Press | app/storyList.tsx:214-232 | a press navigates with reset exactly when the story is flagged, then clears the flag |
| StoryList.ResetIsOneShot | app/storyList.tsx:170-232 | after a delete only the first press of that story resets; other stories' presses do not consume it |
| ChapterMenu.DedupByTitle | components/ChapterSelectMenu.tsx:62-67 | the kept chapters come from the input and have pairwise different stripped titles |
| ChapterMenu.DedupKeepsOrder | components/ChapterSelectMenu.tsx:62-67 | the kept chapters are a subsequence of the input: `filter` keeps their order |
| ChapterMenu.DedupKeepsFirsts | components/ChapterSelectMenu.tsx:62-67 | the dedup keeps exactly the first chapter of every stripped title |
| ChapterMenu.DropHome | components/ChapterSelectMenu.tsx:68 | exactly the chapters whose id is not "home" remain |
| ChapterMenu.Mark | components/ChapterSelectMenu.tsx:69-75 | every chapter is marked unlocked exactly when an unlocked chapter has its id |
| ChapterMenu.Insert | components/ChapterSelectMenu.tsx:76 | inserting into a list sorted by order keeps it sorted and adds exactly the item |
| ChapterMenu.SortByOrder | components/ChapterSelectMenu.tsx:76 | the result is sorted by order, is a permutation of the input, and keeps the input order among items of equal order (a stable sort, as ECMAScript 2019 requires of `Array.prototype.sort`) |
| ChapterMenu.InsertStable | components/ChapterSelectMenu.tsx:76 | an inserted item goes ahead of the items of its own order and leaves every order's items in their order |
| ChapterMenu.ChaptersWithStatus | components/ChapterSelectMenu.tsx:54-77 | the home entry comes first; the rest is sorted by order and holds exactly the marked, deduplicated chapters that are not "home" |
| ChapterMenu.MenuEntries | components/ChapterSelectMenu.tsx:54-77 | every entry after home is the first chapter of its stripped title, not "home", unlocked exactly as recorded; every such chapter is listed |
| ChapterMenu.HomeHidesSameTitle | components/ChapterSelectMenu.tsx:62-68 | a "home" chapter first with its title hides every later chapter with that title |
| ChapterMenu.Denominator | components/ChapterSelectMenu.tsx:44-209 | the denominator is "?" exactly when there are two chapters; otherwise it reads back as the count minus 2 |
| ChapterMenu.CounterText | components/ChapterSelectMenu.tsx:208-210 | the counter starts with the unlocked count, followed by "/", the denominator and the suffix |
| ChapterMenu.Press | components/ChapterSelectMenu.tsx:101-256 | a press selects the entry exactly when it is unlocked |
| ChapterMenu.PressOnlyUnlocked | components/ChapterSelectMenu.tsx:54-101 | home can always be selected; another entry exactly when an unlocked chapter has its id |
| StoryLoader.Message | storyloader.ts:27-34 | the two error messages |
| StoryLoader.MessagesDiffer | storyloader.ts:27-34 | the two messages never coincide |
| StoryLoader.LoadStory | storyloader.ts:12-42 | unsupported exactly when the code has no story file; not found exactly when the file lacks the story; otherwise the block's meta, pages and chapter list (or none) |
| StoryLoader.DefaultIsEnglish | storyloader.ts:14 | a call without a language loads English |
| StoryLoader.NoChaptersIsEmpty | storyloader.ts:40 | a story without a chapter list loads with an empty one |
| StoryLoader.JapaneseSelectionFails | storyloader.ts:16-28 | the provider's "ja" has no story file, so every Japanese load fails as unsupported |
| StoryLoader.StoryFileCode | storyloader.ts:16-23 | every provider language maps to a story-file language; only "ja" is renamed |
| StoryLoader.LoadForProvider | storyloader.ts:16-35 | a provider language is never unsupported, and it loads exactly the stories its file holds |
| StoryLoader.ProviderLanguagesLoad | storyloader.ts:16-41 | every offered language loads its file's stories, and "ja" loads the "jp" file |
| LanguageProvider.Restore | localization/LanguageProvider.tsx:24-29 | a saved code the guard accepts becomes the language; anything else leaves "en" |
| LanguageProvider.SetLang | localization/LanguageProvider.tsx:31-34 | the code is stored under "selectedLanguage" and becomes the language; no other key changes |
| LanguageProvider.ChoiceSurvivesRestart | localization/LanguageProvider.tsx:25-34 | a chosen code comes back after a restart exactly when the guard accepts it; otherwise English |
| LanguageProvider.OfferedCodesSurvive | localization/LanguageProvider.tsx:12-34 | every language of the table survives a restart |
| LanguageProvider.T | localization/LanguageProvider.tsx:36-43 | a language without a table shows the key; otherwise `t` translates on that table |
| LanguageProvider.TranslationAfterRestart | localization/LanguageProvider.tsx:24-43 | after choosing an offered language and restarting, a key `getAllKeys` does not list shows itself, and a key that reaches a string is listed and shows the substituted string |
| LocalizationIndex.SetLanguageAsWritten | localization/index.ts:13-15 | the language changes for own keys and for inherited names alike |
| LocalizationIndex.AsWrittenLeavesTables | localization/index.ts:13-15 | `setLanguage("constructor")` leaves a language with no table |
| LocalizationIndex.SetLanguage | localization/index.ts:13-15 | only a language with a table is adopted |
| LocalizationIndex.CurrentAlwaysHasTable | localization/index.ts:11-15 | after any sequence of calls the current language has a table |
| LocalizationIndex.T | localization/index.ts:17-29 | a language without a table shows the key; otherwise `t` translates on that table |
| LocalizationIndex.TranslationAfterCalls | localization/index.ts:13-29 | after any `setLanguage` calls the current language has a table; an unlisted key shows itself and a key reaching a string shows that string |
| Localization.CanonicalIndex | localization/index.ts:19 | an array index is named only by its own decimal text, never by "length" |
| Localization.CanonicalIndexOfNat | localization/index.ts:19 | every index's decimal text names it |
| Localization.Step | localization/index.ts:19 | one `obj?.[part]`: an object's own member, an array's index or length, nothing past a leaf |
| Localization.WalkNone | localization/index.ts:19 | once the walk is undefined it stays so |
| Localization.WalkPastLeaf | localization/index.ts:19 | walking past a string, number, boolean or null finds nothing |
| Localization.Expand | localization/index.ts:25 | a replacement without `$` is inserted literally |
| Localization.ExpandEscape | localization/index.ts:25 | a value with every `$` doubled is inserted as the value itself |
| Localization.ReplaceFirst | localization/index.ts:25 | a missing pattern leaves the text; otherwise the first occurrence is replaced |
| Localization.ReplaceFirstOnlyFirst | localization/index.ts:25 | only the first occurrence is replaced, and later ones stay |
| Localization.Placeholder | localization/index.ts:23-25 | the placeholder is the name in double braces |
| Localization.SubstituteWithoutBraces | localization/index.ts:24-26 | a text without `{` is unchanged by any variables |
| Localization.SubstituteOne | localization/index.ts:24-26 | one variable fills its first placeholder with its value |
| Localization.Translate | localization/index.ts:17-29 | a key that does not walk to a string is shown as itself; otherwise the string with the variables substituted, and the string itself when there are none |
| Localization.TranslateFillsPlaceholder | localization/index.ts:24-26 | a string with one `{name}` placeholder shows the value in its place |
| LocaleKeys.FullKey | __test__/localization.test.js:16 | a non-empty prefix joins prefix and key with one "." |
| LocaleKeys.ChildStep | __test__/localization.test.js:15-18 | each own key of a well-formed table is a path part whose step reaches its child |
| LocaleKeys.ListedKeysOf | __test__/localization.test.js:14-22 | every listed key lies under the prefix, and its path walks to a leaf |
| LocaleKeys.WalkedStringListed | __test__/localization.test.js:14-22 | every path that walks to a string is listed |
| LocaleKeys.ListedKeysResolve | __test__/localization.test.js:14-22 | listed keys walk to leaves, and keys that walk to strings are listed |
| LocaleKeys.UnlistedKeyShowsItself | __test__/localization.test.js:14-22 | `t` shows a key missing from the listed keys as itself |
| LocaleKeys.Without | __test__/localization.test.js:34-35 | exactly the keys of one list missing from the other |
| LocaleKeys.NothingMissingIff | __test__/localization.test.js:34-35 | nothing missing or extra exactly when both list the same keys |
| LocaleKeys.SortedEqualMeansNothingMissing | __test__/localization.test.js:47 | equal sorted lists leave nothing missing or extra |
| LocaleKeys.SameKeysSameCoverage | __test__/localization.test.js:24-48 | when a language has all English keys, every key English translates walks to a leaf there |
| PlatformService.MajorVersion | components/PlatformService.ts:9-13 | a numeric version is its own major version |
| PlatformService.MajorOfDottedText | components/PlatformService.ts:10-13 | "n.rest" has major version n |
| PlatformService.SupportsDottedFace | components/PlatformService.ts:7-22 | Android supports it exactly for an API level number of 33 or more; other systems never |
| PlatformService.DeleteEmoji | components/PlatformService.ts:27-29 | the dotted face exactly when it is supported, otherwise the wastebasket |
| PlatformService.BlurSupported | components/PlatformService.ts:32-47 | Android supports it exactly for an API level number of 31 or more; other systems never |
| PlatformService.IosVersionForms | components/PlatformService.ts:8-40 | on iOS, a text version and a number give the same answers: major at least 16, or at least 11 |
| PlatformService.NonNumericIosVersion | components/PlatformService.ts:10-14 | an iOS version that is not a number supports neither |
| PlatformService.DottedFaceImpliesBlur | components/PlatformService.ts:7-47 | whatever shows the dotted face also gets the blur view |
| PlatformService.BlurWithoutDottedFace | components/PlatformService.ts:7-47 | iOS 15 and Android API 31 get the blur view but the wastebasket |
| ImageMap.StripExtension | assets/generateImageMap.js:8 | the result is a prefix; it differs from the name exactly when the name has an extension, which is then cut at its dot |
| ImageMap.Sanitize | assets/generateImageMap.js:9 | one allowed character per UTF-16 code unit |
| ImageMap.SanitizeAppend | assets/generateImageMap.js:9 | sanitizing works piece by piece |
| ImageMap.SanitizeFixedIff | assets/generateImageMap.js:9 | a text is unchanged exactly when all its characters are allowed |
| ImageMap.SanitizeIdempotent | assets/generateImageMap.js:9 | sanitizing twice is sanitizing once |
| ImageMap.ImportName | assets/generateImageMap.js:7-10 | the import name is an identifier of allowed characters |
| ImageMap.ImportNameParts | assets/generateImageMap.js:7-10 | the name is the three sanitized parts joined by "_" |
| ImageMap.StripsTo | assets/generateImageMap.js:8 | a name with a plain extension loses exactly the extension |
| ImageMap.ExtensionsCollide | assets/generateImageMap.js:7-30 | two files differing only in extension get the same import name |
| ImageMap.PunctuationCollides | assets/generateImageMap.js:7-30 | "a-b" and "a_b" files get the same import name |
| ImageMap.ImportLines | assets/generateImageMap.js:29-32 | one import line per file, in walk order |
| ImageMap.ImportBlockLines | assets/generateImageMap.js:42 | the import block splits back into exactly the import lines |
| ImageMap.Mappings | assets/generateImageMap.js:28-33 | the keys are exactly the files' `story/chapter/file` keys, each once, and every mapping holds an import name |
| ImageMap.MappingOfFile | assets/generateImageMap.js:33 | a file's key maps to its import name unless a later file has the same key |
| ImageMap.EntryLines | assets/generateImageMap.js:38-40 | one entry line per mapping, in order |
| ImageMap.ModuleStartsWithImports | assets/generateImageMap.js:42-49 | the generated module begins with the import block |
| ObjectCounts.CountAsWrittenEntries | __test__/storyValidation.test.js:100-103 | plain-object counts are true for ordinary ids, NaN text for inherited method names, absent for `__proto__` |
| ObjectCounts.ReportedAsWrittenMissesPrototypeNames | __test__/storyValidation.test.js:99-110 | as written, exactly the repeated ids that are not `Object.prototype` names are reported |
| ObjectCounts.ConstructorCounterexample | __test__/storyValidation.test.js:99-110 | two "constructor" ids are repeated yet unreported |
| ObjectCounts.Count | __test__/storyValidation.test.js:100-103 | counting in a `Map` gives each key its number of occurrences |
| ObjectCounts.Reported | __test__/storyValidation.test.js:105-107 | counting in a `Map` reports exactly the repeated keys |
| ObjectCounts.NoDuplicatesIffDistinct | __test__/storyValidation.test.js:99-110 | nothing is reported exactly when no key repeats |
| StoryValidation.ChoiceBrokenLinks | __test__/storyValidation.test.js:33-40 | one broken link per choice whose target is missing, in order |
| StoryValidation.BrokenLinks | __test__/storyValidation.test.js:27-45 | the broken links over all pages, in order |
| StoryValidation.LinkCheckPassesIff | __test__/storyValidation.test.js:27-45 | the link test passes exactly when every choice leads to a page of the story |
| StoryValidation.ChoiceSelfLinks | __test__/storyValidation.test.js:153-163 | one entry per choice leading back to its own page |
| StoryValidation.SelfLinks | __test__/storyValidation.test.js:150-174 | the test passes exactly when no choice leads back to its page |
| StoryValidation.LongPages | __test__/storyValidation.test.js:75-82 | the pages whose trimmed length is over the limit, in order |
| StoryValidation.LongPagesAreLong | __test__/storyValidation.test.js:75-82 | every reported page is a page of the story with its trimmed length |
| StoryValidation.LongPagesEmptyIff | __test__/storyValidation.test.js:75-97 | the length test passes exactly when every trimmed text is within 430 units |
| StoryValidation.CurrentLengthLimitIsStricter | test/storyValidation.test.js:37-46 | passing the 430-unit test implies passing the older 550-unit test |
| StoryValidation.ClassMembersAreCanonical | __test__/storyValidation.test.js:11 | every class member is its own case-insensitive canonical form |
| StoryValidation.IsCapitalizedIff | __test__/storyValidation.test.js:5-13 | a text passes exactly when its trimmed first character is in the class |
| StoryValidation.CapitalisationErrors | __test__/storyValidation.test.js:46-73 | skipped for "jp"; otherwise the pages not excluded that fail the check |
| StoryValidation.UncapitalisedPages | __test__/storyValidation.test.js:55-61 | the failing pages, in order |
| StoryValidation.UncapitalisedPagesIff | __test__/storyValidation.test.js:46-73 | the test passes exactly when every page not excluded starts with a class member |
| StoryValidation.Ids | __test__/storyValidation.test.js:101-103 | the page ids in order |
| StoryValidation.IdCheckPassesIff | __test__/storyValidation.test.js:99-110 | counting in a `Map`, the id test passes exactly when ids are distinct |
| StoryValidation.IdCheckAsWrittenIff | __test__/storyValidation.test.js:99-110 | as written, the test passes exactly when the only repeated ids are `Object.prototype` names |
| StoryValidation.ConstructorIdsPassAsWritten | __test__/storyValidation.test.js:99-110 | two "constructor" pages pass the test as written and fail the intended one |
| StoryValidation.TrimmedTexts | __test__/storyValidation.test.js:120-121 | the trimmed texts in order |
| StoryValidation.Entries | __test__/storyValidation.test.js:120-126 | each page's trimmed text with its id |
| StoryValidation.GroupByTextEntries | __test__/storyValidation.test.js:118-126 | each text maps to the ids of its pages, in order |
| StoryValidation.NotExcludedCount | __test__/storyValidation.test.js:130 | the filtered ids are counted by the pages that share the text and are not excluded |
| StoryValidation.SharingCountOne | __test__/storyValidation.test.js:128-133 | at most one such page means the text is not reported |
| StoryValidation.SharingCountTwo | __test__/storyValidation.test.js:128-133 | two such pages mean the text is reported |
| StoryValidation.SharedTextsIff | __test__/storyValidation.test.js:128-133 | a text is shared exactly when two pages not excluded have it |
| StoryValidation.DuplicateTextsIff | __test__/storyValidation.test.js:112-148 | when the test runs to the end, a text is reported exactly when two pages not excluded share it |
| StoryValidation.ExcludedPageMayRepeat | __test__/storyValidation.test.js:113-117 | an excluded page may repeat another page's text |
| StoryValidation.DistinctTextsShareNothing | __test__/storyValidation.test.js:112-148 | with no repeated text nothing is reported |
| StoryValidation.LegacyTextCheckIff | test/storyValidation.test.js:61-82 | the older text test passes exactly when the only repeated texts are `Object.prototype` names |
| StoryValidation.EntryTexts | __test__/storyValidation.test.js:121 | the texts of the entries |
| StoryValidation.EntryTextsAreTrimmedTexts | __test__/storyValidation.test.js:121 | the entries' texts are the trimmed texts |
| StoryValidation.CountedTextsShareNothing | test/storyValidation.test.js:61-82 | texts the older test accepts, none a prototype name, share nothing under the current test |
| StoryValidation.ExclusionsOnlyRelax | test/storyValidation.test.js:61-82 | a story passing the older text test passes the current one |
| PyStory.StoryField | stories/utils/remove_duplicate_ids.py:42 | a missing "story" reads as the empty list; a non-dict document raises |
| PyStory.Pages | stories/utils/remove_duplicate_ids.py:47 | the pages a loop visits |
| PyStory.PageGet | stories/utils/remove_duplicate_ids.py:48 | `page.get(key)` is the member, the default when missing, and raises for a non-dict |
| RemoveDuplicateIds.HashKeyOf | stories/utils/remove_duplicate_ids.py:49 | an id can be a set element exactly when it is not a list or dict |
| RemoveDuplicateIds.KeyPages | stories/utils/remove_duplicate_ids.py:47-49 | reading the ids succeeds exactly when every page is a dict with a hashable id |
| RemoveDuplicateIds.KeysOfAppend | stories/utils/remove_duplicate_ids.py:52 | `seen_ids` grows by the page's id |
| RemoveDuplicateIds.Kept | stories/utils/remove_duplicate_ids.py:47-53 | the kept pages have distinct ids and cover every id of the input |
| RemoveDuplicateIds.KeptStep | stories/utils/remove_duplicate_ids.py:49-53 | one more page is kept exactly when its id is new, and removed otherwise |
| RemoveDuplicateIds.Removed | stories/utils/remove_duplicate_ids.py:50 | kept and removed together account for every page |
| RemoveDuplicateIds.KeptIsFirstOccurrence | stories/utils/remove_duplicate_ids.py:47-53 | a page is kept exactly when it is the first with its id |
| Sequences.SubsequenceWeaken | stories/utils/remove_duplicate_ids.py:53 | subsequence is kept when the input grows |
| RemoveDuplicateIds.KeptIsSubsequence | stories/utils/remove_duplicate_ids.py:53 | the kept pages keep their order |
| RemoveDuplicateIds.DedupLoop | stories/utils/remove_duplicate_ids.py:43-53 | the loop builds exactly the kept pages and removed ids |
| RemoveDuplicateIds.PagesOf | stories/utils/remove_duplicate_ids.py:55 | the pages of the kept entries |
| RemoveDuplicateIds.RemoveDuplicates | stories/utils/remove_duplicate_ids.py:42-55 | the run fails exactly when reading "story", its pages or their ids fails; otherwise the written document differs only in "story", which holds the kept pages, and the report lists the removed ids |
| RemoveDuplicateIds.MissingStoryIsEmpty | stories/utils/remove_duplicate_ids.py:42-55 | a document without "story" gets an empty one and removes nothing |
| RemoveDuplicateIds.KeptOfDistinct | stories/utils/remove_duplicate_ids.py:47-53 | pages with distinct ids are all kept |
| RemoveDuplicateIds.KeyPagesOfPages | stories/utils/remove_duplicate_ids.py:47-49 | reading back kept pages gives the same entries |
| RemoveDuplicateIds.RemoveDuplicatesIdempotent | stories/utils/remove_duplicate_ids.py:42-55 | running on the output changes nothing and removes nothing |
| CheckLongTexts.StrippedLength | stories/utils/check_long_texts.py:33-34 | a missing text has length 0; otherwise the stripped length; raises for a non-dict page or a non-string text |
| CheckLongTexts.Measure | stories/utils/check_long_texts.py:35-38 | the entry holds the stripped length |
| CheckLongTexts.MeasureAll | stories/utils/check_long_texts.py:32-38 | every page is measured, in order, unless one raises |
| CheckLongTexts.Over | stories/utils/check_long_texts.py:34 | only measurements over the limit are kept |
| CheckLongTexts.OverComplete | stories/utils/check_long_texts.py:34 | every measurement over the limit is kept |
| CheckLongTexts.OverAppend | stories/utils/check_long_texts.py:32-38 | the filter keeps order |
| CheckLongTexts.MeasureAllAppend | stories/utils/check_long_texts.py:32-38 | measuring keeps order |
| CheckLongTexts.LongEntries | stories/utils/check_long_texts.py:29-38 | the loop succeeds exactly when every page can be measured; every entry is over 450 |
| CheckLongTexts.LongEntriesExact | stories/utils/check_long_texts.py:29-38 | an entry is reported exactly when some page is over the limit with that id and length |
| CheckLongTexts.LongEntriesAppend | stories/utils/check_long_texts.py:32-38 | the report of a concatenation is the concatenation of the reports |
| CheckLongTexts.CheckFile | stories/utils/check_long_texts.py:29-40 | a missing "story" passes; failure only for a malformed document or page |
| CheckLongTexts.CheckFilePassesIff | stories/utils/check_long_texts.py:16-40 | a file passes exactly when every page can be measured and none is over 450 |
| CleanStoryImages.PyContains | scripts/clean_story_images.py:8-10 | Python `in` on dicts and lists, raising for scalars |
| CleanStoryImages.BlankIsNotKept | scripts/clean_story_images.py:10-11 | a blanked image is not one the script keeps |
| CleanStoryImages.CleanPage | scripts/clean_story_images.py:10-11 | only "image" changes, and only when it does not start with "covarnius" |
| CleanStoryImages.CleanPageIdempotent | scripts/clean_story_images.py:10-11 | cleaning a cleaned page changes nothing |
| CleanStoryImages.CleanPages | scripts/clean_story_images.py:9-11 | every page is cleaned, in order, unless one raises |
| CleanStoryImages.CleanPagesIdempotent | scripts/clean_story_images.py:9-11 | cleaning cleaned pages changes nothing |
| CleanStoryImages.Block | scripts/clean_story_images.py:7 | `data['covarnius']` raises exactly when the document is not a dict with that key |
| CleanStoryImages.StoryList | scripts/clean_story_images.py:8-17 | the "story" list, or `ValueError` |
| CleanStoryImages.CleanBlock | scripts/clean_story_images.py:8-11 | only the block's "story" changes |
| CleanStoryImages.CleanBlockIdempotent | scripts/clean_story_images.py:8-11 | cleaning a cleaned block changes nothing |
| CleanStoryImages.UpdateAsWritten | scripts/clean_story_images.py:4-17 | the document written back is the cleaned inner block |
| CleanStoryImages.AsWrittenCannotRerun | scripts/clean_story_images.py:7-14 | a second run on the written file raises `KeyError` |
| CleanStoryImages.AsWrittenDropsWrapper | scripts/clean_story_images.py:7-14 | the smallest document that shows the wrapper dropped |
| CleanStoryImages.Update | scripts/clean_story_images.py:4-17 | the cleaned block is stored back under "covarnius"; nothing else changes |
| CleanStoryImages.UpdateIdempotent | scripts/clean_story_images.py:4-17 | the intended update can run again and then changes nothing |
| CleanStoryImages.MissingStoryRaises | scripts/clean_story_images.py:8-17 | a block without a "story" list raises `ValueError` |

## Left out

- I/O: file reads and writes, directory walks, the network, printing, logging, haptics,
  animation and rendering. Each operation takes the data it would read as a parameter and
  returns what it would write.
- Asynchrony: `await`, promise ordering and the try/catch blocks that turn store errors
  into `null`. The store never fails in this model.
- The JSON grammar. Documents are values and numbers are integers. Duplicate keys in a
  document are not modelled. Only the decision-path array has a text encoding, and its
  decoder accepts only what `JSON.stringify` writes (no whitespace, no other values).
- `Object.entries` order: integer-like keys come first in JavaScript. Vars, the image map and
  the text groups are in insertion order here.
- Case mapping: `toUpperCase` and `toLowerCase` cover Basic Latin and Latin-1 only.
- Text.IntToString: writes decimal for every integer. JavaScript switches to exponent
  notation from 1e21.
- PlatformService.MajorVersion: a fractional `Platform.Version` number is not modelled.
- ChapterMenu: `stripEmoji` lives in a module outside this model and is a parameter.
- `Localization.Step`: the walk does not see inherited properties or indexes into strings,
  so `t("a.length")` on a string leaf is not modelled.
- StoryLoader.LoadStory: a language code or story id naming an `Object.prototype` member
  (`storyFileMap["constructor"]`) is not modelled.
- StoryList: a story id in the file whose block lacks `meta` makes the screen throw. This
  is not modelled.
- StoryList.CardStatus: reads through inherited names are not modelled. For a story id
  "__proto__", `unlockedMap[id]` is `Object.prototype`, which is truthy. A saved chapter id
  naming an inherited member reads that member from the title map. The model's maps hold own
  keys only.
- StoryList.Load: a `null` saved chapter assigned under "__proto__" replaces the chapter
  map's prototype. The model stores nothing there and does not follow the changed prototype.
- StoryModel.Page: a page always has an `id` and a `text`. A page missing `text` makes the
  validation tests throw a TypeError at `page.text.trim()`; that path is not modelled.
- LanguageProvider.Restore: follows the guard as written. An inherited name such as
  "constructor" is accepted. `LANGUAGES["constructor"]` is then the `Object` function, and
  `t` starts its walk from that function's members (`t("name")` gives "Object"). The model
  sees no members there and shows the key.
- LanguageProvider.T: for an inherited language name, the walk from the inherited member is
  not modelled; the model shows the key.
- StoryEngine.Blocked: a missing `sampleLimit` is None, which never blocks, as for
  `nextCount >= undefined`. A story whose file holds `"sampleLimit": null` is not modelled:
  there `nextCount >= null` is true and the first choice shows the paywall.
- StoryList.Load: the `stories` list that the effect sets before the per-story loop is not
  modelled; a failed load leaves the three maps as they were.
- StoryEngine.HandleChoice: the code counts every choice, a "continue" tap included. A
  description of the app that counts only real branches disagrees; the model follows the
  code.
- ProgressManager: `clearProgress` and `clearProgressOnly` remove "currentPath_" keys,
  while the decision path is saved under "currentPath:". DecisionPathSurvivesClears states
  this as it is.
- The tap rule of components/StoryContent.tsx and the loading screen of
  components/StoryLoaderGate.tsx are not part of this model.
- __test__/quoteConsistency.test.js is not part of this model.
- The Python scripts' report printing and the text of their exception messages: errors are
  the exception kind only.
- Python `str.strip()` whitespace is modelled from `str.isspace` on code points. JavaScript
  `trim` follows the ECMAScript WhiteSpace and LineTerminator sets.

## Findings

| source | as written | input that shows it | evidently intended | confidence | as-written member | corrected member |
|---|---|---|---|---|---|---|
| __test__/storyValidation.test.js:99-110 | ids are counted in a plain object, so `idCounts["constructor"]` starts from the inherited function and never exceeds 1 | two pages with id "constructor" | every repeated id is reported (count in a `Map` or an object without a prototype) | not executed; high | StoryValidation.ConstructorIdsPassAsWritten | StoryValidation.IdCheckPassesIff |
| storyloader.ts:16-28 | the story files are keyed "jp", while the language provider and the selection screen use "ja" | choose Japanese, then open any story: "Unsupported language: ja" | Japanese loads the "jp" story file | not executed; high | StoryLoader.JapaneseSelectionFails | StoryLoader.ProviderLanguagesLoad |
| app/storyList.tsx:112-122 | the list screen's own file map is keyed "jp" as well, so `storyFileMap["ja"]` is undefined and calling it throws | choose Japanese, then open the story list: no story is listed | Japanese lists the "jp" stories | not executed; high | StoryList.JapaneseListFails | StoryList.ProviderLanguagesList |
| scripts/clean_story_images.py:7-14 | `data = data['covarnius']` and then `json.dump(data)`: the file is written without its "covarnius" wrapper | `{"covarnius": {"story": []}}` is written back as `{"story": []}` | the cleaned block is stored back under "covarnius" | not executed; medium | CleanStoryImages.AsWrittenDropsWrapper | CleanStoryImages.UpdateIdempotent |
| localization/index.ts:13-15 | `if (LANGUAGES[lang])` is also true for inherited names | `setLanguage("constructor")`, then `t` walks from the `Object` function's members instead of a table (`t("name")` gives "Object") | only languages with a table are adopted | not executed; low | LocalizationIndex.AsWrittenLeavesTables | LocalizationIndex.CurrentAlwaysHasTable |

=== FILE: async_store.dfy ===
/** The device key-value store (AsyncStorage) as a synchronous map from keys to stored
    text. Every persistence call of the modelled code is one of these operations. */
module AsyncStore {
  import opened Wrappers

  type Store = map<string, string>

  /** `AsyncStorage.getItem(key)`: the stored text, or `None` for `null`. */
  function GetItem(store: Store, key: string): (r: Option<string>)
    ensures r.Some? <==> key in store
    ensures r.Some? ==> r.value == store[key]
  {
    if key in store then Some(store[key]) else None
  }

  /** `AsyncStorage.setItem(key, value)`. */
  function SetItem(store: Store, key: string, value: string): (r: Store)
    ensures GetItem(r, key) == Some(value)
    ensures forall k :: k != key ==> GetItem(r, k) == GetItem(store, k)
  {
    store[key := value]
  }

  /** `AsyncStorage.multiRemove(keys)` (and `removeItem` for one key). */
  function MultiRemove(store: Store, keys: set<string>): (r: Store)
    ensures forall k :: k in keys ==> GetItem(r, k) == None
    ensures forall k :: k !in keys ==> GetItem(r, k) == GetItem(store, k)
  {
    store - keys
  }
}

=== FILE: chapter_menu.dfy ===
/** The chapter menu of components/ChapterSelectMenu.tsx: the list `chaptersWithStatus`
    derived from the story's chapters and the reader's unlocked chapters, the
    "unlocked/total" counter above it, and which entries can be selected.

    `stripEmoji` is imported from a module that is not part of this model; it is a
    parameter here, and nothing is assumed about it. */
module ChapterMenu {
  import opened Wrappers
  import opened StoryModel
  import Text
  import opened Sequences

  /** The id and order of the synthetic first entry. */
  const HOME_ID := "home"

  /** Subtracted from the number of chapters for the counter's denominator. */
  const DUPLICATE_CHAPTERS_AND_HOME := 2

  /** A chapter with its lock status: `{...ch, unlocked}`. */
  datatype MenuItem = MenuItem(id: string, title: string, order: int, unlocked: bool)

  /** `unlockedChapters.some((uc) => uc.id === id)`. */
  predicate IsUnlocked(unlocked: seq<Chapter>, id: string) {
    exists u :: u in unlocked && u.id == id
  }

  function ItemOf(ch: Chapter, unlocked: seq<Chapter>): MenuItem {
    MenuItem(ch.id, ch.title, ch.order, IsUnlocked(unlocked, ch.id))
  }

  /** The home entry: the translated word for "home", order 0, always unlocked. */
  function HomeItem(homeTitle: string): MenuItem {
    MenuItem(HOME_ID, homeTitle, 0, true)
  }

  // ---------------------------------------------------------------------------
  // Dedup by stripped title
  // ---------------------------------------------------------------------------

  /** `self.findIndex((c) => strip(c.title) === strip(ch.title)) === i`: no earlier chapter
      has the same stripped title. */
  predicate FirstOfTitle(all: seq<Chapter>, strip: string -> string, i: int)
    requires 0 <= i < |all|
  {
    forall j :: 0 <= j < i ==> strip(all[j].title) != strip(all[i].title)
  }

  /** The stripped titles, in order. */
  function StrippedTitles(chs: seq<Chapter>, strip: string -> string): (r: seq<string>)
    ensures |r| == |chs| && forall i :: 0 <= i < |chs| ==> r[i] == strip(chs[i].title)
  {
    if chs == [] then [] else [strip(chs[0].title)] + StrippedTitles(chs[1..], strip)
  }

  /** No two chapters share a stripped title. */
  predicate DistinctTitles(chs: seq<Chapter>, strip: string -> string) {
    forall i, j :: 0 <= i < j < |chs| ==> strip(chs[i].title) != strip(chs[j].title)
  }

  /** The first `filter`: the first chapter of every stripped title, in order. */
  function DedupByTitle(all: seq<Chapter>, strip: string -> string): (r: seq<Chapter>)
    ensures |r| <= |all|
    ensures forall c :: c in r ==> c in all
    ensures DistinctTitles(r, strip)
    decreases |all|
  {
    if all == [] then []
    else
      var prefix, last := all[..|all| - 1], all[|all| - 1];
      var kept := DedupByTitle(prefix, strip);
      var seen := StrippedTitles(prefix, strip);
      assert forall c :: c in prefix ==> c in all;
      if strip(last.title) in seen then kept
      else
        assert forall i :: 0 <= i < |kept| ==> strip(kept[i].title) != strip(last.title) by {
          forall i | 0 <= i < |kept| ensures strip(kept[i].title) != strip(last.title) {
            assert kept[i] in kept;
            var k :| 0 <= k < |prefix| && prefix[k] == kept[i];
            assert seen[k] == strip(kept[i].title);
          }
        }
        kept + [last]
  }

  /** The kept chapters keep their input order, as `filter` does. */
  lemma {:induction false} DedupKeepsOrder(all: seq<Chapter>, strip: string -> string)
    ensures IsSubsequence(DedupByTitle(all, strip), all)
    decreases |all|
  {
    if all != [] {
      var prefix, last := all[..|all| - 1], all[|all| - 1];
      var kept := DedupByTitle(prefix, strip);
      DedupKeepsOrder(prefix, strip);
      assert all == prefix + [last];
      if strip(last.title) in StrippedTitles(prefix, strip) {
        assert DedupByTitle(all, strip) == kept;
        SubsequenceWeaken(kept, prefix, last);
      } else {
        assert DedupByTitle(all, strip) == kept + [last];
        SubsequenceSnoc(kept, prefix, last);
      }
    }
  }

  /** The dedup keeps exactly the first chapter of every stripped title: each kept chapter
      is one, and each one is kept. */
  lemma DedupKeepsFirsts(all: seq<Chapter>, strip: string -> string)
    ensures forall c :: c in DedupByTitle(all, strip) ==>
      exists i :: 0 <= i < |all| && all[i] == c && FirstOfTitle(all, strip, i)
    ensures forall i :: 0 <= i < |all| && FirstOfTitle(all, strip, i) ==>
      all[i] in DedupByTitle(all, strip)
  {
    DedupKeepsOnlyFirsts(all, strip);
    DedupKeepsAllFirsts(all, strip);
  }

  /** Below the last chapter, being first of its title does not depend on the last one. */
  lemma FirstOfTitlePrefix(all: seq<Chapter>, strip: string -> string, i: int)
    requires 0 <= i < |all| - 1
    ensures FirstOfTitle(all, strip, i) <==> FirstOfTitle(all[..|all| - 1], strip, i)
  {
    assert forall j :: 0 <= j < i ==> all[j] == all[..|all| - 1][j];
  }

  /** The last chapter is the first of its title when no earlier stripped title equals it. */
  lemma LastIsFirst(all: seq<Chapter>, strip: string -> string)
    requires all != []
    requires strip(all[|all| - 1].title) !in StrippedTitles(all[..|all| - 1], strip)
    ensures FirstOfTitle(all, strip, |all| - 1)
  {
    var seen := StrippedTitles(all[..|all| - 1], strip);
    forall j | 0 <= j < |all| - 1 ensures strip(all[j].title) != strip(all[|all| - 1].title) {
      assert seen[j] == strip(all[j].title);
    }
  }

  lemma {:induction false} DedupKeepsOnlyFirsts(all: seq<Chapter>, strip: string -> string)
    ensures forall c :: c in DedupByTitle(all, strip) ==>
      exists i :: 0 <= i < |all| && all[i] == c && FirstOfTitle(all, strip, i)
    decreases |all|
  {
    if all != [] {
      var prefix, last := all[..|all| - 1], all[|all| - 1];
      DedupKeepsOnlyFirsts(prefix, strip);
      var kept := DedupByTitle(prefix, strip);
      forall c | c in DedupByTitle(all, strip)
        ensures exists i :: 0 <= i < |all| && all[i] == c && FirstOfTitle(all, strip, i)
      {
        if c in kept {
          var i :| 0 <= i < |prefix| && prefix[i] == c && FirstOfTitle(prefix, strip, i);
          FirstOfTitlePrefix(all, strip, i);
          assert all[i] == c;
        } else {
          LastIsFirst(all, strip);
          assert all[|all| - 1] == c;
        }
      }
    }
  }

  lemma {:induction false} DedupKeepsAllFirsts(all: seq<Chapter>, strip: string -> string)
    ensures forall i :: 0 <= i < |all| && FirstOfTitle(all, strip, i) ==>
      all[i] in DedupByTitle(all, strip)
    decreases |all|
  {
    if all != [] {
      var prefix := all[..|all| - 1];
      DedupKeepsAllFirsts(prefix, strip);
      forall i | 0 <= i < |all| && FirstOfTitle(all, strip, i) ensures all[i] in DedupByTitle(all, strip) {
        if i < |all| - 1 {
          FirstOfTitlePrefix(all, strip, i);
          assert all[i] == prefix[i];
        }
      }
    }
  }

  // ---------------------------------------------------------------------------
  // Drop "home", mark, sort
  // ---------------------------------------------------------------------------

  /** The second `filter`: chapters whose id is not "home". */
  function DropHome(chs: seq<Chapter>): (r: seq<Chapter>)
    ensures |r| <= |chs|
    ensures forall c :: c in r <==> c in chs && c.id != HOME_ID
  {
    if chs == [] then []
    else
      var rest := DropHome(chs[1..]);
      assert forall c :: c in chs <==> c == chs[0] || c in chs[1..];
      if chs[0].id != HOME_ID then [chs[0]] + rest else rest
  }

  /** The `map`: every chapter with its lock status. */
  function Mark(chs: seq<Chapter>, unlocked: seq<Chapter>): (r: seq<MenuItem>)
    ensures |r| == |chs| && forall i :: 0 <= i < |chs| ==> r[i] == ItemOf(chs[i], unlocked)
  {
    if chs == [] then [] else [ItemOf(chs[0], unlocked)] + Mark(chs[1..], unlocked)
  }

  /** Orders ascend along the list. */
  predicate SortedByOrder(items: seq<MenuItem>) {
    forall i, j :: 0 <= i < j < |items| ==> items[i].order <= items[j].order
  }

  /** An item no later than any of a sorted list may go in front of it. */
  lemma SortedCons(first: MenuItem, rest: seq<MenuItem>)
    requires SortedByOrder(rest)
    requires forall j :: 0 <= j < |rest| ==> first.order <= rest[j].order
    ensures SortedByOrder([first] + rest)
  {
    var r := [first] + rest;
    forall i, j | 0 <= i < j < |r| ensures r[i].order <= r[j].order {
      assert r[j] == rest[j - 1];
      if i > 0 {
        assert r[i] == rest[i - 1];
      }
    }
  }

  /** The items of one order, in list order. */
  function WithOrder(items: seq<MenuItem>, o: int): (r: seq<MenuItem>)
    ensures forall x :: x in r ==> x in items && x.order == o
  {
    if items == [] then []
    else (if items[0].order == o then [items[0]] else []) + WithOrder(items[1..], o)
  }

  lemma WithOrderCons(x: MenuItem, items: seq<MenuItem>, o: int)
    ensures WithOrder([x] + items, o) == (if x.order == o then [x] else []) + WithOrder(items, o)
  {
    assert ([x] + items)[1..] == items;
  }

  /** Places `item` after the items of a smaller order and before the rest, so ahead of
      the items of its own order. */
  function Insert(item: MenuItem, sorted: seq<MenuItem>): (r: seq<MenuItem>)
    requires SortedByOrder(sorted)
    ensures SortedByOrder(r)
    ensures multiset(r) == multiset(sorted) + multiset{item}
  {
    if sorted == [] || item.order <= sorted[0].order then
      SortedCons(item, sorted);
      [item] + sorted
    else
      var first, tail := sorted[0], sorted[1..];
      var rest := Insert(item, tail);
      LowerBoundKept(first, item, tail, rest);
      SortedCons(first, rest);
      assert sorted == [first] + tail;
      [first] + rest
  }

  /** The item goes ahead of the items of its own order and leaves every other order's
      items in their order. */
  lemma {:induction false} InsertStable(item: MenuItem, sorted: seq<MenuItem>, o: int)
    requires SortedByOrder(sorted)
    ensures WithOrder(Insert(item, sorted), o) == (if item.order == o then [item] else []) + WithOrder(sorted, o)
    decreases |sorted|
  {
    if sorted == [] || item.order <= sorted[0].order {
      assert Insert(item, sorted) == [item] + sorted;
      WithOrderCons(item, sorted, o);
    } else {
      var first, tail := sorted[0], sorted[1..];
      assert sorted == [first] + tail;
      assert Insert(item, sorted) == [first] + Insert(item, tail);
      InsertStable(item, tail, o);
      PassLower(first, item, Insert(item, tail), tail, o);
    }
  }

  /** An item of a smaller order stays ahead of the inserted one. */
  lemma PassLower(first: MenuItem, item: MenuItem, rest: seq<MenuItem>, tail: seq<MenuItem>, o: int)
    requires first.order < item.order
    requires WithOrder(rest, o) == (if item.order == o then [item] else []) + WithOrder(tail, o)
    ensures WithOrder([first] + rest, o) == (if item.order == o then [item] else []) + WithOrder([first] + tail, o)
  {
    WithOrderCons(first, rest, o);
    WithOrderCons(first, tail, o);
  }

  /** A lower bound of a list and of a new item bounds the list with the item added. */
  lemma LowerBoundKept(first: MenuItem, item: MenuItem, tail: seq<MenuItem>, rest: seq<MenuItem>)
    requires multiset(rest) == multiset(tail) + multiset{item}
    requires first.order <= item.order
    requires forall j :: 0 <= j < |tail| ==> first.order <= tail[j].order
    ensures forall j :: 0 <= j < |rest| ==> first.order <= rest[j].order
  {
    forall j | 0 <= j < |rest| ensures first.order <= rest[j].order {
      assert rest[j] in multiset(rest);
      if rest[j] != item {
        assert rest[j] in multiset(tail);
        var k :| 0 <= k < |tail| && tail[k] == rest[j];
      }
    }
  }

  /** `.sort((a, b) => a.order - b.order)`, stable, by insertion. */
  function SortByOrder(items: seq<MenuItem>): (r: seq<MenuItem>)
    ensures SortedByOrder(r)
    ensures multiset(r) == multiset(items)
    ensures forall o :: WithOrder(r, o) == WithOrder(items, o)
  {
    if items == [] then []
    else
      assert items == [items[0]] + items[1..];
      var rest := SortByOrder(items[1..]);
      forall o ensures WithOrder(Insert(items[0], rest), o) == WithOrder(items, o) {
        InsertStable(items[0], rest, o);
        WithOrderCons(items[0], items[1..], o);
      }
      Insert(items[0], rest)
  }

  /** `chaptersWithStatus`: home first, then the deduplicated, marked and sorted chapters. */
  function ChaptersWithStatus(homeTitle: string, all: seq<Chapter>, unlocked: seq<Chapter>,
                              strip: string -> string): (r: seq<MenuItem>)
    ensures |r| >= 1 && r[0] == HomeItem(homeTitle)
    ensures |r| <= 1 + |all|
    ensures SortedByOrder(r[1..])
    ensures multiset(r[1..]) == multiset(Mark(DropHome(DedupByTitle(all, strip)), unlocked))
  {
    var listed := SortByOrder(Mark(DropHome(DedupByTitle(all, strip)), unlocked));
    assert |listed| == |multiset(listed)|;
    var r := [HomeItem(homeTitle)] + listed;
    assert r[1..] == listed;
    r
  }

  /** Every entry after home is the first chapter of its stripped title, not a "home"
      chapter, with its own fields, and unlocked exactly when an unlocked chapter has its id;
      and every such chapter is listed. */
  lemma MenuEntries(homeTitle: string, all: seq<Chapter>, unlocked: seq<Chapter>,
                    strip: string -> string)
    ensures var r := ChaptersWithStatus(homeTitle, all, unlocked, strip);
      forall e :: e in r[1..] ==>
        && e.id != HOME_ID
        && (e.unlocked <==> IsUnlocked(unlocked, e.id))
        && exists i :: 0 <= i < |all| && FirstOfTitle(all, strip, i) && e == ItemOf(all[i], unlocked)
    ensures var r := ChaptersWithStatus(homeTitle, all, unlocked, strip);
      forall i :: 0 <= i < |all| && FirstOfTitle(all, strip, i) && all[i].id != HOME_ID ==>
        ItemOf(all[i], unlocked) in r[1..]
  {
    var r := ChaptersWithStatus(homeTitle, all, unlocked, strip);
    var deduped := DedupByTitle(all, strip);
    var marked := Mark(DropHome(deduped), unlocked);
    DedupKeepsFirsts(all, strip);
    forall e | e in r[1..]
      ensures && e.id != HOME_ID
              && (e.unlocked <==> IsUnlocked(unlocked, e.id))
              && exists i :: 0 <= i < |all| && FirstOfTitle(all, strip, i) && e == ItemOf(all[i], unlocked)
    {
      assert e in multiset(marked);
      var k :| 0 <= k < |marked| && marked[k] == e;
      var ch := DropHome(deduped)[k];
      assert ch in DropHome(deduped);
    }
    forall i | 0 <= i < |all| && FirstOfTitle(all, strip, i) && all[i].id != HOME_ID
      ensures ItemOf(all[i], unlocked) in r[1..]
    {
      var ch := all[i];
      assert ch in DropHome(deduped);
      var k :| 0 <= k < |DropHome(deduped)| && DropHome(deduped)[k] == ch;
      assert marked[k] == ItemOf(ch, unlocked);
      assert ItemOf(ch, unlocked) in multiset(r[1..]);
    }
  }

  /** Dedup runs before the "home" filter: a "home" chapter that comes first with its
      stripped title also hides every later chapter with that title. */
  lemma HomeHidesSameTitle(homeTitle: string, all: seq<Chapter>, unlocked: seq<Chapter>,
                           strip: string -> string, h: int)
    requires 0 <= h < |all| && all[h].id == HOME_ID && FirstOfTitle(all, strip, h)
    ensures var r := ChaptersWithStatus(homeTitle, all, unlocked, strip);
      forall e :: e in r[1..] ==> strip(e.title) != strip(all[h].title)
  {
    var r := ChaptersWithStatus(homeTitle, all, unlocked, strip);
    MenuEntries(homeTitle, all, unlocked, strip);
    forall e | e in r[1..] ensures strip(e.title) != strip(all[h].title) {
      var i :| 0 <= i < |all| && FirstOfTitle(all, strip, i) && e == ItemOf(all[i], unlocked);
    }
  }

  // ---------------------------------------------------------------------------
  // Counter and selection
  // ---------------------------------------------------------------------------

  /** `totalChapters - 2 || "?"`: the number, or "?" when it is 0. */
  function Denominator(totalChapters: int): (r: string)
    ensures r == "?" <==> totalChapters == DUPLICATE_CHAPTERS_AND_HOME
    ensures r != "?" ==> Text.ParseInt(r) == Some(totalChapters - DUPLICATE_CHAPTERS_AND_HOME)
  {
    var n := totalChapters - DUPLICATE_CHAPTERS_AND_HOME;
    Text.ParseIntOfIntToString(n);
    if n == 0 then "?"
    else
      var r := Text.IntToString(n);
      assert r[0] == '-' || Text.IsDigit(r[0]);
      r
  }

  /** `${unlockedCount}/${denominator} ${suffix}`. */
  function CounterText(unlockedChapters: seq<Chapter>, allChapters: seq<Chapter>, suffix: string): (r: string)
    ensures Text.ParseInt(r) == Some(|unlockedChapters|)
    ensures var count := Text.IntToString(|unlockedChapters|);
      |count| < |r| && r[|count|..] == "/" + Denominator(|allChapters|) + " " + suffix
  {
    var count := Text.IntToString(|unlockedChapters|);
    var rest := "/" + Denominator(|allChapters|) + " " + suffix;
    Text.ParseIntOfIntToStringThen(|unlockedChapters|, rest);
    var r := count + rest;
    assert r[|count|..] == rest;
    r
  }

  /** Pressing an entry: `item.unlocked && onSelectChapter(item)` with a disabled button,
      or a button only on unlocked entries. The callback gets the entry, or nothing. */
  function Press(item: MenuItem): (r: Option<MenuItem>)
    ensures r.Some? ==> r.value == item && item.unlocked
    ensures item.unlocked ==> r.Some?
  {
    if item.unlocked then Some(item) else None
  }

  /** Home can always be selected; another entry exactly when an unlocked chapter has its
      id. */
  lemma PressOnlyUnlocked(homeTitle: string, all: seq<Chapter>, unlocked: seq<Chapter>,
                          strip: string -> string, k: int)
    requires 0 <= k < |ChaptersWithStatus(homeTitle, all, unlocked, strip)|
    ensures var r := ChaptersWithStatus(homeTitle, all, unlocked, strip);
      Press(r[k]).Some? <==> k == 0 || IsUnlocked(unlocked, r[k].id)
  {
    var r := ChaptersWithStatus(homeTitle, all, unlocked, strip);
    if k > 0 {
      MenuEntries(homeTitle, all, unlocked, strip);
      assert r[k] == r[1..][k - 1];
    }
  }
}

=== FILE: check_long_texts.dfy ===
/** stories/utils/check_long_texts.py, for one story file: list the id and stripped length
    of every page whose text, stripped of surrounding whitespace, is longer than the limit.
    Any exception makes the file's report an error instead. */
module CheckLongTexts {
  import opened Wrappers
  import opened Json
  import opened PyStory
  import Text

  /** The longest stripped text, in code points, that is not reported. */
  const CHAR_LIMIT: nat := 450

  /** One report line: `{"id": page.get("id"), "length": len(text.strip())}`. */
  datatype LongEntry = LongEntry(id: Value, length: nat)

  /** `len(page.get("text", "").strip())`: a missing text reads as the empty string; a
      page that is not a dict, or a text that is not a string, has no `get`/`strip`. */
  function StrippedLength(page: Value): (r: Result<nat, PyError>)
    ensures r.Success? <==>
      page.Obj? && (HasKey(page.members, "text") ==> Get(page.members, "text").value.Str?)
    ensures page.Obj? && !HasKey(page.members, "text") ==> r == Success(0)
    ensures r.Success? && HasKey(page.members, "text") ==>
      r.value <= |Get(page.members, "text").value.s|
  {
    var text :- PageGet(page, "text", Str(""));
    if text.Str? then Success(|Text.PyStrip(text.s)|) else Failure(AttributeError)
  }

  /** A page's id and stripped text length, or the exception measuring it raises. */
  function Measure(page: Value): (r: Result<LongEntry, PyError>)
    ensures r.Success? <==> StrippedLength(page).Success?
    ensures r.Success? ==> r.value.length == StrippedLength(page).value
  {
    var n :- StrippedLength(page);
    Success(LongEntry(PageGet(page, "id", Null).value, n))
  }

  /** Every page measured, in order; the first page that cannot be measured ends the loop
      with its exception. */
  function MeasureAll(pages: seq<Value>): (r: Result<seq<LongEntry>, PyError>)
    ensures r.Success? <==> forall i :: 0 <= i < |pages| ==> Measure(pages[i]).Success?
    ensures r.Success? ==>
      |r.value| == |pages| && forall i :: 0 <= i < |pages| ==> r.value[i] == Measure(pages[i]).value
  {
    if pages == [] then Success([])
    else
      var m :- Measure(pages[0]);
      var rest :- MeasureAll(pages[1..]);
      assert forall i :: 1 <= i < |pages| ==> pages[i] == pages[1..][i - 1];
      Success([m] + rest)
  }

  /** The measurements over the limit, in order. */
  function Over(measured: seq<LongEntry>): (r: seq<LongEntry>)
    ensures |r| <= |measured|
    ensures forall e :: e in r ==> e in measured && e.length > CHAR_LIMIT
  {
    if measured == [] then []
    else
      var rest := Over(measured[1..]);
      if measured[0].length > CHAR_LIMIT then [measured[0]] + rest else rest
  }

  /** Every measurement over the limit is kept. */
  lemma {:induction false} OverComplete(measured: seq<LongEntry>)
    ensures forall e :: e in measured && e.length > CHAR_LIMIT ==> e in Over(measured)
    decreases |measured|
  {
    if measured != [] {
      OverComplete(measured[1..]);
      forall e | e in measured && e.length > CHAR_LIMIT ensures e in Over(measured) {
        if e != measured[0] {
          assert e in measured[1..];
        }
      }
    }
  }

  /** Filtering keeps order: the filter of a concatenation is the concatenation of the
      filters. */
  lemma {:induction false} OverAppend(a: seq<LongEntry>, b: seq<LongEntry>)
    ensures Over(a + b) == Over(a) + Over(b)
    decreases |a|
  {
    if a == [] {
      assert a + b == b;
    } else {
      assert (a + b)[1..] == a[1..] + b;
      OverAppend(a[1..], b);
    }
  }

  lemma {:induction false} MeasureAllAppend(a: seq<Value>, b: seq<Value>)
    requires MeasureAll(a).Success? && MeasureAll(b).Success?
    ensures MeasureAll(a + b) == Success(MeasureAll(a).value + MeasureAll(b).value)
  {
    var ab := a + b;
    forall i | 0 <= i < |ab| ensures Measure(ab[i]).Success? {
      if i >= |a| {
        assert ab[i] == b[i - |a|];
      }
    }
    assert MeasureAll(ab).Success?;
    var m := MeasureAll(a).value + MeasureAll(b).value;
    forall i | 0 <= i < |ab| ensures MeasureAll(ab).value[i] == m[i] {
      if i >= |a| {
        assert ab[i] == b[i - |a|];
      }
    }
    assert MeasureAll(ab).value == m;
  }

  /** The loop over the pages: every page is measured, and those over the limit reported. */
  function LongEntries(pages: seq<Value>): (r: Result<seq<LongEntry>, PyError>)
    ensures r.Success? <==> forall i :: 0 <= i < |pages| ==> StrippedLength(pages[i]).Success?
    ensures r.Success? ==> |r.value| <= |pages|
    ensures r.Success? ==> forall e :: e in r.value ==> e.length > CHAR_LIMIT
  {
    var measured :- MeasureAll(pages);
    Success(Over(measured))
  }

  /** Every page over the limit is reported, with its id and stripped length, and every
      report line is such a page's. */
  lemma LongEntriesExact(pages: seq<Value>)
    requires LongEntries(pages).Success?
    ensures forall e :: e in LongEntries(pages).value <==>
      exists i :: 0 <= i < |pages| && e == Measure(pages[i]).value && e.length > CHAR_LIMIT
  {
    var measured := MeasureAll(pages).value;
    OverComplete(measured);
    forall e ensures e in LongEntries(pages).value <==>
      exists i :: 0 <= i < |pages| && e == Measure(pages[i]).value && e.length > CHAR_LIMIT
    {
      if e in LongEntries(pages).value {
        var i :| 0 <= i < |measured| && measured[i] == e;
      }
    }
  }

  /** The report keeps page order: the report of a concatenation is the concatenation of
      the reports. */
  lemma LongEntriesAppend(a: seq<Value>, b: seq<Value>)
    requires LongEntries(a).Success? && LongEntries(b).Success?
    ensures LongEntries(a + b) == Success(LongEntries(a).value + LongEntries(b).value)
  {
    MeasureAllAppend(a, b);
    OverAppend(MeasureAll(a).value, MeasureAll(b).value);
  }

  /** One file: `data.get("story", [])` and the loop. */
  function CheckFile(data: Value): (r: Result<seq<LongEntry>, PyError>)
    ensures r.Failure? ==> !data.Obj? || !StoryField(data).value.Arr? || exists page ::
      page in StoryField(data).value.items && StrippedLength(page).Failure?
    ensures data.Obj? && !HasKey(data.members, "story") ==> r == Success([])
  {
    var story :- StoryField(data);
    var pages :- Pages(story);
    LongEntries(pages)
  }

  /** A file passes (an empty report) exactly when every page's text can be measured and
      none is over the limit. */
  lemma {:induction false} CheckFilePassesIff(data: Value)
    requires data.Obj? && StoryField(data).value.Arr?
    ensures var pages := StoryField(data).value.items;
      CheckFile(data) == Success([]) <==>
        forall i :: 0 <= i < |pages| ==>
          StrippedLength(pages[i]).Success? && StrippedLength(pages[i]).value <= CHAR_LIMIT
  {
    var pages := StoryField(data).value.items;
    if LongEntries(pages).Success? {
      LongEntriesExact(pages);
      if LongEntries(pages).value != [] {
        var e := LongEntries(pages).value[0];
        assert e in LongEntries(pages).value;
      }
      forall i | 0 <= i < |pages| && Measure(pages[i]).value.length > CHAR_LIMIT
        ensures LongEntries(pages).value != []
      {
        assert Measure(pages[i]).value in LongEntries(pages).value;
      }
    }
  }
}

=== FILE: clean_story_images.dfy ===
/** scripts/clean_story_images.py: blank every page image of the "covarnius" story block
    that does not start with "covarnius", and write the document back. */
module CleanStoryImages {
  import opened Wrappers
  import opened Json
  import opened PyStory
  import Text

  /** The key of the rewritten block, and the prefix of the images that are kept. */
  const COVARNIUS := "covarnius"

  /** Python `key in container` for a string key: dict membership, list membership or a
      substring test; `None`, booleans and numbers are not containers. */
  function PyContains(container: Value, key: string): (r: Result<bool, PyError>)
    ensures r.Failure? <==> container.Null? || container.Bool? || container.Num?
    ensures container.Obj? ==> r == Success(HasKey(container.members, key))
    ensures container.Arr? ==> r == Success(Str(key) in container.items)
  {
    match container
    case Obj(members) => Success(HasKey(members, key))
    case Arr(items) => Success(Str(key) in items)
    case Str(s) => Success(Text.Contains(s, key))
    case _ => Failure(TypeError)
  }

  /** An image the script keeps. */
  predicate Kept(image: string) {
    Text.StartsWith(image, COVARNIUS)
  }

  /** The blanked image is not kept, so a second pass blanks nothing new. */
  lemma BlankIsNotKept()
    ensures !Kept("")
  {
  }

  /** One page: `if "image" in page and not page["image"].startswith("covarnius")`, then
      `page["image"] = ""`. A list or string page that contains "image" cannot be indexed
      by it, and an image that is not a string has no `startswith`. */
  function CleanPage(page: Value): (r: Result<Value, PyError>)
    ensures r.Success? && page.Obj? ==> r.value.Obj? && forall k :: k != "image" ==>
      Get(r.value.members, k) == Get(page.members, k)
    ensures r.Success? && !page.Obj? ==> r.value == page
    ensures page.Obj? && !HasKey(page.members, "image") ==> r == Success(page)
    ensures page.Obj? && HasKey(page.members, "image") ==>
      (r.Success? <==> Get(page.members, "image").value.Str?)
    ensures r.Success? && page.Obj? && HasKey(page.members, "image") ==>
      var image := Get(page.members, "image").value.s;
      Get(r.value.members, "image") == Some(Str(if Kept(image) then image else ""))
  {
    var has :- PyContains(page, "image");
    if !has then Success(page)
    else if !page.Obj? then Failure(TypeError)
    else
      var image := Get(page.members, "image").value;
      if !image.Str? then Failure(AttributeError)
      else if Kept(image.s) then Success(page)
      else Success(Obj(Set(page.members, "image", Str(""))))
  }

  /** Cleaning a cleaned page changes nothing. */
  lemma CleanPageIdempotent(page: Value)
    requires CleanPage(page).Success?
    ensures CleanPage(CleanPage(page).value) == CleanPage(page)
  {
    if page.Obj? && HasKey(page.members, "image") {
      var image := Get(page.members, "image").value;
      if !Kept(image.s) {
        BlankIsNotKept();
        SetTwice(page.members, "image", Str(""));
      }
    }
  }

  /** The loop over the pages; the first page that raises ends it, and nothing is written. */
  function CleanPages(pages: seq<Value>): (r: Result<seq<Value>, PyError>)
    ensures r.Success? <==> forall i :: 0 <= i < |pages| ==> CleanPage(pages[i]).Success?
    ensures r.Success? ==> |r.value| == |pages|
    ensures r.Success? ==> forall i :: 0 <= i < |pages| ==> r.value[i] == CleanPage(pages[i]).value
  {
    if pages == [] then Success([])
    else
      var page :- CleanPage(pages[0]);
      var rest :- CleanPages(pages[1..]);
      assert forall i :: 1 <= i < |pages| ==> pages[i] == pages[1..][i - 1];
      Success([page] + rest)
  }

  /** Cleaning cleaned pages changes nothing. */
  lemma CleanPagesIdempotent(pages: seq<Value>)
    requires CleanPages(pages).Success?
    ensures CleanPages(CleanPages(pages).value) == CleanPages(pages)
  {
    var cleaned := CleanPages(pages).value;
    forall i | 0 <= i < |cleaned|
      ensures CleanPage(cleaned[i]) == Success(cleaned[i])
    {
      CleanPageIdempotent(pages[i]);
    }
    var again := CleanPages(cleaned).value;
    assert forall i :: 0 <= i < |cleaned| ==> again[i] == cleaned[i];
  }

  /** `data['covarnius']`: only a dict can be indexed by a string, and the key must be there. */
  function Block(data: Value): (r: Result<Value, PyError>)
    ensures r.Failure? <==> !data.Obj? || !HasKey(data.members, COVARNIUS)
    ensures data.Obj? && !HasKey(data.members, COVARNIUS) ==> r == Failure(KeyError)
    ensures r.Success? ==> Get(data.members, COVARNIUS) == Some(r.value)
  {
    if !data.Obj? then Failure(TypeError)
    else if !HasKey(data.members, COVARNIUS) then Failure(KeyError)
    else Success(Get(data.members, COVARNIUS).value)
  }

  /** `"story" in data and isinstance(data["story"], list)`, else `ValueError`. */
  function StoryList(block: Value): (r: Result<seq<Value>, PyError>)
    ensures block.Obj? ==> (r.Success? <==>
      HasKey(block.members, "story") && Get(block.members, "story").value.Arr?)
    ensures block.Obj? && r.Failure? ==> r.error == ValueError
    ensures r.Success? ==> block.Obj? && Get(block.members, "story") == Some(Arr(r.value))
  {
    var has :- PyContains(block, "story");
    if !has then Failure(ValueError)
    else if !block.Obj? then Failure(TypeError)
    else
      var story := Get(block.members, "story").value;
      if story.Arr? then Success(story.items) else Failure(ValueError)
  }

  /** The block with its pages cleaned in place. */
  function CleanBlock(block: Value): (r: Result<Value, PyError>)
    ensures r.Success? ==>
              && StoryList(block).Success?
              && CleanPages(StoryList(block).value).Success?
              && r.value.Obj?
              && Get(r.value.members, "story") == Some(Arr(CleanPages(StoryList(block).value).value))
    ensures r.Success? ==> forall k :: k != "story" ==> Get(r.value.members, k) == Get(block.members, k)
  {
    var pages :- StoryList(block);
    var cleaned :- CleanPages(pages);
    Success(Obj(Set(block.members, "story", Arr(cleaned))))
  }

  /** Cleaning a cleaned block changes nothing. */
  lemma CleanBlockIdempotent(block: Value)
    requires CleanBlock(block).Success?
    ensures CleanBlock(CleanBlock(block).value) == CleanBlock(block)
  {
    var pages := StoryList(block).value;
    var cleaned := CleanPages(pages).value;
    CleanPagesIdempotent(pages);
    assert StoryList(CleanBlock(block).value) == Success(cleaned);
    SetTwice(block.members, "story", Arr(cleaned));
  }

  /** `update_story_images_in_place` as written: the document it writes back is the inner
      block, because `data` was rebound to `data['covarnius']`. */
  function UpdateAsWritten(data: Value): (r: Result<Value, PyError>)
    ensures r.Success? ==> Block(data).Success? && r == CleanBlock(Block(data).value)
    ensures r.Success? ==> Get(r.value.members, COVARNIUS) == Get(Block(data).value.members, COVARNIUS)
  {
    var block :- Block(data);
    CleanBlock(block)
  }

  /** As written, a block without a "covarnius" member of its own is written without the
      wrapper, so the script cannot run on its own output. */
  lemma AsWrittenCannotRerun(data: Value)
    requires UpdateAsWritten(data).Success?
    requires !HasKey(Block(data).value.members, COVARNIUS)
    ensures UpdateAsWritten(UpdateAsWritten(data).value) == Failure(KeyError)
  {
  }

  /** The smallest document that shows it. */
  lemma AsWrittenDropsWrapper()
    ensures var data := Obj([Member(COVARNIUS, Obj([Member("story", Arr([]))]))]);
      && UpdateAsWritten(data) == Success(Obj([Member("story", Arr([]))]))
      && UpdateAsWritten(UpdateAsWritten(data).value) == Failure(KeyError)
  {
    var data := Obj([Member(COVARNIUS, Obj([Member("story", Arr([]))]))]);
    var block := Obj([Member("story", Arr([]))]);
    assert Block(data) == Success(block);
    assert Get(block.members, "story") == Some(Arr([]));
    assert Set(block.members, "story", Arr([])) == block.members;
    assert CleanPages([]) == Success([]);
    assert !HasKey(block.members, COVARNIUS);
  }

  /** The update as intended: the cleaned block is stored back under "covarnius" and the
      rest of the document is kept. */
  function Update(data: Value): (r: Result<Value, PyError>)
    ensures r.Success? <==> Block(data).Success? && CleanBlock(Block(data).value).Success?
    ensures r.Success? ==>
              && r.value.Obj?
              && Get(r.value.members, COVARNIUS) == Some(CleanBlock(Block(data).value).value)
    ensures r.Success? ==> forall k :: k != COVARNIUS ==> Get(r.value.members, k) == Get(data.members, k)
  {
    var block :- Block(data);
    var cleaned :- CleanBlock(block);
    Success(Obj(Set(data.members, COVARNIUS, cleaned)))
  }

  /** The intended update can be run again on its own output, and then changes nothing. */
  lemma UpdateIdempotent(data: Value)
    requires Update(data).Success?
    ensures Update(Update(data).value) == Update(data)
  {
    var block := Block(data).value;
    var cleaned := CleanBlock(block).value;
    CleanBlockIdempotent(block);
    assert Block(Update(data).value) == Success(cleaned);
    SetTwice(data.members, COVARNIUS, cleaned);
  }

  /** A block without a "story" list raises `ValueError`, whatever else it holds. */
  lemma MissingStoryRaises(data: Value)
    requires Block(data).Success? && Block(data).value.Obj?
    requires var block := Block(data).value;
      !HasKey(block.members, "story") || !Get(block.members, "story").value.Arr?
    ensures Update(data) == Failure(ValueError)
    ensures UpdateAsWritten(data) == Failure(ValueError)
  {
  }
}

=== FILE: image_map.dfy ===
/** assets/generateImageMap.js: for every image file found under a story's chapter
    directories, an identifier to import it under, a `require` line, and an entry of the
    generated `imageMap` object. The directory walk itself is not modelled: its result is
    the list of files. */
module ImageMap {
  import opened Wrappers
  import opened Json
  import Text

  /** One file the walk finds: `<storyId>/chapters/<chapter>/<file>`. */
  datatype ImageFile = ImageFile(storyId: string, chapter: string, file: string)

  /** `/\.[^/.]+$/` matches at `i`: a `.` followed by at least one character, none of them
      a `.` or `/`, up to the end. */
  predicate ExtensionAt(f: string, i: int) {
    0 <= i < |f| - 1 && f[i] == '.' && forall j :: i < j < |f| ==> f[j] != '.' && f[j] != '/'
  }

  /** The index of the last `.`. */
  function LastDot(f: string): (r: Option<nat>)
    ensures r.Some? ==> r.value < |f| && f[r.value] == '.' && forall j :: r.value < j < |f| ==> f[j] != '.'
    ensures r.None? ==> '.' !in f
    decreases |f|
  {
    if f == [] then None
    else if f[|f| - 1] == '.' then Some(|f| - 1)
    else
      var r := LastDot(f[..|f| - 1]);
      assert forall j :: 0 <= j < |f| - 1 ==> f[..|f| - 1][j] == f[j];
      r
  }

  /** `fileName.replace(/\.[^/.]+$/, "")`: the extension, if the name has one, is cut off. */
  function StripExtension(f: string): (r: string)
    ensures |r| <= |f| && f[..|r|] == r
    ensures r != f <==> exists i :: ExtensionAt(f, i)
    ensures r != f ==> ExtensionAt(f, |r|)
  {
    match LastDot(f)
    case None => f
    case Some(i) =>
      if i < |f| - 1 && forall j :: i < j < |f| ==> f[j] != '/' then
        assert ExtensionAt(f, i);
        f[..i]
      else
        assert forall k :: !ExtensionAt(f, k) by {
          forall k | ExtensionAt(f, k) ensures false {
          }
        }
        f
  }

  /** The characters `/[^a-zA-Z0-9_]/g` leaves alone. */
  predicate Allowed(c: char) {
    ('a' <= c <= 'z') || ('A' <= c <= 'Z') || ('0' <= c <= '9') || c == '_'
  }

  /** `s.replace(/[^a-zA-Z0-9_]/g, "_")`: without the `u` flag the pattern works on UTF-16
      code units, so a character above U+FFFF becomes two underscores. */
  function Sanitize(s: string): (r: string)
    ensures |r| == Text.Utf16Length(s)
    ensures forall i :: 0 <= i < |r| ==> Allowed(r[i])
  {
    if s == [] then []
    else (if Allowed(s[0]) then [s[0]] else if s[0] as int > 0xFFFF then "__" else "_") + Sanitize(s[1..])
  }

  /** Sanitizing works character by character. */
  lemma {:induction false} SanitizeAppend(a: string, b: string)
    ensures Sanitize(a + b) == Sanitize(a) + Sanitize(b)
    decreases |a|
  {
    if a == [] {
      assert a + b == b;
    } else {
      assert (a + b)[1..] == a[1..] + b;
      SanitizeAppend(a[1..], b);
    }
  }

  /** A text is left unchanged exactly when every character is allowed. */
  lemma {:induction false} SanitizeFixedIff(s: string)
    ensures Sanitize(s) == s <==> forall i :: 0 <= i < |s| ==> Allowed(s[i])
    decreases |s|
  {
    if s != [] {
      SanitizeFixedIff(s[1..]);
      if Allowed(s[0]) {
        assert s == [s[0]] + s[1..];
        assert forall i :: 1 <= i < |s| ==> s[i] == s[1..][i - 1];
      }
    }
  }

  /** So sanitizing twice is sanitizing once. */
  lemma SanitizeIdempotent(s: string)
    ensures Sanitize(Sanitize(s)) == Sanitize(s)
  {
    SanitizeFixedIff(Sanitize(s));
  }

  /** `getImportName(storyId, chapter, fileName)`. */
  function ImportName(f: ImageFile): (r: string)
    ensures forall i :: 0 <= i < |r| ==> Allowed(r[i])
    ensures |r| == Text.Utf16Length(f.storyId) + Text.Utf16Length(f.chapter)
                   + Text.Utf16Length(StripExtension(f.file)) + 2
  {
    var s := f.storyId + "_" + f.chapter + "_" + StripExtension(f.file);
    Text.Utf16LengthAppend(f.storyId + "_" + f.chapter + "_", StripExtension(f.file));
    Text.Utf16LengthAppend(f.storyId + "_" + f.chapter, "_");
    Text.Utf16LengthAppend(f.storyId + "_", f.chapter);
    Text.Utf16LengthAppend(f.storyId, "_");
    Sanitize(s)
  }

  /** The name is the three sanitized parts joined by underscores. */
  lemma ImportNameParts(f: ImageFile)
    ensures ImportName(f) == Sanitize(f.storyId) + "_" + Sanitize(f.chapter) + "_" + Sanitize(StripExtension(f.file))
  {
    var a, b, c := f.storyId, f.chapter, StripExtension(f.file);
    SanitizeAppend(a + "_" + b + "_", c);
    SanitizeAppend(a + "_" + b, "_");
    SanitizeAppend(a + "_", b);
    SanitizeAppend(a, "_");
    assert Sanitize("_") == "_";
  }

  /** A plain extension: non-empty, without `.` or `/`. */
  predicate PlainExtension(ext: string) {
    ext != [] && forall j :: 0 <= j < |ext| ==> ext[j] != '.' && ext[j] != '/'
  }

  /** A name with a plain extension loses exactly the extension. */
  lemma StripsTo(base: string, ext: string)
    requires PlainExtension(ext)
    ensures StripExtension(base + "." + ext) == base
  {
    var f := base + "." + ext;
    assert ExtensionAt(f, |base|) by {
      forall j | |base| < j < |f| ensures f[j] != '.' && f[j] != '/' {
        assert f[j] == ext[j - |base| - 1];
      }
    }
    assert f[..|base|] == base;
  }

  /** Different files can share an import name: the extension is dropped, and characters
      that are not allowed all become `_`, so the generated module would declare one name
      twice. */
  lemma ExtensionsCollide(storyId: string, chapter: string, base: string, ext: string, ext': string)
    requires PlainExtension(ext) && PlainExtension(ext')
    ensures ImportName(ImageFile(storyId, chapter, base + "." + ext))
         == ImportName(ImageFile(storyId, chapter, base + "." + ext'))
  {
    StripsTo(base, ext);
    StripsTo(base, ext');
  }

  /** ... and so can names that differ only in a character that is not allowed. */
  lemma PunctuationCollides(storyId: string, chapter: string, ext: string)
    requires PlainExtension(ext)
    ensures ImportName(ImageFile(storyId, chapter, "a-b" + "." + ext))
         == ImportName(ImageFile(storyId, chapter, "a_b" + "." + ext))
  {
    var f, g := ImageFile(storyId, chapter, "a-b" + "." + ext), ImageFile(storyId, chapter, "a_b" + "." + ext);
    StripsTo("a-b", ext);
    StripsTo("a_b", ext);
    ImportNameParts(f);
    ImportNameParts(g);
    DashBecomesUnderscore();
  }

  lemma DashBecomesUnderscore()
    ensures Sanitize("a-b") == Sanitize("a_b")
  {
    SanitizeAppend("a", "-b");
    SanitizeAppend("a", "_b");
    SanitizeAppend("-", "b");
    SanitizeAppend("_", "b");
    assert "a-b" == "a" + "-b" && "-b" == "-" + "b";
    assert "a_b" == "a" + "_b" && "_b" == "_" + "b";
  }

  /** The path the `require` line loads. */
  function ImportPath(f: ImageFile): string {
    "../assets/images/stories/" + f.storyId + "/chapters/" + f.chapter + "/" + f.file
  }

  /** `const <name> = require("<path>");`. */
  function ImportLine(f: ImageFile): string {
    "const " + ImportName(f) + " = require(\"" + ImportPath(f) + "\");"
  }

  /** The key of the file's map entry. */
  function MapKey(f: ImageFile): string {
    f.storyId + "/" + f.chapter + "/" + f.file
  }

  /** The import lines, one per file in walk order. */
  function ImportLines(files: seq<ImageFile>): (r: seq<string>)
    ensures |r| == |files| && forall i :: 0 <= i < |files| ==> r[i] == ImportLine(files[i])
  {
    seq(|files|, i requires 0 <= i < |files| => ImportLine(files[i]))
  }

  /** A file whose names have no line break gives a one-line import. */
  predicate SingleLine(f: ImageFile) {
    '\n' !in f.storyId && '\n' !in f.chapter && '\n' !in f.file
  }

  lemma ImportLineSingle(f: ImageFile)
    requires SingleLine(f)
    ensures '\n' !in ImportLine(f)
  {
    var name, path := ImportName(f), ImportPath(f);
    NameHasNoBreak(f);
    PathHasNoBreak(f);
    NoBreakAppend("const ", name);
    NoBreakAppend("const " + name, " = require(\"");
    NoBreakAppend("const " + name + " = require(\"", path);
    NoBreakAppend("const " + name + " = require(\"" + path, "\");");
  }

  lemma NameHasNoBreak(f: ImageFile)
    ensures '\n' !in ImportName(f)
  {
  }

  lemma PathHasNoBreak(f: ImageFile)
    requires SingleLine(f)
    ensures '\n' !in ImportPath(f)
  {
    var a := "../assets/images/stories/" + f.storyId;
    NoBreakAppend("../assets/images/stories/", f.storyId);
    NoBreakAppend(a, "/chapters/");
    NoBreakAppend(a + "/chapters/", f.chapter);
    NoBreakAppend(a + "/chapters/" + f.chapter, "/");
    NoBreakAppend(a + "/chapters/" + f.chapter + "/", f.file);
  }

  lemma NoBreakAppend(a: string, b: string)
    requires '\n' !in a && '\n' !in b
    ensures '\n' !in a + b
  {
  }

  /** The import block `imports.join("\n")` splits back into exactly the import lines,
      one per file, when no name holds a line break. */
  lemma ImportBlockLines(files: seq<ImageFile>)
    requires files != [] && forall i :: 0 <= i < |files| ==> SingleLine(files[i])
    ensures Text.Split(Text.Join(ImportLines(files), "\n"), '\n') == ImportLines(files)
  {
    var lines := ImportLines(files);
    forall i | 0 <= i < |lines| ensures '\n' !in lines[i] {
      ImportLineSingle(files[i]);
    }
    Text.SplitJoin(lines, '\n');
  }

  /** `mappings[key] = importName` for every file in walk order: an assignment to a key
      already present overwrites it in place, as for any object key that is not an array
      index (these contain `/`). */
  function Mappings(files: seq<ImageFile>): (r: seq<Member>)
    ensures forall i :: 0 <= i < |r| ==> r[i].value.Str?
    ensures UniqueKeys(r)
    ensures forall k :: HasKey(r, k) <==> exists j :: 0 <= j < |files| && MapKey(files[j]) == k
    decreases |files|
  {
    if files == [] then []
    else
      var prefix, last := files[..|files| - 1], files[|files| - 1];
      var prev := Mappings(prefix);
      SetKeepsStrings(prev, MapKey(last), ImportName(last));
      SetKeepsUnique(prev, MapKey(last), Str(ImportName(last)));
      forall k ensures HasKey(Set(prev, MapKey(last), Str(ImportName(last))), k)
                       <==> exists j :: 0 <= j < |files| && MapKey(files[j]) == k {
        SetKeys(prev, MapKey(last), Str(ImportName(last)), k);
        MapKeysStep(files, prefix, k);
      }
      Set(prev, MapKey(last), Str(ImportName(last)))
  }

  /** A key is some file's key exactly when it is an earlier file's or the last file's. */
  lemma MapKeysStep(files: seq<ImageFile>, prefix: seq<ImageFile>, k: string)
    requires files != [] && prefix == files[..|files| - 1]
    ensures (exists j :: 0 <= j < |files| && MapKey(files[j]) == k) <==>
      (exists j :: 0 <= j < |prefix| && MapKey(prefix[j]) == k) || MapKey(files[|files| - 1]) == k
  {
    if exists j :: 0 <= j < |prefix| && MapKey(prefix[j]) == k {
      var j :| 0 <= j < |prefix| && MapKey(prefix[j]) == k;
      assert MapKey(files[j]) == k;
    }
  }

  lemma {:induction false} SetKeepsStrings(members: seq<Member>, key: string, s: string)
    requires forall i :: 0 <= i < |members| ==> members[i].value.Str?
    ensures forall i :: 0 <= i < |Set(members, key, Str(s))| ==> Set(members, key, Str(s))[i].value.Str?
    decreases |members|
  {
    if |members| > 0 && members[0].key != key {
      SetKeepsStrings(members[1..], key, s);
      var rest := Set(members[1..], key, Str(s));
      assert Set(members, key, Str(s)) == [members[0]] + rest;
    }
  }

  /** Every file's key maps to its import name, unless a later file has the same key. */
  lemma {:induction false} MappingOfFile(files: seq<ImageFile>, i: int)
    requires 0 <= i < |files|
    requires forall j :: i < j < |files| ==> MapKey(files[j]) != MapKey(files[i])
    ensures Get(Mappings(files), MapKey(files[i])) == Some(Str(ImportName(files[i])))
    decreases |files|
  {
    if i < |files| - 1 {
      var prefix := files[..|files| - 1];
      assert prefix[i] == files[i];
      MappingOfFile(prefix, i);
    }
  }

  /** One entry line of the map object: `  "<key>": <name>`. */
  function EntryLine(m: Member): string
    requires m.value.Str?
  {
    "  \"" + m.key + "\": " + m.value.s
  }

  /** The entry lines in `Object.entries` order. */
  function EntryLines(members: seq<Member>): (r: seq<string>)
    requires forall i :: 0 <= i < |members| ==> members[i].value.Str?
    ensures |r| == |members| && forall i :: 0 <= i < |members| ==> r[i] == EntryLine(members[i])
  {
    seq(|members|, i requires 0 <= i < |members| && members[i].value.Str? => EntryLine(members[i]))
  }

  /** The generated `imageMap.ts`. */
  function ModuleText(files: seq<ImageFile>): string {
    Text.Join(ImportLines(files), "\n") + MapDeclaration(Mappings(files))
  }

  /** The text after the import block: the map object and the export. */
  function MapDeclaration(members: seq<Member>): string
    requires forall i :: 0 <= i < |members| ==> members[i].value.Str?
  {
    "\n\nconst imageMap: Record<string, any> = {\n"
      + Text.Join(EntryLines(members), ",\n")
      + "\n};\n\nexport default imageMap;\n"
  }

  /** The module text begins with the import block. */
  lemma ModuleStartsWithImports(files: seq<ImageFile>)
    ensures Text.StartsWith(ModuleText(files), Text.Join(ImportLines(files), "\n"))
  {
    Text.StartsWithAppend(Text.Join(ImportLines(files), "\n"), MapDeclaration(Mappings(files)));
  }
}

=== FILE: json.dfy ===
/** Parsed JSON values, as the Python scripts (`json.load`) and the translation tables see
    them. Objects keep their members in document order; numbers are integers. */
module Json {
  import opened Wrappers

  datatype Value =
    | Null
    | Bool(b: bool)
    | Num(n: int)
    | Str(s: string)
    | Arr(items: seq<Value>)
    | Obj(members: seq<Member>)

  datatype Member = Member(key: string, value: Value)

  /** Python `key in d`: the object has a member named `key`. */
  predicate HasKey(members: seq<Member>, key: string) {
    exists i :: 0 <= i < |members| && members[i].key == key
  }

  /** No two members share a key, as in any object built by assignment. */
  predicate UniqueKeys(members: seq<Member>) {
    forall a, b :: 0 <= a < b < |members| ==> members[a].key != members[b].key
  }

  /** Python `d.get(key)` / JavaScript `obj[key]` for an own member. */
  function Get(members: seq<Member>, key: string): (r: Option<Value>)
    ensures r.Some? <==> HasKey(members, key)
    ensures r.Some? ==> exists i :: 0 <= i < |members| && members[i] == Member(key, r.value)
  {
    if |members| == 0 then None
    else if members[0].key == key then Some(members[0].value)
    else
      var r := Get(members[1..], key);
      assert r.Some? ==> exists i :: 0 <= i < |members| && members[i] == Member(key, r.value) by {
        if r.Some? {
          var i :| 0 <= i < |members[1..]| && members[1..][i] == Member(key, r.value);
          assert members[i + 1] == Member(key, r.value);
        }
      }
      assert HasKey(members, key) ==> HasKey(members[1..], key) by {
        if HasKey(members, key) {
          var i :| 0 <= i < |members| && members[i].key == key;
          assert members[1..][i - 1].key == key;
        }
      }
      r
  }

  /** Python `d[key] = v`: overwrite the first member named `key` in place, or append. */
  function Set(members: seq<Member>, key: string, v: Value): (r: seq<Member>)
    ensures Get(r, key) == Some(v)
    ensures forall k :: k != key ==> Get(r, k) == Get(members, k)
    ensures |r| == |members| || |r| == |members| + 1
  {
    if |members| == 0 then [Member(key, v)]
    else if members[0].key == key then [Member(key, v)] + members[1..]
    else
      var rest := Set(members[1..], key, v);
      assert ([members[0]] + rest)[1..] == rest;
      [members[0]] + rest
  }

  /** After an assignment, the keys are the old ones and the assigned one. */
  lemma SetKeys(members: seq<Member>, key: string, v: Value, k: string)
    ensures HasKey(Set(members, key, v), k) <==> k == key || HasKey(members, k)
  {
    if k != key {
      assert Get(Set(members, key, v), k) == Get(members, k);
    }
  }

  /** Every key after an assignment is the assigned one or an old one. */
  lemma SetMemberKey(members: seq<Member>, key: string, v: Value, b: int)
    requires 0 <= b < |Set(members, key, v)|
    ensures var k := Set(members, key, v)[b].key;
      k == key || exists c :: 0 <= c < |members| && members[c].key == k
  {
    var k := Set(members, key, v)[b].key;
    assert HasKey(Set(members, key, v), k);
    SetKeys(members, key, v, k);
  }

  /** Assignment never adds a second member with the same key. */
  lemma {:induction false} SetKeepsUnique(members: seq<Member>, key: string, v: Value)
    requires UniqueKeys(members)
    ensures UniqueKeys(Set(members, key, v))
    decreases |members|
  {
    if |members| > 0 {
      var first, tail := members[0], members[1..];
      if first.key == key {
        var r := Set(members, key, v);
        forall a, b | 0 <= a < b < |r| ensures r[a].key != r[b].key {
          assert r[b] == members[b];
          if a > 0 {
            assert r[a] == members[a];
          }
        }
      } else {
        SetKeepsUnique(tail, key, v);
        var rest := Set(tail, key, v);
        assert Set(members, key, v) == [first] + rest;
        forall b | 0 <= b < |rest| ensures rest[b].key != first.key {
          SetMemberKey(tail, key, v, b);
          if rest[b].key != key {
            var c :| 0 <= c < |tail| && tail[c].key == rest[b].key;
            assert members[c + 1] == tail[c];
          }
        }
      }
    }
  }

  /** Setting the same member twice is setting it once. */
  lemma {:induction false} SetTwice(members: seq<Member>, key: string, v: Value)
    ensures Set(Set(members, key, v), key, v) == Set(members, key, v)
  {
    if |members| > 0 && members[0].key != key {
      SetTwice(members[1..], key, v);
      var rest := Set(members[1..], key, v);
      assert ([members[0]] + rest)[1..] == rest;
    }
  }

  /** In an object whose keys are distinct, a member's key finds that member's value. */
  lemma {:induction false} GetAt(members: seq<Member>, i: int)
    requires 0 <= i < |members|
    requires forall a, b :: 0 <= a < b < |members| ==> members[a].key != members[b].key
    ensures Get(members, members[i].key) == Some(members[i].value)
    decreases |members|
  {
    if i > 0 {
      assert members[0].key != members[i].key;
      GetAt(members[1..], i - 1);
    }
  }
}

=== FILE: language_provider.dfy ===
/** The language state of localization/LanguageProvider.tsx: the saved language restored on
    mount, `setLang` persisting the choice, and `t` on the chosen table. */
module LanguageProvider {
  import opened Wrappers
  import opened Json
  import opened AsyncStore
  import Text
  import ObjectCounts
  import Localization
  import LocaleKeys

  /** The own keys of the provider's `LANGUAGES` object. */
  const LANGUAGE_CODES: set<string> := {"en", "es", "is", "de", "fr", "ja"}

  /** The language before anything is restored. */
  const DEFAULT_LANGUAGE := "en"

  /** Where the chosen language is kept. */
  const STORAGE_KEY := "selectedLanguage"

  /** `LANGUAGES[code]` is truthy: one of its own keys, or a name every plain object
      inherits from `Object.prototype`. */
  predicate Known(code: string) {
    code in LANGUAGE_CODES || code in ObjectCounts.PROTOTYPE_NAMES
  }

  /** The mount effect: `if (saved && LANGUAGES[saved]) setLangState(saved)`. */
  function Restore(saved: Option<string>): (lang: string)
    ensures saved.Some? && Known(saved.value) ==> lang == saved.value
    ensures saved.None? || !Known(saved.value) ==> lang == DEFAULT_LANGUAGE
  {
    if saved.Some? && saved.value != "" && Known(saved.value) then saved.value else DEFAULT_LANGUAGE
  }

  /** The language after mounting on a store. */
  function Mount(store: Store): string {
    Restore(GetItem(store, STORAGE_KEY))
  }

  /** `setLang(code)`: the code is written to the store, then becomes the language. */
  function SetLang(store: Store, code: string): (res: (Store, string))
    ensures res.1 == code
    ensures GetItem(res.0, STORAGE_KEY) == Some(code)
    ensures forall k :: k != STORAGE_KEY ==> GetItem(res.0, k) == GetItem(store, k)
  {
    (SetItem(store, STORAGE_KEY, code), code)
  }

  /** A chosen language survives a restart exactly when the restore guard accepts it; any
      other choice comes back as English. */
  lemma ChoiceSurvivesRestart(store: Store, code: string)
    ensures Known(code) ==> Mount(SetLang(store, code).0) == code
    ensures !Known(code) ==> Mount(SetLang(store, code).0) == DEFAULT_LANGUAGE
  {
  }

  /** Every code the selection screen offers survives a restart. */
  lemma OfferedCodesSurvive(store: Store, code: string)
    requires code in LANGUAGE_CODES
    ensures Mount(SetLang(store, code).0) == code
  {
    ChoiceSurvivesRestart(store, code);
  }

  /** `t(key, vars)` with the current language's table; the tables are the imported JSON
      files. The walk from an inherited name's member is not modelled: such a language
      finds nothing but the key. */
  function T(tables: map<string, Value>, lang: string, key: string, vars: seq<(string, string)>): (r: string)
    ensures lang !in tables ==> r == key
    ensures lang in tables ==> r == Localization.Translate(tables[lang], key, vars)
  {
    if lang in tables then Localization.Translate(tables[lang], key, vars) else key
  }

  /** After choosing an offered language and restarting, `t` reads that language's table:
      a key `getAllKeys` lists there with a string shows the string (filled in), and a key
      it does not list shows itself. */
  lemma TranslationAfterRestart(tables: map<string, Value>, store: Store, code: string, key: string,
                                vars: seq<(string, string)>)
    requires code in LANGUAGE_CODES && code in tables && LocaleKeys.WellFormed(tables[code])
    ensures var shown := T(tables, Mount(SetLang(store, code).0), key, vars);
      && (key !in LocaleKeys.GetAllKeys(tables[code]) ==> shown == key)
      && (var found := Localization.Walk(Some(tables[code]), Text.Split(key, '.'));
          found.Some? && found.value.Str? ==>
            key in LocaleKeys.GetAllKeys(tables[code]) && shown == Localization.Substitute(found.value.s, vars))
  {
    OfferedCodesSurvive(store, code);
    LocaleKeys.ListedKeysResolve(tables[code], key);
  }
}

/** The module-level translator of localization/index.ts: a current language among three
    tables, changed by `setLanguage`. */
module LocalizationIndex {
  import opened Wrappers
  import opened Json
  import Text
  import ObjectCounts
  import Localization
  import LocaleKeys
  import LanguageProvider

  /** The own keys of this module's `LANGUAGES` object. */
  const INDEX_CODES: set<string> := {"en", "es", "is"}

  /** `let currentLang = "en"`. */
  const INITIAL_LANGUAGE := "en"

  /** `setLanguage(lang)` as written: `if (LANGUAGES[lang]) currentLang = lang`, which is
      also truthy for the names every object inherits. */
  function SetLanguageAsWritten(current: string, lang: string): (r: string)
    ensures lang in INDEX_CODES || lang in ObjectCounts.PROTOTYPE_NAMES ==> r == lang
    ensures !(lang in INDEX_CODES || lang in ObjectCounts.PROTOTYPE_NAMES) ==> r == current
  {
    if lang in INDEX_CODES || lang in ObjectCounts.PROTOTYPE_NAMES then lang else current
  }

  /** As written, `setLanguage("constructor")` leaves the current language naming no table,
      after which `t` shows raw keys. */
  lemma AsWrittenLeavesTables()
    ensures SetLanguageAsWritten(INITIAL_LANGUAGE, "constructor") !in INDEX_CODES
  {
    assert "constructor" in ObjectCounts.PROTOTYPE_NAMES;
  }

  /** `setLanguage` as intended: only an own key of `LANGUAGES` is adopted. */
  function SetLanguage(current: string, lang: string): (r: string)
    ensures lang in INDEX_CODES ==> r == lang
    ensures lang !in INDEX_CODES ==> r == current
  {
    if lang in INDEX_CODES then lang else current
  }

  /** The current language always names a table, from the initial one through any
      sequence of calls. */
  lemma {:induction false} CurrentAlwaysHasTable(langs: seq<string>)
    ensures SetAll(INITIAL_LANGUAGE, langs) in INDEX_CODES
    decreases |langs|
  {
    if langs != [] {
      CurrentAlwaysHasTable(langs[..|langs| - 1]);
    }
  }

  /** The language after calling `setLanguage` with each code in turn. */
  function SetAll(current: string, langs: seq<string>): string
    decreases |langs|
  {
    if langs == [] then current else SetLanguage(SetAll(current, langs[..|langs| - 1]), langs[|langs| - 1])
  }

  /** After any sequence of `setLanguage` calls, `t` reads one of the module's tables: a
      key `getAllKeys` does not list there shows itself, and a key whose path ends on a
      string is listed and, without variables, shows that string. */
  lemma TranslationAfterCalls(tables: map<string, Value>, langs: seq<string>, key: string,
                              vars: seq<(string, string)>)
    requires forall c :: c in INDEX_CODES ==> c in tables && LocaleKeys.WellFormed(tables[c])
    ensures var current := SetAll(INITIAL_LANGUAGE, langs);
      && current in tables
      && (key !in LocaleKeys.GetAllKeys(tables[current]) ==> T(tables, current, key, vars) == key)
      && (var found := Localization.Walk(Some(tables[current]), Text.Split(key, '.'));
          found.Some? && found.value.Str? ==>
            key in LocaleKeys.GetAllKeys(tables[current]) && T(tables, current, key, []) == found.value.s)
  {
    var current := SetAll(INITIAL_LANGUAGE, langs);
    CurrentAlwaysHasTable(langs);
    LocaleKeys.ListedKeysResolve(tables[current], key);
  }

  /** `t(key, vars)` on the current language's table: the provider's lookup, with the
      module's own current language. */
  function T(tables: map<string, Value>, current: string, key: string, vars: seq<(string, string)>): (r: string)
    ensures current !in tables ==> r == key
    ensures current in tables ==> r == Localization.Translate(tables[current], key, vars)
  {
    LanguageProvider.T(tables, current, key, vars)
  }
}

=== FILE: locale_keys.dfy ===
/** The key-consistency test of __test__/localization.test.js: `getAllKeys` flattens a
    translation table into the dotted paths of its leaves, and two tables agree when
    neither has a key the other lacks. The lemmas tie the flattened keys to what `t`
    finds when it walks the same key. */
module LocaleKeys {
  import opened Wrappers
  import opened Json
  import Text
  import opened Localization

  /** `prefix ? `${prefix}.${key}` : key`: an empty prefix counts as none. */
  function FullKey(prefix: string, key: string): (r: string)
    ensures prefix != "" ==> |r| == |prefix| + 1 + |key|
  {
    if prefix == "" then key else prefix + "." + key
  }

  /** `typeof v === "object" && v !== null`: objects and arrays. */
  predicate IsContainer(v: Value) {
    v.Obj? || v.Arr?
  }

  /** The number of own keys `Object.keys` lists. */
  function Width(v: Value): nat {
    match v
    case Obj(members) => |members|
    case Arr(items) => |items|
    case _ => 0
  }

  /** The `i`-th own key: a member's key, or an array index's decimal text. */
  function KeyAt(v: Value, i: nat): string
    requires i < Width(v)
  {
    if v.Obj? then v.members[i].key else Text.NatToString(i)
  }

  /** The value under the `i`-th own key. */
  function ChildAt(v: Value, i: nat): (c: Value)
    requires i < Width(v)
    ensures c < v
  {
    match v
    case Obj(members) => members[i].value
    case Arr(items) => items[i]
  }

  /** `getAllKeys(v, prefix)`. */
  function KeysOf(v: Value, prefix: string): seq<string>
    decreases v, Width(v) + 1
  {
    KeysFrom(v, prefix, 0)
  }

  /** The keys contributed by the own keys of `v` from the `i`-th on, in `Object.keys`
      order. */
  function KeysFrom(v: Value, prefix: string, i: nat): seq<string>
    decreases v, Width(v) - i
  {
    if i >= Width(v) then []
    else EntryKeys(ChildAt(v, i), FullKey(prefix, KeyAt(v, i))) + KeysFrom(v, prefix, i + 1)
  }

  /** One key's contribution: a nested object's or array's leaves, or the key itself. */
  function EntryKeys(child: Value, fullKey: string): seq<string>
    decreases child, Width(child) + 2
  {
    if IsContainer(child) then KeysOf(child, fullKey) else [fullKey]
  }

  /** `getAllKeys(json)` for a whole translation file. */
  function GetAllKeys(root: Value): seq<string> {
    KeysOf(root, "")
  }

  /** What `JSON.parse` gives a translation file: own keys are distinct, and the keys of
      objects are non-empty and free of `.` (a key with a `.` could not be reached by
      `t`). */
  predicate WellFormed(v: Value)
    decreases v
  {
    match v
    case Obj(members) =>
      && (forall i :: 0 <= i < |members| ==> members[i].key != "" && '.' !in members[i].key)
      && (forall a, b :: 0 <= a < b < |members| ==> members[a].key != members[b].key)
      && (forall i :: 0 <= i < |members| ==> WellFormed(members[i].value))
    case Arr(items) => forall i :: 0 <= i < |items| ==> WellFormed(items[i])
    case _ => true
  }

  /** The walk ended on a value that is not an object or array. */
  predicate Leaf(found: Option<Value>) {
    found.Some? && !IsContainer(found.value)
  }

  /** In a well-formed table, the `i`-th own key is one part of a path, and stepping by it
      reaches the `i`-th child. */
  lemma ChildStep(v: Value, i: nat)
    requires WellFormed(v) && i < Width(v)
    ensures KeyAt(v, i) != "" && '.' !in KeyAt(v, i)
    ensures Step(Some(v), KeyAt(v, i)) == Some(ChildAt(v, i))
    ensures WellFormed(ChildAt(v, i))
  {
    if v.Obj? {
      GetAt(v.members, i);
    } else {
      CanonicalIndexOfNat(i);
    }
  }

  /** A walk that starts with a part and a separator: the head is one step. */
  lemma WalkThrough(v: Value, k: string, rest: string)
    requires '.' !in k
    ensures Walk(Some(v), Text.Split(k + "." + rest, '.')) == Walk(Step(Some(v), k), Text.Split(rest, '.'))
  {
    Text.SplitAfter(k, '.', rest);
    assert k + "." + rest == k + ['.'] + rest;
    var parts := [k] + Text.Split(rest, '.');
    assert parts[1..] == Text.Split(rest, '.');
  }

  /** Adding one more level to a non-empty prefix. */
  lemma FullKeyNest(p: string, k: string, rest: string)
    requires k != ""
    ensures FullKey(FullKey(p, k), rest) == FullKey(p, k + "." + rest)
  {
  }

  /** Every listed key lies under the prefix, and the rest of it is a path that walks to a
      leaf. */
  lemma ListedKeysOf(v: Value, p: string, key: string)
    requires WellFormed(v) && key in KeysOf(v, p)
    ensures exists rest :: rest != "" && key == FullKey(p, rest) && Leaf(Walk(Some(v), Text.Split(rest, '.')))
  {
    var rest := PathOfListed(v, p, key);
  }

  /** The path of a listed key below the prefix. */
  lemma {:induction false} PathOfListed(v: Value, p: string, key: string) returns (rest: string)
    requires WellFormed(v) && key in KeysOf(v, p)
    ensures rest != "" && key == FullKey(p, rest) && Leaf(Walk(Some(v), Text.Split(rest, '.')))
    decreases v, Width(v) + 1
  {
    rest := PathOfListedFrom(v, p, 0, key);
  }

  lemma {:induction false} PathOfListedFrom(v: Value, p: string, i: nat, key: string) returns (rest: string)
    requires WellFormed(v) && key in KeysFrom(v, p, i)
    ensures rest != "" && key == FullKey(p, rest) && Leaf(Walk(Some(v), Text.Split(rest, '.')))
    decreases v, Width(v) - i
  {
    if i >= Width(v) {
      assert false;
    } else {
      var k, child := KeyAt(v, i), ChildAt(v, i);
      if key in EntryKeys(child, FullKey(p, k)) {
        ChildStep(v, i);
        if IsContainer(child) {
          var rest' := PathOfListed(child, FullKey(p, k), key);
          ListedUnderChild(v, p, i, rest');
          rest := k + "." + rest';
        } else {
          LeafEntryListed(v, i);
          rest := k;
        }
      } else {
        rest := PathOfListedFrom(v, p, i + 1, key);
      }
    }
  }

  /** A path below the `i`-th child, prefixed with that child's key, is a path of `v` that
      ends on the same value. */
  lemma ListedUnderChild(v: Value, p: string, i: nat, rest: string)
    requires WellFormed(v) && i < Width(v)
    ensures FullKey(FullKey(p, KeyAt(v, i)), rest) == FullKey(p, KeyAt(v, i) + "." + rest)
    ensures Walk(Some(v), Text.Split(KeyAt(v, i) + "." + rest, '.'))
      == Walk(Some(ChildAt(v, i)), Text.Split(rest, '.'))
  {
    ChildStep(v, i);
    WalkThrough(v, KeyAt(v, i), rest);
    FullKeyNest(p, KeyAt(v, i), rest);
  }

  /** The `i`-th own key, when its child is a leaf, walks to that leaf. */
  lemma LeafEntryListed(v: Value, i: nat)
    requires WellFormed(v) && i < Width(v) && !IsContainer(ChildAt(v, i))
    ensures Leaf(Walk(Some(v), Text.Split(KeyAt(v, i), '.')))
  {
    var k := KeyAt(v, i);
    ChildStep(v, i);
    Text.SplitFree(k, '.');
    assert Walk(Some(v), Text.Split(k, '.')) == Some(ChildAt(v, i));
  }

  /** Every own key's contribution is among the keys listed from any earlier index. */
  lemma {:induction false} EntryInKeysFrom(v: Value, p: string, i: nat, j: nat, key: string)
    requires i <= j < Width(v)
    requires key in EntryKeys(ChildAt(v, j), FullKey(p, KeyAt(v, j)))
    ensures key in KeysFrom(v, p, i)
    decreases j - i
  {
    if i < j {
      EntryInKeysFrom(v, p, i + 1, j, key);
    }
  }

  /** The own key a successful step of a well-formed table went through. */
  lemma StepFindsChild(v: Value, k: string) returns (i: nat)
    requires WellFormed(v) && Step(Some(v), k).Some? && (v.Arr? ==> k != "length")
    ensures i < Width(v) && KeyAt(v, i) == k && ChildAt(v, i) == Step(Some(v), k).value
  {
    if v.Obj? {
      var found := Get(v.members, k).value;
      var j :| 0 <= j < |v.members| && v.members[j] == Member(k, found);
      i := j;
    } else {
      i := CanonicalIndex(k).value;
    }
  }

  /** A path whose walk ends on a string is listed, under any prefix. */
  lemma {:induction false} WalkedStringListed(v: Value, p: string, parts: seq<string>, s: string)
    requires WellFormed(v) && parts != [] && Walk(Some(v), parts) == Some(Str(s))
    ensures FullKey(p, Text.Join(parts, ".")) in KeysOf(v, p)
    decreases |parts|
  {
    var k := parts[0];
    var next := Step(Some(v), k);
    if next.None? {
      WalkNone(parts[1..]);
      assert false;
    }
    var child := next.value;
    if !IsContainer(child) && |parts| > 1 {
      WalkPastLeaf(child, parts[1..]);
      assert false;
    }
    if k == "length" && v.Arr? {
      assert false;
    }
    var i := StepFindsChild(v, k);
    ChildStep(v, i);
    if |parts| == 1 {
      EntryInKeysFrom(v, p, 0, i, FullKey(p, k));
    } else {
      WalkedStringListed(child, FullKey(p, k), parts[1..], s);
      var j := Text.Join(parts[1..], ".");
      assert Text.Join(parts, ".") == k + "." + j;
      FullKeyNest(p, k, j);
      EntryInKeysFrom(v, p, 0, i, FullKey(p, k + "." + j));
    }
  }

  /** For a well-formed table, every key `getAllKeys` lists walks to a leaf, and every key
      whose walk ends on a string is listed. */
  lemma ListedKeysResolve(root: Value, key: string)
    requires WellFormed(root)
    ensures key in GetAllKeys(root) ==> Leaf(Walk(Some(root), Text.Split(key, '.')))
    ensures Walk(Some(root), Text.Split(key, '.')).Some? && Walk(Some(root), Text.Split(key, '.')).value.Str? ==>
      key in GetAllKeys(root)
  {
    if key in GetAllKeys(root) {
      ListedKeysOf(root, "", key);
    }
    var found := Walk(Some(root), Text.Split(key, '.'));
    if found.Some? && found.value.Str? {
      WalkedStringListed(root, "", Text.Split(key, '.'), found.value.s);
      Text.JoinSplit(key, '.');
    }
  }

  /** A key missing from a well-formed table is shown as the key itself. */
  lemma UnlistedKeyShowsItself(root: Value, key: string, vars: seq<(string, string)>)
    requires WellFormed(root) && key !in GetAllKeys(root)
    ensures Translate(root, key, vars) == key
  {
    ListedKeysResolve(root, key);
  }

  /** `keys.filter((key) => !others.includes(key))`: the missing (or extra) keys. */
  function Without(keys: seq<string>, others: seq<string>): (r: seq<string>)
    ensures forall k :: k in r <==> k in keys && k !in others
    ensures |r| <= |keys|
  {
    if keys == [] then []
    else (if keys[0] in others then [] else [keys[0]]) + Without(keys[1..], others)
  }

  /** No key missing and none extra exactly when both tables list the same keys. */
  lemma NothingMissingIff(enKeys: seq<string>, otherKeys: seq<string>)
    ensures Without(enKeys, otherKeys) == [] && Without(otherKeys, enKeys) == [] <==>
      forall k :: k in enKeys <==> k in otherKeys
  {
    if Without(enKeys, otherKeys) != [] {
      assert Without(enKeys, otherKeys)[0] in Without(enKeys, otherKeys);
    }
    if Without(otherKeys, enKeys) != [] {
      assert Without(otherKeys, enKeys)[0] in Without(otherKeys, enKeys);
    }
  }

  /** The assertion `expect(sorted other).toEqual(sorted en)` (the two lists are
      permutations of each other) implies that nothing is missing or extra. */
  lemma SortedEqualMeansNothingMissing(enKeys: seq<string>, otherKeys: seq<string>)
    requires multiset(enKeys) == multiset(otherKeys)
    ensures Without(enKeys, otherKeys) == [] && Without(otherKeys, enKeys) == []
  {
    forall k ensures k in enKeys <==> k in otherKeys {
      assert k in enKeys <==> k in multiset(enKeys);
      assert k in otherKeys <==> k in multiset(otherKeys);
    }
    NothingMissingIff(enKeys, otherKeys);
  }

  /** What the test buys the app: when a language has the English keys, every key that
      English translates to a string also reaches a leaf there, so `t` never shows a
      translated English key as the raw key in that language unless its leaf there is not a
      string. */
  lemma SameKeysSameCoverage(en: Value, other: Value, key: string)
    requires WellFormed(en) && WellFormed(other)
    requires Without(GetAllKeys(en), GetAllKeys(other)) == []
    requires Walk(Some(en), Text.Split(key, '.')).Some? && Walk(Some(en), Text.Split(key, '.')).value.Str?
    ensures Leaf(Walk(Some(other), Text.Split(key, '.')))
  {
    ListedKeysResolve(en, key);
    ListedKeysResolve(other, key);
  }
}

=== FILE: localization.dfy ===
/** The lookup both translation functions share (localization/LanguageProvider.tsx and
    localization/index.ts): walk a nested translation table along the `.`-separated parts
    of a key, fall back to the key itself, and fill `{{name}}` placeholders with
    JavaScript's `String.prototype.replace`. */
module Localization {
  import opened Wrappers
  import opened Json
  import Text

  /** The array index a property name denotes: the decimal text of a natural number,
      written the way JavaScript prints it (no sign, no leading zero). */
  function CanonicalIndex(part: string): (r: Option<nat>)
    ensures r.Some? ==> Text.NatToString(r.value) == part
    ensures r.Some? ==> part != "length"
  {
    if part != [] && Text.AllDigits(part) && Text.NatToString(Text.DigitsValue(part)) == part
    then Some(Text.DigitsValue(part))
    else None
  }

  /** Every array index's own text names it. */
  lemma CanonicalIndexOfNat(n: nat)
    ensures CanonicalIndex(Text.NatToString(n)) == Some(n)
  {
    Text.DigitsValueOfNatToString(n);
  }

  /** One step of the walk, `obj?.[part]`, with `None` for `undefined`: `undefined` and
      `null` stay `undefined`; an object yields its own member; an array its `length` or
      the element at an index; a string, number or boolean has no own property here. */
  function Step(v: Option<Value>, part: string): (r: Option<Value>)
    ensures v.Some? && v.value.Obj? ==> r == Get(v.value.members, part)
    ensures r.Some? ==> v.Some? && (v.value.Obj? || v.value.Arr?)
    ensures v.Some? && v.value.Arr? ==>
      (r.Some? <==> part == "length" || (CanonicalIndex(part).Some? && CanonicalIndex(part).value < |v.value.items|))
  {
    match v
    case Some(Obj(members)) => Get(members, part)
    case Some(Arr(items)) =>
      if part == "length" then Some(Num(|items|))
      else if CanonicalIndex(part).Some? && CanonicalIndex(part).value < |items| then
        Some(items[CanonicalIndex(part).value])
      else None
    case _ => None
  }

  /** `parts.reduce((obj, part) => obj?.[part], table)`. */
  function Walk(v: Option<Value>, parts: seq<string>): Option<Value>
    decreases |parts|
  {
    if parts == [] then v else Walk(Step(v, parts[0]), parts[1..])
  }

  /** Once the walk reaches `undefined` it stays there. */
  lemma {:induction false} WalkNone(parts: seq<string>)
    ensures Walk(None, parts) == None
    decreases |parts|
  {
    if parts != [] {
      WalkNone(parts[1..]);
    }
  }

  /** A walk that goes on past a string, number, boolean or `null` finds nothing. */
  lemma WalkPastLeaf(v: Value, parts: seq<string>)
    requires !v.Obj? && !v.Arr? && parts != []
    ensures Walk(Some(v), parts) == None
  {
    WalkNone(parts[1..]);
  }

  /** The replacement text for one match, as `replace` with a string pattern builds it:
      `$$` is a dollar sign, `$&` the match, `` $` `` the text before it and `$'` the text
      after it; every other `$` (including `$1` and `$<`, as there are no groups) is kept. */
  function Expand(rep: string, matched: string, before: string, after: string): (r: string)
    ensures '$' !in rep ==> r == rep
    decreases |rep|
  {
    if rep == [] then []
    else if rep[0] == '$' && |rep| >= 2 && rep[1] == '$' then "$" + Expand(rep[2..], matched, before, after)
    else if rep[0] == '$' && |rep| >= 2 && rep[1] == '&' then matched + Expand(rep[2..], matched, before, after)
    else if rep[0] == '$' && |rep| >= 2 && rep[1] == '`' then before + Expand(rep[2..], matched, before, after)
    else if rep[0] == '$' && |rep| >= 2 && rep[1] == '\'' then after + Expand(rep[2..], matched, before, after)
    else [rep[0]] + Expand(rep[1..], matched, before, after)
  }

  /** A value with every `$` doubled, which `replace` inserts literally. */
  function Escape(s: string): (r: string)
    ensures |r| >= |s|
  {
    if s == [] then [] else (if s[0] == '$' then "$$" else [s[0]]) + Escape(s[1..])
  }

  /** Expanding an escaped value gives the value back, whatever the match. */
  lemma {:induction false} ExpandEscape(s: string, matched: string, before: string, after: string)
    ensures Expand(Escape(s), matched, before, after) == s
    decreases |s|
  {
    if s != [] {
      var e := Escape(s[1..]);
      ExpandEscape(s[1..], matched, before, after);
      if s[0] == '$' {
        assert Escape(s) == "$$" + e;
        assert ("$$" + e)[2..] == e;
      } else {
        assert Escape(s) == [s[0]] + e;
        assert ([s[0]] + e)[1..] == e;
      }
      assert s == [s[0]] + s[1..];
    }
  }

  /** `text.replace(pat, rep)` for a string pattern: only the first occurrence is
      replaced. */
  function ReplaceFirst(text: string, pat: string, rep: string): (r: string)
    ensures Text.IndexOf(text, pat).None? ==> r == text
    ensures Text.IndexOf(text, pat).Some? ==>
      var k := Text.IndexOf(text, pat).value;
      var after := text[k + |pat|..];
      && |r| >= k + |after|
      && r[..k] == text[..k]
      && r[|r| - |after|..] == after
  {
    match Text.IndexOf(text, pat)
    case None => text
    case Some(k) =>
      var before, after := text[..k], text[k + |pat|..];
      before + Expand(rep, pat, before, after) + after
  }

  /** Where the first occurrence is at `|a|` and the value has no `$`, the occurrence is
      replaced by the value and nothing else changes, later occurrences included. */
  lemma ReplaceFirstOnlyFirst(a: string, pat: string, b: string, rep: string)
    requires forall j :: 0 <= j < |a| ==> !Text.OccursAt(a + pat + b, pat, j)
    requires '$' !in rep
    ensures ReplaceFirst(a + pat + b, pat, rep) == a + rep + b
  {
    var text := a + pat + b;
    assert Text.OccursAt(text, pat, |a|) by {
      assert text[|a|..|a| + |pat|] == pat;
    }
    assert Text.IndexOf(text, pat) == Some(|a|);
    assert text[..|a|] == a;
    assert text[|a| + |pat|..] == b;
  }

  /** The placeholder a variable named `name` fills. */
  function Placeholder(name: string): (r: string)
    ensures |r| == |name| + 4 && r[0] == '{'
  {
    "{{" + name + "}}"
  }

  /** `Object.entries(vars).forEach(([k, v]) => text = text.replace(`{{k}}`, v))`, with the
      entries in the order `Object.entries` lists them. */
  function Substitute(text: string, vars: seq<(string, string)>): string
    decreases |vars|
  {
    if vars == [] then text
    else Substitute(ReplaceFirst(text, Placeholder(vars[0].0), vars[0].1), vars[1..])
  }

  /** A pattern that starts with a character the text lacks does not occur in it. */
  lemma AbsentStart(text: string, pat: string)
    requires pat != [] && pat[0] !in text
    ensures Text.IndexOf(text, pat).None?
  {
  }

  /** A text without `{` has no placeholder, so no variables change it. */
  lemma {:induction false} SubstituteWithoutBraces(text: string, vars: seq<(string, string)>)
    requires '{' !in text
    ensures Substitute(text, vars) == text
    decreases |vars|
  {
    if vars != [] {
      AbsentStart(text, Placeholder(vars[0].0));
      SubstituteWithoutBraces(text, vars[1..]);
    }
  }

  /** One variable whose placeholder first occurs at `|a|`, with an escaped value, puts
      exactly that value there. */
  lemma SubstituteOne(a: string, name: string, b: string, value: string)
    requires forall j :: 0 <= j < |a| ==> !Text.OccursAt(a + Placeholder(name) + b, Placeholder(name), j)
    ensures Substitute(a + Placeholder(name) + b, [(name, Escape(value))]) == a + value + b
  {
    var text := a + Placeholder(name) + b;
    var pat := Placeholder(name);
    assert Text.OccursAt(text, pat, |a|) by {
      assert text[|a|..|a| + |pat|] == pat;
    }
    assert Text.IndexOf(text, pat) == Some(|a|);
    assert text[..|a|] == a;
    assert text[|a| + |pat|..] == b;
    ExpandEscape(value, pat, a, b);
  }

  /** `t(key, vars)` on one table: the string the key's path leads to, with its
      placeholders filled, or else the key itself. */
  function Translate(table: Value, key: string, vars: seq<(string, string)>): (r: string)
    ensures var found := Walk(Some(table), Text.Split(key, '.'));
      !(found.Some? && found.value.Str?) ==> r == key
    ensures var found := Walk(Some(table), Text.Split(key, '.'));
      found.Some? && found.value.Str? ==> r == Substitute(found.value.s, vars)
    ensures var found := Walk(Some(table), Text.Split(key, '.'));
      found.Some? && found.value.Str? && (vars == [] || '{' !in found.value.s) ==> r == found.value.s
  {
    var found := Walk(Some(table), Text.Split(key, '.'));
    if found.Some? && found.value.Str? then
      if '{' !in found.value.s then
        SubstituteWithoutBraces(found.value.s, vars);
        Substitute(found.value.s, vars)
      else Substitute(found.value.s, vars)
    else key
  }

  /** A stored string with one placeholder for the only variable shows that variable's
      value (free of `$` patterns) in its place, and the rest of the string unchanged. */
  lemma TranslateFillsPlaceholder(table: Value, key: string, a: string, name: string, b: string, value: string)
    requires Walk(Some(table), Text.Split(key, '.')) == Some(Str(a + Placeholder(name) + b))
    requires forall j :: 0 <= j < |a| ==> !Text.OccursAt(a + Placeholder(name) + b, Placeholder(name), j)
    requires '$' !in value
    ensures Translate(table, key, [(name, value)]) == a + value + b
  {
    ReplaceFirstOnlyFirst(a, Placeholder(name), b, value);
    assert Substitute(a + Placeholder(name) + b, [(name, value)])
      == Substitute(ReplaceFirst(a + Placeholder(name) + b, Placeholder(name), value), []);
  }
}

=== FILE: object_counts.dfy ===
/** Counting occurrences in a plain JavaScript object, as the duplicate checks of the story
    validation suites do: `counts[k] = (counts[k] || 0) + 1` on `counts = {}`, then
    `Object.entries(counts).filter(([k, n]) => n > 1)`.

    A plain object inherits the members of `Object.prototype`. For a key that names one
    of them, `counts[k]` is the inherited function (or, for `__proto__`, the prototype
    object itself) instead of `undefined`, so `(counts[k] || 0) + 1` is a string
    concatenation and the stored entry is text that never compares greater than 1;
    assigning to `__proto__` stores nothing at all. Such keys are never reported, however
    often they occur. `Count`/`Reported` is the same check on a `Map`, which has no
    inherited keys. */
module ObjectCounts {

  /** The property names `Object.prototype` provides (section 20.1.3 of ECMA-262, plus
      the legacy accessor methods of Annex B.2.2). */
  const PROTOTYPE_NAMES: set<string> := {
    "constructor", "hasOwnProperty", "isPrototypeOf", "propertyIsEnumerable",
    "toLocaleString", "toString", "valueOf", "__proto__",
    "__defineGetter__", "__defineSetter__", "__lookupGetter__", "__lookupSetter__"
  }

  /** What an own entry of the counting object holds: a number, or the text that
      `function + 1` produced, which converts to NaN. */
  datatype Entry = Number(n: int) | NotANumber

  /** The keys that occur more than once: what the checks are meant to report. */
  function Duplicates(keys: seq<string>): set<string> {
    set k | k in keys && multiset(keys)[k] > 1
  }

  // ---------------------------------------------------------------------------
  // The counting as written, on a plain object
  // ---------------------------------------------------------------------------

  /** One `counts[k] = (counts[k] || 0) + 1` on an object whose own entries are `counts`. */
  function Bump(counts: map<string, Entry>, k: string): map<string, Entry> {
    if k in counts then
      counts[k := if counts[k].Number? then Number(counts[k].n + 1) else NotANumber]
    else if k == "__proto__" then counts
    else if k in PROTOTYPE_NAMES then counts[k := NotANumber]
    else counts[k := Number(1)]
  }

  /** The own entries after counting every key in order. */
  function CountAsWritten(keys: seq<string>): map<string, Entry>
    decreases |keys|
  {
    if keys == [] then map[] else Bump(CountAsWritten(keys[..|keys| - 1]), keys[|keys| - 1])
  }

  /** The keys `Object.entries(counts).filter(([k, n]) => n > 1)` lists. */
  function ReportedAsWritten(keys: seq<string>): set<string> {
    var counts := CountAsWritten(keys);
    set k | k in counts && counts[k].Number? && counts[k].n > 1
  }

  /** The own entries hold the true count for ordinary keys, NaN text for the inherited
      method names, and nothing for `__proto__`. */
  lemma {:induction false} CountAsWrittenEntries(keys: seq<string>, k: string)
    ensures k !in PROTOTYPE_NAMES ==>
      (k in CountAsWritten(keys) <==> k in keys)
      && (k in keys ==> CountAsWritten(keys)[k] == Number(multiset(keys)[k]))
    ensures k in PROTOTYPE_NAMES && k != "__proto__" ==>
      (k in CountAsWritten(keys) <==> k in keys)
      && (k in keys ==> CountAsWritten(keys)[k] == NotANumber)
    ensures "__proto__" !in CountAsWritten(keys)
    decreases |keys|
  {
    if keys != [] {
      var prefix, last := keys[..|keys| - 1], keys[|keys| - 1];
      assert keys == prefix + [last];
      assert k in keys <==> k in prefix || k == last;
      CountAsWrittenEntries(prefix, k);
    }
  }

  /** As written, the check reports exactly the duplicated keys that are not names of
      `Object.prototype` members. */
  lemma ReportedAsWrittenMissesPrototypeNames(keys: seq<string>)
    ensures ReportedAsWritten(keys) == Duplicates(keys) - PROTOTYPE_NAMES
  {
    forall k
      ensures k in ReportedAsWritten(keys) <==> k in Duplicates(keys) - PROTOTYPE_NAMES
    {
      CountAsWrittenEntries(keys, k);
    }
  }

  /** Two pages with the id "constructor" pass the duplicate-id check as written. */
  lemma ConstructorCounterexample()
    ensures Duplicates(["constructor", "constructor"]) == {"constructor"}
    ensures ReportedAsWritten(["constructor", "constructor"]) == {}
  {
    var keys := ["constructor", "constructor"];
    assert multiset(keys)["constructor"] == 2;
    ReportedAsWrittenMissesPrototypeNames(keys);
    assert "constructor" in PROTOTYPE_NAMES;
  }

  // ---------------------------------------------------------------------------
  // The intended counting, on a Map
  // ---------------------------------------------------------------------------

  /** `counts.set(k, (counts.get(k) || 0) + 1)` for every key, on a `Map`. */
  function Count(keys: seq<string>): (counts: map<string, nat>)
    ensures forall k :: k in counts <==> k in keys
    ensures forall k :: k in counts ==> counts[k] == multiset(keys)[k]
    decreases |keys|
  {
    if keys == [] then map[]
    else
      var prefix, last := keys[..|keys| - 1], keys[|keys| - 1];
      assert keys == prefix + [last];
      var counts := Count(prefix);
      counts[last := if last in counts then counts[last] + 1 else 1]
  }

  /** The keys counted more than once. */
  function Reported(keys: seq<string>): (r: set<string>)
    ensures r == Duplicates(keys)
  {
    var counts := Count(keys);
    set k | k in counts && counts[k] > 1
  }

  /** Keys that occur twice at two positions. */
  predicate Distinct(keys: seq<string>) {
    forall i, j :: 0 <= i < j < |keys| ==> keys[i] != keys[j]
  }

  /** The intended check passes exactly when no key repeats. */
  lemma {:induction false} NoDuplicatesIffDistinct(keys: seq<string>)
    ensures Duplicates(keys) == {} <==> Distinct(keys)
    decreases |keys|
  {
    if keys != [] {
      var prefix, last := keys[..|keys| - 1], keys[|keys| - 1];
      assert keys == prefix + [last];
      NoDuplicatesIffDistinct(prefix);
      if Distinct(keys) {
        assert Distinct(prefix);
        assert last !in prefix;
        forall k | k in keys
          ensures multiset(keys)[k] <= 1
        {
          assert multiset(keys)[k] == multiset(prefix)[k] + multiset([last])[k];
          if k != last {
            assert k in prefix;
            assert k !in Duplicates(prefix);
          }
        }
      } else {
        var i, j :| 0 <= i < j < |keys| && keys[i] == keys[j];
        var k := keys[i];
        if j == |keys| - 1 {
          assert prefix[i] == k;
          assert multiset(prefix)[k] >= 1;
          assert multiset(keys)[k] == multiset(prefix)[k] + multiset([last])[k];
          assert k in Duplicates(keys);
        } else {
          assert prefix[i] == prefix[j];
          assert !Distinct(prefix);
          var d :| d in Duplicates(prefix);
          assert multiset(keys)[d] >= multiset(prefix)[d];
          assert d in Duplicates(keys);
        }
      }
    }
  }
}

=== FILE: path_codec.dfy ===
/** The text form of a saved decision path. `savePathAfterDecision` stores
    `JSON.stringify(path)` for an array of page ids and `loadSavedDecisionPath` reads it
    back with `JSON.parse`. `Encode` is `JSON.stringify` on an array of strings;
    `Decode` parses the compact array-of-strings text that `JSON.stringify` writes. */
module DecisionPathCodec {
  import opened Wrappers
  import Text

  // ---------------------------------------------------------------------------
  // JSON.stringify
  // ---------------------------------------------------------------------------

  function HexDigit(d: nat): char
    requires d < 16
  {
    if d < 10 then ('0' as int + d) as char else ('a' as int + d - 10) as char
  }

  /** Code points JSON.stringify copies unchanged into a string literal. */
  predicate IsPlain(c: char) {
    c != '"' && c != '\\' && c as int >= 0x20
  }

  /** What JSON.stringify writes after the backslash for a code point it escapes
      (QuoteJSONString). */
  function EscapeCode(c: char): string
    requires !IsPlain(c)
  {
    if c == '\U{0008}' then "b"
    else if c == '\t' then "t"
    else if c == '\n' then "n"
    else if c == '\U{000C}' then "f"
    else if c == '\r' then "r"
    else if c == '"' then "\""
    else if c == '\\' then "\\"
    else "u00" + [HexDigit(c as int / 16), HexDigit(c as int % 16)]
  }

  function EscapeChar(c: char): string {
    if IsPlain(c) then [c] else "\\" + EscapeCode(c)
  }

  function EscapeString(s: string): string {
    if s == [] then "" else EscapeChar(s[0]) + EscapeString(s[1..])
  }

  /** JSON.stringify of one string. */
  function Quote(s: string): string {
    "\"" + EscapeString(s) + "\""
  }

  /** JSON.stringify of an array of strings: quoted items joined by commas, in brackets. */
  function Encode(path: seq<string>): (text: string)
    ensures |text| >= 2 && text[0] == '['
  {
    "[" + Text.Join(QuoteAll(path), ",") + "]"
  }

  function QuoteAll(path: seq<string>): (quoted: seq<string>)
    ensures |quoted| == |path|
    ensures forall i :: 0 <= i < |path| ==> quoted[i] == Quote(path[i])
  {
    if path == [] then [] else [Quote(path[0])] + QuoteAll(path[1..])
  }

  // ---------------------------------------------------------------------------
  // JSON.parse of an array of strings
  // ---------------------------------------------------------------------------

  function HexValue(c: char): (r: Option<nat>)
    ensures r.Some? ==> r.value < 16
  {
    if '0' <= c <= '9' then Some(c as int - '0' as int)
    else if 'a' <= c <= 'f' then Some(c as int - 'a' as int + 10)
    else if 'A' <= c <= 'F' then Some(c as int - 'A' as int + 10)
    else None
  }

  /** The code unit of four hexadecimal digits, most significant first. */
  function HexCode(a: nat, b: nat, c: nat, d: nat): (code: nat)
    requires a < 16 && b < 16 && c < 16 && d < 16
    ensures code < 0x10000
  {
    assert a * 16 + b < 0x100;
    assert (a * 16 + b) * 16 + c < 0x1000;
    ((a * 16 + b) * 16 + c) * 16 + d
  }

  /** The character an escape sequence stands for; `s` starts after the backslash.
      Escapes of surrogate code units are rejected. */
  function Unescape(s: string): (r: Option<(char, string)>)
    ensures r.Some? ==> |r.value.1| < |s|
  {
    if |s| == 0 then None
    else if s[0] == '"' || s[0] == '\\' || s[0] == '/' then Some((s[0], s[1..]))
    else if s[0] == 'b' then Some(('\U{0008}', s[1..]))
    else if s[0] == 'f' then Some(('\U{000C}', s[1..]))
    else if s[0] == 'n' then Some(('\n', s[1..]))
    else if s[0] == 'r' then Some(('\r', s[1..]))
    else if s[0] == 't' then Some(('\t', s[1..]))
    else if s[0] == 'u' && |s| >= 5 then
      match (HexValue(s[1]), HexValue(s[2]), HexValue(s[3]), HexValue(s[4]))
      case (Some(a), Some(b), Some(c), Some(d)) =>
        var code := HexCode(a, b, c, d);
        if 0xD800 <= code < 0xE000 then None else Some((code as char, s[5..]))
      case _ => None
    else None
  }

  /** Parses the rest of a string literal after its opening quote: the decoded text and
      what follows the closing quote. */
  function DecodeBody(s: string): (r: Option<(string, string)>)
    ensures r.Some? ==> |r.value.1| < |s|
    decreases |s|
  {
    if |s| == 0 then None
    else if s[0] == '"' then Some(("", s[1..]))
    else if s[0] == '\\' then
      match Unescape(s[1..])
      case None => None
      case Some((c, rest)) =>
        match DecodeBody(rest)
        case None => None
        case Some((v, after)) => Some(([c] + v, after))
    else if (s[0] as int) < 0x20 then None
    else
      match DecodeBody(s[1..])
      case None => None
      case Some((v, after)) => Some(([s[0]] + v, after))
  }

  /** Parses `"item","item",...]` (no whitespace), the part after `[`. */
  function DecodeItems(s: string): Option<seq<string>>
    decreases |s|, 0
  {
    if |s| == 0 || s[0] != '"' then None
    else
      match DecodeBody(s[1..])
      case None => None
      case Some((v, rest)) => DecodeMore(v, rest)
  }

  /** Continues after the item `v`: either the closing bracket or a comma and more items. */
  function DecodeMore(v: string, rest: string): Option<seq<string>>
    decreases |rest|, 1
  {
    if rest == "]" then Some([v])
    else if |rest| > 0 && rest[0] == ',' then
      match DecodeItems(rest[1..])
      case None => None
      case Some(vs) => Some([v] + vs)
    else None
  }

  /** JSON.parse of a saved path; `None` when the text is not an array of strings. */
  function Decode(text: string): Option<seq<string>> {
    if text == "[]" then Some([])
    else if |text| > 0 && text[0] == '[' then DecodeItems(text[1..])
    else None
  }

  // ---------------------------------------------------------------------------
  // Round trip
  // ---------------------------------------------------------------------------

  lemma HexRoundTrip(d: nat)
    requires d < 16
    ensures HexValue(HexDigit(d)) == Some(d)
  {
  }

  lemma UnescapeEscapeCode(c: char, rest: string)
    requires !IsPlain(c)
    ensures Unescape(EscapeCode(c) + rest) == Some((c, rest))
  {
    var e := EscapeCode(c);
    if e[0] == 'u' {
      var s := e + rest;
      var hi, lo := c as int / 16, c as int % 16;
      HexRoundTrip(hi);
      HexRoundTrip(lo);
      assert s[1] == '0' && s[2] == '0' && s[3] == HexDigit(hi) && s[4] == HexDigit(lo);
      assert s[5..] == rest;
      assert HexCode(0, 0, hi, lo) == c as int;
    } else {
      assert (e + rest)[1..] == rest;
    }
  }

  /** Decoding past one escaped code point. */
  lemma DecodeBodyStep(c: char, tail: string)
    ensures DecodeBody(EscapeChar(c) + tail) ==
      match DecodeBody(tail)
      case None => None
      case Some((v, after)) => Some(([c] + v, after))
  {
    var input := EscapeChar(c) + tail;
    if IsPlain(c) {
      assert input[0] == c && input[1..] == tail;
    } else {
      assert input[0] == '\\';
      assert input[1..] == EscapeCode(c) + tail;
      UnescapeEscapeCode(c, tail);
    }
  }

  lemma {:induction false} DecodeBodyOfEscape(s: string, rest: string)
    ensures DecodeBody(EscapeString(s) + "\"" + rest) == Some((s, rest))
  {
    if s == [] {
      assert EscapeString(s) + "\"" + rest == "\"" + rest;
    } else {
      var tail := EscapeString(s[1..]) + "\"" + rest;
      assert EscapeString(s) + "\"" + rest == EscapeChar(s[0]) + tail;
      DecodeBodyOfEscape(s[1..], rest);
      DecodeBodyStep(s[0], tail);
      assert [s[0]] + s[1..] == s;
    }
  }

  /** Decoding past the first quoted item of an array. */
  lemma DecodeItemsHead(v: string, after: string)
    ensures DecodeItems(Quote(v) + after) == DecodeMore(v, after)
  {
    QuoteThen(v, after);
    DecodeBodyOfEscape(v, after);
  }

  lemma QuoteThen(v: string, after: string)
    ensures |Quote(v) + after| > 0 && (Quote(v) + after)[0] == '"'
    ensures (Quote(v) + after)[1..] == EscapeString(v) + "\"" + after
  {
    var s := Quote(v) + after;
    assert s == "\"" + (EscapeString(v) + "\"" + after);
  }

  /** An item, a comma and a decodable rest decode to the item followed by the rest. */
  lemma DecodeItemsCons(v: string, t: string, vs: seq<string>)
    requires DecodeItems(t) == Some(vs)
    ensures DecodeItems(Quote(v) + ("," + t)) == Some([v] + vs)
  {
    DecodeItemsHead(v, "," + t);
    assert ("," + t)[1..] == t;
  }

  lemma JoinQuoteAllCons(path: seq<string>)
    requires |path| > 1
    ensures Text.Join(QuoteAll(path), ",") + "]"
      == Quote(path[0]) + ("," + (Text.Join(QuoteAll(path[1..]), ",") + "]"))
  {
    var quoted := QuoteAll(path);
    var head, rest := Quote(path[0]), Text.Join(QuoteAll(path[1..]), ",");
    assert quoted[1..] == QuoteAll(path[1..]);
    assert Text.Join(quoted, ",") == head + "," + rest;
    Regroup(head, rest);
  }

  lemma Regroup(head: string, rest: string)
    ensures head + "," + rest + "]" == head + ("," + (rest + "]"))
  {
  }

  lemma {:induction false} DecodeItemsOfJoin(path: seq<string>)
    requires |path| > 0
    ensures DecodeItems(Text.Join(QuoteAll(path), ",") + "]") == Some(path)
  {
    if |path| == 1 {
      assert Text.Join(QuoteAll(path), ",") == Quote(path[0]);
      DecodeItemsHead(path[0], "]");
      assert [path[0]] == path;
    } else {
      DecodeItemsOfJoin(path[1..]);
      JoinQuoteAllCons(path);
      DecodeItemsCons(path[0], Text.Join(QuoteAll(path[1..]), ",") + "]", path[1..]);
      assert [path[0]] + path[1..] == path;
    }
  }

  /** Parsing the text JSON.stringify wrote for a path gives the path back. */
  lemma DecodeEncode(path: seq<string>)
    ensures Decode(Encode(path)) == Some(path)
  {
    if |path| == 0 {
      assert Encode(path) == "[]";
    } else {
      var text := Encode(path);
      assert text[1..] == Text.Join(QuoteAll(path), ",") + "]";
      DecodeItemsOfJoin(path);
      EncodeNotEmpty(path);
    }
  }

  /** The text of a non-empty path opens with a quote after the bracket. */
  lemma EncodeNotEmpty(path: seq<string>)
    requires |path| > 0
    ensures Encode(path) != "[]"
  {
    var quoted := QuoteAll(path);
    var joined := Text.Join(quoted, ",");
    assert quoted[0][0] == '"';
    assert joined[0] == '"' by {
      if |path| > 1 {
        assert joined == quoted[0] + "," + Text.Join(quoted[1..], ",");
      }
    }
    assert Encode(path)[1] == joined[0];
  }
}

=== FILE: platform.dfy ===
/** components/PlatformService.ts: which emoji the delete button uses and whether the blur
    view is used, decided from the operating system and its reported version. */
module PlatformService {
  import opened Wrappers
  import Text

  /** `Platform.OS`: the two systems the code distinguishes, and every other one. */
  datatype Os = Ios | Android | OtherOs

  /** `Platform.Version`: a string on iOS ("16.4"), an API level number on Android.
      Fractional numbers are not modelled. */
  datatype Version = VersionNumber(n: int) | VersionText(s: string)

  /** The dotted-face emoji and the wastebasket used when it cannot be shown. */
  const DOTTED_FACE := "\U{1FAE5}"
  const WASTEBASKET := "\U{1F5D1}\U{FE0F}"

  /** The iOS major version: `parseInt` of the text before the first `.`, or of the
      number's text; `None` is NaN. */
  function MajorVersion(v: Version): (r: Option<int>)
    ensures v.VersionNumber? ==> r == Some(v.n)
  {
    match v
    case VersionText(s) => Text.ParseInt(Text.Split(s, '.')[0])
    case VersionNumber(n) =>
      Text.ParseIntOfIntToString(n);
      Text.ParseInt(Text.IntToString(n))
  }

  /** A version text that starts with a number and a `.` has that number as its major
      version, whatever follows. */
  lemma MajorOfDottedText(n: int, rest: string)
    ensures MajorVersion(VersionText(Text.IntToString(n) + "." + rest)) == Some(n)
  {
    var head := Text.IntToString(n);
    assert '.' !in head by {
      if n >= 0 {
        assert Text.AllDigits(Text.NatToString(n));
      } else {
        assert head == "-" + Text.NatToString(-n);
        assert Text.AllDigits(Text.NatToString(-n));
      }
    }
    Text.SplitAfter(head, '.', rest);
    assert head + "." + rest == head + ['.'] + rest;
    Text.ParseIntOfIntToString(n);
  }

  /** `version >= threshold` after `parseInt`: NaN compares false. */
  predicate AtLeast(major: Option<int>, threshold: int) {
    major.Some? && major.value >= threshold
  }

  /** `supportsDottedFaceEmoji()`: iOS 16 or later, Android API level 33 or later (a
      number only), nothing else. */
  function SupportsDottedFace(os: Os, v: Version): (r: bool)
    ensures os.OtherOs? ==> !r
    ensures os.Android? ==> (r <==> v.VersionNumber? && v.n >= 33)
  {
    match os
    case Ios => AtLeast(MajorVersion(v), 16)
    case Android => v.VersionNumber? && v.n >= 33
    case OtherOs => false
  }

  /** `getDeleteEmoji()`. */
  function DeleteEmoji(os: Os, v: Version): (r: string)
    ensures r == DOTTED_FACE <==> SupportsDottedFace(os, v)
    ensures r == DOTTED_FACE || r == WASTEBASKET
  {
    if SupportsDottedFace(os, v) then DOTTED_FACE else WASTEBASKET
  }

  /** `blurSupported()`: iOS 11 or later, Android API level 31 or later (a number only),
      nothing else. */
  function BlurSupported(os: Os, v: Version): (r: bool)
    ensures os.OtherOs? ==> !r
    ensures os.Android? ==> (r <==> v.VersionNumber? && v.n >= 31)
  {
    match os
    case Ios => AtLeast(MajorVersion(v), 11)
    case Android => v.VersionNumber? && v.n >= 31
    case OtherOs => false
  }

  /** On iOS, a release reported as text and the same release reported as a number get
      the same answers, and the answer is the threshold test on its major number. */
  lemma IosVersionForms(n: int, rest: string)
    ensures SupportsDottedFace(Ios, VersionText(Text.IntToString(n) + "." + rest)) <==> n >= 16
    ensures SupportsDottedFace(Ios, VersionNumber(n)) <==> n >= 16
    ensures BlurSupported(Ios, VersionText(Text.IntToString(n) + "." + rest)) <==> n >= 11
    ensures BlurSupported(Ios, VersionNumber(n)) <==> n >= 11
  {
    MajorOfDottedText(n, rest);
  }

  /** A version text with no number before the first `.` is NaN and supports neither. */
  lemma NonNumericIosVersion(s: string)
    requires MajorVersion(VersionText(s)).None?
    ensures !SupportsDottedFace(Ios, VersionText(s)) && !BlurSupported(Ios, VersionText(s))
  {
  }

  /** The dotted-face thresholds are above the blur ones: a device that shows the emoji
      also gets the blur view. */
  lemma DottedFaceImpliesBlur(os: Os, v: Version)
    ensures SupportsDottedFace(os, v) ==> BlurSupported(os, v)
  {
  }

  /** The converse fails: iOS 15 and Android 12 get the blur view and the wastebasket. */
  lemma BlurWithoutDottedFace()
    ensures BlurSupported(Ios, VersionNumber(15)) && DeleteEmoji(Ios, VersionNumber(15)) == WASTEBASKET
    ensures BlurSupported(Android, VersionNumber(31)) && DeleteEmoji(Android, VersionNumber(31)) == WASTEBASKET
  {
    assert DOTTED_FACE != WASTEBASKET by {
      assert |DOTTED_FACE| != |WASTEBASKET|;
    }
  }
}

=== FILE: progress_manager.dfy ===
/** Reading-progress persistence (storage/progressManager.ts): the saved page of each
    story, its back-history and path keys, the decision path used for the progress dots,
    the chapter a story was left in, and the "last played" query.

    Every key is a fixed prefix followed by the story id. The decision path is written
    under "currentPath:" while both clear operations remove "currentPath_", so a saved
    decision path survives either clear. */
module ProgressManager {
  import opened Wrappers
  import opened AsyncStore
  import Codec = DecisionPathCodec

  const PROGRESS_KEY_PREFIX := "story_progress_"
  const CHAPTER_KEY_PREFIX := "story_chapter_"
  const CURRENT_PATH := "currentPath_"
  const HISTORY_KEY_PREFIX := "story_history_"
  const UNLOCKED_CHAPTERS := "unlockedChapters-"
  const CURRENT_PATH_PREFIX := "currentPath:"

  /** The per-story keys this file reads or writes, one per prefix. */
  datatype Slot = Progress | Chapter | CurrentPath | History | UnlockedChapters | DecisionPath

  function Prefix(slot: Slot): string {
    match slot
    case Progress => PROGRESS_KEY_PREFIX
    case Chapter => CHAPTER_KEY_PREFIX
    case CurrentPath => CURRENT_PATH
    case History => HISTORY_KEY_PREFIX
    case UnlockedChapters => UNLOCKED_CHAPTERS
    case DecisionPath => CURRENT_PATH_PREFIX
  }

  function Key(slot: Slot, storyId: string): string {
    Prefix(slot) + storyId
  }

  /** Two keys are equal only for the same slot and the same story. */
  lemma KeyInjective(a: Slot, s: string, b: Slot, t: string)
    ensures Key(a, s) == Key(b, t) <==> a == b && s == t
  {
    if a != b {
      var i := if Prefix(a)[0] != Prefix(b)[0] then 0
        else if Prefix(a)[0] == 's' then 6 else 11;
      assert Prefix(a)[i] != Prefix(b)[i];
      assert Key(a, s)[i] == Prefix(a)[i];
      assert Key(b, t)[i] == Prefix(b)[i];
    } else if Key(a, s) == Key(b, t) {
      assert s == Key(a, s)[|Prefix(a)|..];
      assert t == Key(b, t)[|Prefix(b)|..];
    }
  }

  /** A story's key is one of the listed slots' keys for `owner` exactly when the story
      is the owner and the slot is listed. */
  lemma KeyMembership(slot: Slot, storyId: string, owner: string)
    ensures Key(slot, storyId) in ClearedByClearProgress(owner) <==>
      storyId == owner && slot in {Progress, UnlockedChapters, History, CurrentPath}
    ensures Key(slot, storyId) in ClearedByClearProgressOnly(owner) <==>
      storyId == owner && slot in {Progress, History, CurrentPath}
  {
    KeyInjective(slot, storyId, Progress, owner);
    KeyInjective(slot, storyId, UnlockedChapters, owner);
    KeyInjective(slot, storyId, History, owner);
    KeyInjective(slot, storyId, CurrentPath, owner);
  }

  // ---------------------------------------------------------------------------
  // Saved page
  // ---------------------------------------------------------------------------

  function SaveProgress(store: Store, storyId: string, pageId: string): Store {
    SetItem(store, Key(Progress, storyId), pageId)
  }

  function LoadProgress(store: Store, storyId: string): (r: Option<string>)
    ensures r.None? <==> Key(Progress, storyId) !in store
  {
    GetItem(store, Key(Progress, storyId))
  }

  /** `loadProgress` returns what `saveProgress` stored, and saving one story's page
      leaves every other story's saved page as it was. */
  lemma LoadProgressAfterSave(store: Store, storyId: string, pageId: string, other: string)
    requires other != storyId
    ensures LoadProgress(SaveProgress(store, storyId, pageId), storyId) == Some(pageId)
    ensures LoadProgress(SaveProgress(store, storyId, pageId), other) == LoadProgress(store, other)
  {
    KeyInjective(Progress, storyId, Progress, other);
  }

  // ---------------------------------------------------------------------------
  // Clearing
  // ---------------------------------------------------------------------------

  /** The keys `clearProgress` removes. */
  function ClearedByClearProgress(storyId: string): set<string> {
    {Key(Progress, storyId), Key(UnlockedChapters, storyId), Key(History, storyId),
     Key(CurrentPath, storyId)}
  }

  /** The keys `clearProgressOnly` removes: the same, except the unlocked chapters. */
  function ClearedByClearProgressOnly(storyId: string): set<string> {
    {Key(Progress, storyId), Key(History, storyId), Key(CurrentPath, storyId)}
  }

  function ClearProgress(store: Store, storyId: string): (r: Store)
    ensures forall k ::
              GetItem(r, k) == if k in ClearedByClearProgress(storyId) then None else GetItem(store, k)
  {
    MultiRemove(store, ClearedByClearProgress(storyId))
  }

  function ClearProgressOnly(store: Store, storyId: string): (r: Store)
    ensures forall k ::
              GetItem(r, k) == if k in ClearedByClearProgressOnly(storyId) then None else GetItem(store, k)
  {
    MultiRemove(store, ClearedByClearProgressOnly(storyId))
  }

  /** Which slots `clearProgress` empties for the story: exactly the saved page, unlocked
      chapters, history and "currentPath_"; the chapter progress and the decision path
      under "currentPath:" are kept, and other stories are untouched. */
  lemma ClearProgressSlots(store: Store, storyId: string, slot: Slot, other: string)
    ensures GetItem(ClearProgress(store, storyId), Key(slot, storyId)) ==
      if slot in {Progress, UnlockedChapters, History, CurrentPath} then None
      else GetItem(store, Key(slot, storyId))
    ensures other != storyId ==>
      GetItem(ClearProgress(store, storyId), Key(slot, other)) == GetItem(store, Key(slot, other))
  {
    KeyMembership(slot, storyId, storyId);
    KeyMembership(slot, other, storyId);
  }

  /** `clearProgressOnly` empties the same slots as `clearProgress` except the unlocked
      chapters, which survive. */
  lemma ClearProgressOnlySlots(store: Store, storyId: string, slot: Slot, other: string)
    ensures GetItem(ClearProgressOnly(store, storyId), Key(slot, storyId)) ==
      if slot in {Progress, History, CurrentPath} then None
      else GetItem(store, Key(slot, storyId))
    ensures other != storyId ==>
      GetItem(ClearProgressOnly(store, storyId), Key(slot, other)) == GetItem(store, Key(slot, other))
  {
    KeyMembership(slot, storyId, storyId);
    KeyMembership(slot, other, storyId);
  }

  // ---------------------------------------------------------------------------
  // Decision path
  // ---------------------------------------------------------------------------

  function SavePathAfterDecision(store: Store, storyId: string, path: seq<string>): Store {
    SetItem(store, Key(DecisionPath, storyId), Codec.Encode(path))
  }

  /** `loadSavedDecisionPath`: `None` (null) when nothing or the empty text is stored, or
      when the stored text does not parse. */
  function LoadSavedDecisionPath(store: Store, storyId: string): (r: Option<seq<string>>)
    ensures Key(DecisionPath, storyId) !in store ==> r.None?
  {
    match GetItem(store, Key(DecisionPath, storyId))
    case None => None
    case Some(text) => if text == "" then None else Codec.Decode(text)
  }

  /** A saved decision path loads back unchanged. */
  lemma DecisionPathRoundTrip(store: Store, storyId: string, path: seq<string>)
    ensures LoadSavedDecisionPath(SavePathAfterDecision(store, storyId, path), storyId) == Some(path)
  {
    Codec.DecodeEncode(path);
  }

  /** Neither clear operation removes the decision path: it is stored under
      "currentPath:" and the clears remove "currentPath_". */
  lemma DecisionPathSurvivesClears(store: Store, storyId: string)
    ensures LoadSavedDecisionPath(ClearProgress(store, storyId), storyId)
      == LoadSavedDecisionPath(store, storyId)
    ensures LoadSavedDecisionPath(ClearProgressOnly(store, storyId), storyId)
      == LoadSavedDecisionPath(store, storyId)
  {
    ClearProgressSlots(store, storyId, DecisionPath, storyId);
    ClearProgressOnlySlots(store, storyId, DecisionPath, storyId);
  }

  // ---------------------------------------------------------------------------
  // Last played story
  // ---------------------------------------------------------------------------

  /** A story of the bundled English story file: its id and its `meta.title`. */
  datatype StoryHeader = StoryHeader(id: string, metaTitle: Option<string>)

  datatype LastPlayed = LastPlayed(storyId: string, pageId: string, title: string)

  /** `block.meta?.title || id`. */
  function Title(h: StoryHeader): string {
    if h.metaTitle.Some? && h.metaTitle.value != "" then h.metaTitle.value else h.id
  }

  /** The story has a saved page that is truthy (present and not empty). */
  predicate HasSavedPage(store: Store, h: StoryHeader) {
    var p := LoadProgress(store, h.id);
    p.Some? && p.value != ""
  }

  /** Index of the first story, from `from` on, with a truthy saved page. */
  function FirstPlayed(store: Store, stories: seq<StoryHeader>, from: nat): (r: Option<nat>)
    decreases |stories| - from
    ensures r.Some? ==> from <= r.value < |stories| && HasSavedPage(store, stories[r.value])
    ensures r.Some? ==> forall j :: from <= j < r.value ==> !HasSavedPage(store, stories[j])
    ensures r.None? ==> forall j :: from <= j < |stories| ==> !HasSavedPage(store, stories[j])
  {
    if from >= |stories| then None
    else if HasSavedPage(store, stories[from]) then Some(from)
    else FirstPlayed(store, stories, from + 1)
  }

  /** `r` reports story `i`: every earlier story has no truthy saved page, and `r` carries
      the saved page of story `i`, or "intro" when no story at all has one (then `i` is 0). */
  predicate Chosen(store: Store, stories: seq<StoryHeader>, i: int, r: LastPlayed) {
    && 0 <= i < |stories|
    && r.storyId == stories[i].id
    && r.title == Title(stories[i])
    && (forall j :: 0 <= j < i ==> !HasSavedPage(store, stories[j]))
    && if HasSavedPage(store, stories[i]) then r.pageId == LoadProgress(store, stories[i].id).value
       else i == 0 && r.pageId == "intro" && forall j :: 0 <= j < |stories| ==> !HasSavedPage(store, stories[j])
  }

  /** `getLastPlayedStory`: the first story in file order with a truthy saved page, else
      the first story at "intro". `None` stands for the TypeError thrown when the file
      has no story at all. */
  function GetLastPlayedStory(store: Store, stories: seq<StoryHeader>): (r: Option<LastPlayed>)
    ensures r.None? <==> |stories| == 0
    ensures r.Some? ==> exists i :: Chosen(store, stories, i, r.value)
  {
    match FirstPlayed(store, stories, 0)
    case Some(i) =>
      var r := LastPlayed(stories[i].id, LoadProgress(store, stories[i].id).value, Title(stories[i]));
      assert Chosen(store, stories, i, r);
      Some(r)
    case None =>
      if |stories| == 0 then None
      else
        var r := LastPlayed(stories[0].id, "intro", Title(stories[0]));
        assert Chosen(store, stories, 0, r);
        Some(r)
  }

  // ---------------------------------------------------------------------------
  // Chapter progress
  // ---------------------------------------------------------------------------

  function SaveChapterProgress(store: Store, storyId: string, chapterId: string): Store {
    SetItem(store, Key(Chapter, storyId), chapterId)
  }

  function LoadChapterProgress(store: Store, storyId: string): (r: Option<string>)
    ensures r.None? <==> Key(Chapter, storyId) !in store
  {
    GetItem(store, Key(Chapter, storyId))
  }

  function ClearChapterProgress(store: Store, storyId: string): (r: Store)
    ensures forall k ::
              GetItem(r, k) == if k == Key(Chapter, storyId) then None else GetItem(store, k)
  {
    MultiRemove(store, {Key(Chapter, storyId)})
  }

  /** Chapter progress round-trips under "story_chapter_"; clearing it touches no other
      slot of the story; `clearProgress` leaves it in place. */
  lemma ChapterProgressRoundTrip(store: Store, storyId: string, chapterId: string, slot: Slot)
    ensures LoadChapterProgress(SaveChapterProgress(store, storyId, chapterId), storyId) == Some(chapterId)
    ensures LoadChapterProgress(ClearChapterProgress(store, storyId), storyId) == None
    ensures slot != Chapter ==>
      GetItem(ClearChapterProgress(store, storyId), Key(slot, storyId)) == GetItem(store, Key(slot, storyId))
    ensures LoadChapterProgress(ClearProgress(store, storyId), storyId) == LoadChapterProgress(store, storyId)
  {
    KeyInjective(slot, storyId, Chapter, storyId);
    ClearProgressSlots(store, storyId, Chapter, storyId);
  }
}

=== FILE: py_story.dfy ===
/** What the story maintenance scripts share: the Python exceptions they can hit, and how
    `for page in data.get("story", [])` iterates the loaded story document. */
module PyStory {
  import opened Wrappers
  import opened Json
  import Text

  /** The Python exceptions the scripts can raise on a malformed document. */
  datatype PyError =
    | AttributeError  // a method such as `get` or `strip` on a value that lacks it
    | TypeError       // iterating or indexing a value that does not support it
    | KeyError        // `d[key]` for a missing key
    | ValueError      // raised by the script itself

  /** `data.get("story", [])`: a missing member reads as the empty list. */
  function StoryField(data: Value): (r: Result<Value, PyError>)
    ensures r.Failure? <==> !data.Obj?
    ensures data.Obj? && !HasKey(data.members, "story") ==> r == Success(Arr([]))
  {
    if !data.Obj? then Failure(AttributeError)
    else Success(Get(data.members, "story").GetOr(Arr([])))
  }

  /** The values `for page in story` visits, when each must then answer `page.get(...)`.
      A list yields its items. A dict yields its keys and a string its characters, both
      strings, whose missing `get` fails at the first of them; an empty one yields
      nothing. `None`, booleans and numbers are not iterable. */
  function Pages(story: Value): (r: Result<seq<Value>, PyError>)
    ensures story.Arr? ==> r == Success(story.items)
    ensures r.Success? ==> story.Arr? || r.value == []
  {
    match story
    case Arr(items) => Success(items)
    case Obj(members) => if members == [] then Success([]) else Failure(AttributeError)
    case Str(s) => if s == "" then Success([]) else Failure(AttributeError)
    case _ => Failure(TypeError)
  }

  /** `page.get(key)`, with `None` (JSON null) for a missing key; only a dict has `get`. */
  function PageGet(page: Value, key: string, default: Value): (r: Result<Value, PyError>)
    ensures r.Success? <==> page.Obj?
    ensures page.Obj? && HasKey(page.members, key) ==> r == Success(Get(page.members, key).value)
    ensures page.Obj? && !HasKey(page.members, key) ==> r == Success(default)
  {
    if page.Obj? then Success(Get(page.members, key).GetOr(default)) else Failure(AttributeError)
  }
}

=== FILE: remove_duplicate_ids.dfy ===
/** stories/utils/remove_duplicate_ids.py, for one story file: keep the first page of
    every id, collect the ids of the pages dropped, and store the kept pages back under
    "story". Any exception makes the file's report an error instead. */
module RemoveDuplicateIds {
  import opened Wrappers
  import opened Json
  import opened PyStory
  import opened Sequences

  /** A Python set element built from a JSON id. `True` and `False` hash and compare like
      1 and 0, so they share keys with those numbers; a list or dict cannot be hashed. */
  datatype HashKey = NoneKey | IntKey(i: int) | StrKey(s: string)

  function HashKeyOf(v: Value): (r: Option<HashKey>)
    ensures r.None? <==> v.Arr? || v.Obj?
  {
    match v
    case Null => Some(NoneKey)
    case Bool(b) => Some(IntKey(if b then 1 else 0))
    case Num(n) => Some(IntKey(n))
    case Str(s) => Some(StrKey(s))
    case _ => None
  }

  /** A page with its `page.get("id")` and that id's set key. */
  datatype Keyed = Keyed(key: HashKey, id: Value, page: Value)

  /** The entry is a dict page with its id and that id's key. */
  predicate WellKeyed(e: Keyed) {
    e.page.Obj? && e.id == PageGet(e.page, "id", Null).value && HashKeyOf(e.id) == Some(e.key)
  }

  /** Reads every page's id in order; the first page that is not a dict, or whose id
      cannot be hashed, ends the loop with its exception. */
  function KeyPages(pages: seq<Value>): (r: Result<seq<Keyed>, PyError>)
    ensures r.Success? ==>
              && |r.value| == |pages|
              && forall i :: 0 <= i < |pages| ==> r.value[i].page == pages[i] && WellKeyed(r.value[i])
    ensures r.Success? <==> forall i :: 0 <= i < |pages| ==>
      pages[i].Obj? && HashKeyOf(PageGet(pages[i], "id", Null).value).Some?
  {
    if pages == [] then Success([])
    else
      var page := pages[0];
      var id :- PageGet(page, "id", Null);
      match HashKeyOf(id)
      case None => Failure(TypeError)
      case Some(key) =>
        var rest :- KeyPages(pages[1..]);
        assert forall i :: 1 <= i < |pages| ==> pages[i] == pages[1..][i - 1];
        Success([Keyed(key, id, page)] + rest)
  }

  /** The keys of a run of pages. */
  function KeysOf(entries: seq<Keyed>): set<HashKey> {
    set e | e in entries :: e.key
  }

  lemma KeysOfAppend(entries: seq<Keyed>, e: Keyed)
    ensures KeysOf(entries + [e]) == KeysOf(entries) + {e.key}
  {
    assert forall x :: x in entries + [e] <==> x in entries || x == e;
  }

  /** No two entries share a key. */
  predicate DistinctKeys(entries: seq<Keyed>) {
    forall i, j :: 0 <= i < j < |entries| ==> entries[i].key != entries[j].key
  }

  /** No earlier entry has the key of entry `i`. */
  predicate IsFirst(entries: seq<Keyed>, i: int)
    requires 0 <= i < |entries|
  {
    forall j :: 0 <= j < i ==> entries[j].key != entries[i].key
  }

  /** The first entry of every key, in order: what `cleaned_story` collects. */
  function Kept(entries: seq<Keyed>): (r: seq<Keyed>)
    ensures |r| <= |entries|
    ensures DistinctKeys(r)
    ensures KeysOf(r) == KeysOf(entries)
    ensures forall e :: e in r ==> e in entries
    decreases |entries|
  {
    if entries == [] then []
    else
      var prefix, last := entries[..|entries| - 1], entries[|entries| - 1];
      assert entries == prefix + [last];
      KeysOfAppend(prefix, last);
      var kept := Kept(prefix);
      if last.key in KeysOf(prefix) then kept
      else
        var r := kept + [last];
        KeysOfAppend(kept, last);
        assert forall i :: 0 <= i < |kept| ==> r[i].key in KeysOf(kept);
        r
  }

  /** One more entry: it is kept exactly when its key is new. */
  lemma KeptStep(entries: seq<Keyed>, i: int)
    requires 0 <= i < |entries|
    ensures Kept(entries[..i + 1]) ==
      if entries[i].key in KeysOf(entries[..i]) then Kept(entries[..i]) else Kept(entries[..i]) + [entries[i]]
    ensures Removed(entries[..i + 1]) ==
      if entries[i].key in KeysOf(entries[..i]) then Removed(entries[..i]) + [entries[i].id] else Removed(entries[..i])
    ensures KeysOf(entries[..i + 1]) == KeysOf(entries[..i]) + {entries[i].key}
  {
    var next := entries[..i + 1];
    assert next[..i] == entries[..i] && next[i] == entries[i];
    assert next == entries[..i] + [entries[i]];
    KeysOfAppend(entries[..i], entries[i]);
  }

  /** The ids of the other entries, in order: what `removed_ids` collects. */
  function Removed(entries: seq<Keyed>): (r: seq<Value>)
    ensures |Kept(entries)| + |r| == |entries|
    decreases |entries|
  {
    if entries == [] then []
    else
      var prefix, last := entries[..|entries| - 1], entries[|entries| - 1];
      var removed := Removed(prefix);
      if last.key in KeysOf(prefix) then removed + [last.id] else removed
  }

  /** Entry `i` is kept exactly when it is the first of its key, and then it is the only
      kept entry with that key. */
  lemma {:induction false} KeptIsFirstOccurrence(entries: seq<Keyed>, i: int)
    requires 0 <= i < |entries|
    ensures IsFirst(entries, i) ==> entries[i] in Kept(entries)
    ensures IsFirst(entries, i) ==>
      forall e :: e in Kept(entries) && e.key == entries[i].key ==> e == entries[i]
    ensures !IsFirst(entries, i) ==> entries[i].key in KeysOf(entries[..i])
    decreases |entries|
  {
    var prefix, last := entries[..|entries| - 1], entries[|entries| - 1];
    assert entries == prefix + [last];
    if i < |entries| - 1 {
      KeptIsFirstOccurrence(prefix, i);
      assert prefix[..i] == entries[..i];
      if IsFirst(entries, i) {
        assert IsFirst(prefix, i);
        var kept := Kept(entries);
        forall e | e in kept && e.key == entries[i].key ensures e == entries[i] {
          var a :| 0 <= a < |kept| && kept[a] == e;
          var b :| 0 <= b < |kept| && kept[b] == entries[i];
          assert a == b;
        }
      }
    } else {
      if IsFirst(entries, i) {
        assert last.key !in KeysOf(prefix);
        var kept := Kept(entries);
        forall e | e in kept && e.key == entries[i].key ensures e == entries[i] {
          var a :| 0 <= a < |kept| && kept[a] == e;
          assert kept[|kept| - 1] == last;
          assert a == |kept| - 1;
        }
      } else {
        var j :| 0 <= j < i && entries[j].key == entries[i].key;
        assert entries[..i][j] == entries[j];
      }
    }
  }

  /** The kept entries appear in the input in the same order. */
  lemma {:induction false} KeptIsSubsequence(entries: seq<Keyed>)
    ensures IsSubsequence(Kept(entries), entries)
    decreases |entries|
  {
    if entries != [] {
      var prefix, last := entries[..|entries| - 1], entries[|entries| - 1];
      assert entries == prefix + [last];
      KeptIsSubsequence(prefix);
      var kp := Kept(prefix);
      if last.key !in KeysOf(prefix) {
        assert Kept(entries) == kp + [last];
        SubsequenceSnoc(kp, prefix, last);
      } else {
        assert Kept(entries) == kp;
        SubsequenceWeaken(kp, prefix, last);
      }
    }
  }

  /** The script's loop: the `seen_ids` set, `cleaned_story` and `removed_ids` built page
      by page. */
  method DedupLoop(entries: seq<Keyed>) returns (cleaned: seq<Keyed>, removedIds: seq<Value>)
    ensures cleaned == Kept(entries) && removedIds == Removed(entries)
    ensures DistinctKeys(cleaned) && KeysOf(cleaned) == KeysOf(entries)
    ensures |cleaned| + |removedIds| == |entries|
  {
    var seen: set<HashKey> := {};
    cleaned, removedIds := [], [];
    var i := 0;
    while i < |entries|
      invariant 0 <= i <= |entries|
      invariant seen == KeysOf(entries[..i])
      invariant cleaned == Kept(entries[..i]) && removedIds == Removed(entries[..i])
    {
      var page := entries[i];
      KeptStep(entries, i);
      if page.key in seen {
        removedIds := removedIds + [page.id];
      } else {
        seen := seen + {page.key};
        cleaned := cleaned + [page];
      }
      i := i + 1;
    }
    assert entries[..i] == entries;
  }

  /** A file's result: the document written back and the dropped ids. */
  datatype Report = Report(data: Value, removedIds: seq<Value>)

  /** The pages of a run of entries. */
  function PagesOf(entries: seq<Keyed>): (r: seq<Value>)
    ensures |r| == |entries| && forall i :: 0 <= i < |entries| ==> r[i] == entries[i].page
  {
    if entries == [] then [] else [entries[0].page] + PagesOf(entries[1..])
  }

  /** One file: `data.get("story", [])`, the loop, and `data["story"] = cleaned_story`. */
  function RemoveDuplicates(data: Value): (r: Result<Report, PyError>)
    ensures r.Success? ==> data.Obj? && r.value.data.Obj?
    ensures r.Success? ==> forall k :: k != "story" ==>
      Get(r.value.data.members, k) == Get(data.members, k)
    ensures r.Success? ==> StoryField(data).Success? && Pages(StoryField(data).value).Success?
    ensures r.Success? ==>
      var pages := Pages(StoryField(data).value).value;
      var story := Get(r.value.data.members, "story");
      story.Some? && story.value.Arr? && |story.value.items| + |r.value.removedIds| == |pages|
    ensures r.Success? ==>
      var entries := KeyPages(Pages(StoryField(data).value).value);
      && entries.Success?
      && Get(r.value.data.members, "story") == Some(Arr(PagesOf(Kept(entries.value))))
      && r.value.removedIds == Removed(entries.value)
    ensures r.Failure? <==>
      || StoryField(data).Failure?
      || Pages(StoryField(data).value).Failure?
      || KeyPages(Pages(StoryField(data).value).value).Failure?
  {
    var story :- StoryField(data);
    var pages :- Pages(story);
    var entries :- KeyPages(pages);
    Success(Report(Obj(Set(data.members, "story", Arr(PagesOf(Kept(entries))))), Removed(entries)))
  }

  /** A document without a "story" member gets an empty one and removes nothing. */
  lemma MissingStoryIsEmpty(data: Value)
    requires data.Obj? && !HasKey(data.members, "story")
    ensures RemoveDuplicates(data).Success?
    ensures RemoveDuplicates(data).value.removedIds == []
    ensures Get(RemoveDuplicates(data).value.data.members, "story") == Some(Arr([]))
  {
    assert KeyPages([]) == Success([]);
    assert Kept([]) == [];
  }

  /** Entries with distinct keys are all kept. */
  lemma {:induction false} KeptOfDistinct(entries: seq<Keyed>)
    requires DistinctKeys(entries)
    ensures Kept(entries) == entries && Removed(entries) == []
    decreases |entries|
  {
    if entries != [] {
      var prefix, last := entries[..|entries| - 1], entries[|entries| - 1];
      KeptOfDistinct(prefix);
      assert last.key !in KeysOf(prefix);
      assert entries == prefix + [last];
    }
  }

  /** Reading the keys of pages that were read before gives the same entries back. */
  lemma {:induction false} KeyPagesOfPages(entries: seq<Keyed>)
    requires forall e :: e in entries ==> WellKeyed(e)
    ensures KeyPages(PagesOf(entries)) == Success(entries)
    decreases |entries|
  {
    if entries != [] {
      var pages := PagesOf(entries);
      KeyPagesOfPages(entries[1..]);
      assert pages[1..] == PagesOf(entries[1..]);
      var e := entries[0];
      assert WellKeyed(e);
      assert pages[0] == e.page;
      assert PageGet(pages[0], "id", Null) == Success(e.id);
      assert HashKeyOf(e.id) == Some(e.key);
      assert entries == [Keyed(e.key, e.id, e.page)] + entries[1..];
    }
  }

  /** Running the script on its own output changes nothing and removes nothing. */
  lemma RemoveDuplicatesIdempotent(data: Value)
    requires RemoveDuplicates(data).Success?
    ensures var out := RemoveDuplicates(data).value.data;
      RemoveDuplicates(out) == Success(Report(out, []))
  {
    var pages := Pages(StoryField(data).value).value;
    var entries := KeyPages(pages).value;
    var kept := Kept(entries);
    var out := RemoveDuplicates(data).value.data;
    assert out == Obj(Set(data.members, "story", Arr(PagesOf(kept))));
    assert StoryField(out) == Success(Arr(PagesOf(kept)));
    KeyPagesOfPages(kept);
    KeptOfDistinct(kept);
    Json.SetTwice(data.members, "story", Arr(PagesOf(kept)));
  }
}

=== FILE: sequences.dfy ===
/** Order-keeping selections of a sequence, shared by the filters of the model. */
module Sequences {
  /** `a` is `b` with some elements left out, the rest in order. */
  predicate IsSubsequence<T(==)>(a: seq<T>, b: seq<T>)
    decreases |b|
  {
    if a == [] then true
    else if b == [] then false
    else if a[|a| - 1] == b[|b| - 1] then IsSubsequence(a[..|a| - 1], b[..|b| - 1])
    else IsSubsequence(a, b[..|b| - 1])
  }

  /** Dropping the last element of a subsequence, or extending the sequence, keeps it a
      subsequence. */
  lemma {:induction false} SubsequenceWeaken<T>(a: seq<T>, b: seq<T>, x: T)
    requires IsSubsequence(a, b)
    ensures a != [] ==> IsSubsequence(a[..|a| - 1], b)
    ensures IsSubsequence(a, b + [x])
    decreases |b|
  {
    if a != [] {
      var b', y := b[..|b| - 1], b[|b| - 1];
      assert b == b' + [y];
      if a[|a| - 1] == y {
        SubsequenceWeaken(a[..|a| - 1], b', y);
      } else {
        SubsequenceWeaken(a, b', y);
        SubsequenceWeaken(a[..|a| - 1], b', y);
      }
      assert (b + [x])[..|b|] == b;
    }
  }

  /** A common last element extends a subsequence. */
  lemma SubsequenceSnoc<T>(a: seq<T>, b: seq<T>, x: T)
    requires IsSubsequence(a, b)
    ensures IsSubsequence(a + [x], b + [x])
  {
    assert (a + [x])[..|a|] == a && (b + [x])[..|b|] == b;
  }
}

=== FILE: story_engine.dfy ===
/** The reading screen (app/story.tsx, `ActualStoryEngine`): which page is shown, the
    history the back button walks, the decision counter and the sample-limit paywall.
    Every state change of the screen is a function from the old state (and the device
    store) to the new one. */
module StoryEngine {
  import opened Wrappers
  import opened AsyncStore
  import opened StoryModel
  import Text
  import ProgressManager
  import UnlockManager
  import StorageLayout

  /** The screen's state hooks. */
  datatype Reader = Reader(currentPageId: string, history: seq<string>, decisionCount: int, showPaywall: bool)

  const START_PAGE_ID := "intro"

  /** The page the screen opens on before saved progress is read: the resume page when it
      is a non-empty id, else "intro". */
  function InitialPageId(resumePageId: Option<string>): (r: string)
    ensures Truthy(r)
    ensures r == START_PAGE_ID || resumePageId == Some(r)
  {
    if resumePageId.Some? && Truthy(resumePageId.value) then resumePageId.value else START_PAGE_ID
  }

  /** The state once the mount effect has read the saved page: a non-empty saved page
      replaces the initial one. */
  function Start(resumePageId: Option<string>, store: Store, storyId: string): (r: Reader)
    ensures r.history == [] && r.decisionCount == 0 && !r.showPaywall
    ensures var saved := ProgressManager.LoadProgress(store, storyId);
      saved.Some? && Truthy(saved.value) ==> r.currentPageId == saved.value
    ensures var saved := ProgressManager.LoadProgress(store, storyId);
      !(saved.Some? && Truthy(saved.value)) ==> r.currentPageId == InitialPageId(resumePageId)
  {
    var initial := InitialPageId(resumePageId);
    var saved := ProgressManager.LoadProgress(store, storyId);
    var current := if saved.Some? && Truthy(saved.value) then saved.value else initial;
    Reader(current, [], 0, false)
  }

  /** Reopening a story resumes on the last page a choice led to, whatever page the
      caller asked to resume at. */
  lemma StartResumesSavedPage(store: Store, storyId: string, pageId: string, resumePageId: Option<string>)
    requires Truthy(pageId)
    ensures Start(resumePageId, ProgressManager.SaveProgress(store, storyId, pageId), storyId).currentPageId
      == pageId
  {
  }

  /** The page on screen. */
  function CurrentPage(story: seq<Page>, r: Reader): Option<Page> {
    FindPage(story, r.currentPageId)
  }

  /** The paywall condition `!unlocked && nextCount >= meta.sampleLimit`. With no sample
      limit the comparison is with `undefined`, which is false. */
  predicate Blocked(unlocked: bool, nextCount: int, sampleLimit: Option<int>) {
    !unlocked && sampleLimit.Some? && nextCount >= sampleLimit.value
  }

  /** `handleChoice(nextId)`: the current page is pushed onto the history first; then the
      choice is either stopped by the paywall or saved and followed. Returns the new
      state and the new store. */
  function HandleChoice(r: Reader, store: Store, meta: Meta, nextId: string): (res: (Reader, Store))
    ensures res.0.history == r.history + [r.currentPageId]
    ensures var blocked := Blocked(UnlockManager.IsStoryUnlocked(store, meta.id), r.decisionCount + 1, meta.sampleLimit);
      if blocked then
        && res.0.currentPageId == r.currentPageId && res.0.decisionCount == r.decisionCount
        && res.0.showPaywall && res.1 == store
      else
        && res.0.currentPageId == nextId && res.0.decisionCount == r.decisionCount + 1
        && res.0.showPaywall == r.showPaywall
        && ProgressManager.LoadProgress(res.1, meta.id) == Some(nextId)
        && (forall k :: k != ProgressManager.Key(ProgressManager.Progress, meta.id) ==>
              GetItem(res.1, k) == GetItem(store, k))
  {
    var history := r.history + [r.currentPageId];
    var unlocked := UnlockManager.IsStoryUnlocked(store, meta.id);
    var nextCount := r.decisionCount + 1;
    if Blocked(unlocked, nextCount, meta.sampleLimit) then
      (r.(history := history, showPaywall := true), store)
    else
      var saved := ProgressManager.SaveProgress(store, meta.id, nextId);
      (Reader(nextId, history, nextCount, r.showPaywall), saved)
  }

  /** The back button's press: it exists only while the history is non-empty; the last
      history entry is popped and, when it is a non-empty id, becomes the current page. */
  function GoBack(r: Reader): (res: Option<Reader>)
    ensures res.None? <==> r.history == []
    ensures res.Some? ==>
              && |res.value.history| == |r.history| - 1
              && res.value.history == r.history[..|r.history| - 1]
              && res.value.decisionCount == r.decisionCount
              && res.value.showPaywall == r.showPaywall
    ensures res.Some? && Truthy(r.history[|r.history| - 1]) ==>
      res.value.currentPageId == r.history[|r.history| - 1]
  {
    if r.history == [] then None
    else
      var last := r.history[|r.history| - 1];
      var history := r.history[..|r.history| - 1];
      Some(r.(history := history, currentPageId := if Truthy(last) then last else r.currentPageId))
  }

  /** Whether the page has the single "continue" choice that a tap anywhere follows. */
  predicate IsContinuePage(page: Option<Page>) {
    && page.Some? && page.value.choices.Some? && |page.value.choices.value| == 1
    && Text.Contains(Text.ToLower(page.value.choices.value[0].text), "continue")
  }

  /** `handleTapAnywhere`: the choice a tap on the screen follows, if any. */
  function TapTarget(page: Option<Page>): (r: Option<string>)
    ensures r.Some? <==> IsContinuePage(page)
    ensures r.Some? ==> r.value == page.value.choices.value[0].nextId
  {
    if IsContinuePage(page) then Some(page.value.choices.value[0].nextId) else None
  }

  /** The condition under which the choice buttons are rendered:
      `page?.choices?.length !== 1 || !text.toLowerCase().includes("continue")`. */
  predicate ShowsChoiceList(page: Option<Page>) {
    || page.None? || page.value.choices.None? || |page.value.choices.value| != 1
    || !Text.Contains(Text.ToLower(page.value.choices.value[0].text), "continue")
  }

  /** The buttons and the tap are alternatives: a page shows its choice list exactly when
      a tap does nothing. */
  lemma ChoiceListIffNoTap(page: Option<Page>)
    ensures ShowsChoiceList(page) <==> TapTarget(page).None?
  {
  }

  /** The case-insensitive match: a single choice captioned "Continue", "CONTINUE" or any
      other capitalisation of "continue" is followed by a tap. */
  lemma ContinueIsCaseInsensitive(page: Page, caption: string, nextId: string)
    requires page.choices == Some([Choice(caption, nextId)])
    requires Text.ToLower(caption) == "continue"
    ensures TapTarget(Some(page)) == Some(nextId)
  {
    Text.ContainsItself("continue");
  }

  // ---------------------------------------------------------------------------
  // Sequences of user actions
  // ---------------------------------------------------------------------------

  /** What the user can do on the screen: press the choice button at `index`, tap the
      screen, or press the back button. */
  datatype Action = Choose(index: nat) | Tap | Back

  /** One user action. Pressing a button that is not on screen does nothing. */
  function Step(story: seq<Page>, meta: Meta, r: Reader, store: Store, a: Action): (res: (Reader, Store))
    ensures res.0.decisionCount == r.decisionCount || res.0.decisionCount == r.decisionCount + 1
  {
    var page := CurrentPage(story, r);
    match a
    case Choose(i) =>
      if ShowsChoiceList(page) && page.Some? && page.value.choices.Some? && i < |page.value.choices.value|
      then HandleChoice(r, store, meta, page.value.choices.value[i].nextId)
      else (r, store)
    case Tap =>
      (match TapTarget(page)
       case Some(nextId) => HandleChoice(r, store, meta, nextId)
       case None => (r, store))
    case Back =>
      (match GoBack(r)
       case Some(r') => (r', store)
       case None => (r, store))
  }

  function Run(story: seq<Page>, meta: Meta, r: Reader, store: Store, actions: seq<Action>): (Reader, Store)
    decreases |actions|
  {
    if actions == [] then (r, store)
    else
      var next := Step(story, meta, r, store, actions[0]);
      Run(story, meta, next.0, next.1, actions[1..])
  }

  /** The decision counter never goes down, and it rises by at most one per action: back
      never undoes a decision. */
  lemma {:induction false} RunCountMonotone(story: seq<Page>, meta: Meta, r: Reader, store: Store, actions: seq<Action>)
    ensures r.decisionCount <= Run(story, meta, r, store, actions).0.decisionCount
      <= r.decisionCount + |actions|
    decreases |actions|
  {
    if actions != [] {
      var next := Step(story, meta, r, store, actions[0]);
      RunCountMonotone(story, meta, next.0, next.1, actions[1..]);
    }
  }

  /** No action changes whether the story is unlocked: the screen only ever writes the
      saved page. */
  lemma StepKeepsUnlock(story: seq<Page>, meta: Meta, r: Reader, store: Store, a: Action)
    ensures UnlockManager.IsStoryUnlocked(Step(story, meta, r, store, a).1, meta.id)
      <==> UnlockManager.IsStoryUnlocked(store, meta.id)
  {
    StorageLayout.SaveAndUnlockIndependent(store, meta.id, meta.id, "");
    var page := CurrentPage(story, r);
    match a
    case Choose(i) =>
      if ShowsChoiceList(page) && page.Some? && page.value.choices.Some? && i < |page.value.choices.value| {
        StorageLayout.SaveAndUnlockIndependent(store, meta.id, meta.id, page.value.choices.value[i].nextId);
      }
    case Tap =>
      if TapTarget(page).Some? {
        StorageLayout.SaveAndUnlockIndependent(store, meta.id, meta.id, TapTarget(page).value);
      }
    case Back =>
  }

  /** In a story that has not been bought, however the user plays, the decision counter
      never reaches the sample limit unless it started there: every choice that would
      reach it is stopped by the paywall. */
  lemma {:induction false} RunStaysBelowSampleLimit(story: seq<Page>, meta: Meta, r: Reader, store: Store, actions: seq<Action>)
    requires !UnlockManager.IsStoryUnlocked(store, meta.id)
    requires meta.sampleLimit.Some?
    requires r.decisionCount < meta.sampleLimit.value
    ensures Run(story, meta, r, store, actions).0.decisionCount < meta.sampleLimit.value
    decreases |actions|
  {
    if actions != [] {
      var next := Step(story, meta, r, store, actions[0]);
      StepKeepsUnlock(story, meta, r, store, actions[0]);
      RunStaysBelowSampleLimit(story, meta, next.0, next.1, actions[1..]);
    }
  }

  /** In a bought story, or one without a sample limit, the paywall never appears. */
  lemma {:induction false} RunNeverPaywalled(story: seq<Page>, meta: Meta, r: Reader, store: Store, actions: seq<Action>)
    requires UnlockManager.IsStoryUnlocked(store, meta.id) || meta.sampleLimit.None?
    ensures Run(story, meta, r, store, actions).0.showPaywall == r.showPaywall
    decreases |actions|
  {
    if actions != [] {
      var next := Step(story, meta, r, store, actions[0]);
      StepKeepsUnlock(story, meta, r, store, actions[0]);
      RunNeverPaywalled(story, meta, next.0, next.1, actions[1..]);
    }
  }

  /** With a sample limit of 3 in a story that has not been bought, the first two
      choices go through and the third is stopped. */
  lemma SampleLimitOfThree(store: Store, meta: Meta, a: string, b: string, c: string)
    requires meta.sampleLimit == Some(3)
    requires !UnlockManager.IsStoryUnlocked(store, meta.id)
    ensures var s0 := Reader(START_PAGE_ID, [], 0, false);
      var s1 := HandleChoice(s0, store, meta, a);
      var s2 := HandleChoice(s1.0, s1.1, meta, b);
      var s3 := HandleChoice(s2.0, s2.1, meta, c);
      && s1.0.currentPageId == a && s2.0.currentPageId == b
      && s3.0.currentPageId == b && s3.0.showPaywall && s3.0.decisionCount == 2
  {
    var s0 := Reader(START_PAGE_ID, [], 0, false);
    var s1 := HandleChoice(s0, store, meta, a);
    StorageLayout.SaveAndUnlockIndependent(store, meta.id, meta.id, a);
    var s2 := HandleChoice(s1.0, s1.1, meta, b);
    StorageLayout.SaveAndUnlockIndependent(s1.1, meta.id, meta.id, b);
  }

  /** Back undoes the page change of a choice that went through, but not its count. */
  lemma BackAfterChoice(r: Reader, store: Store, meta: Meta, nextId: string)
    requires Truthy(r.currentPageId)
    ensures var s := HandleChoice(r, store, meta, nextId).0;
      && GoBack(s).Some?
      && GoBack(s).value.currentPageId == r.currentPageId
      && GoBack(s).value.history == r.history
      && GoBack(s).value.decisionCount == s.decisionCount
  {
    var s := HandleChoice(r, store, meta, nextId).0;
    assert s.history[..|s.history| - 1] == r.history;
  }
}

=== FILE: story_list.dfy ===
/** The story list screen of app/storyList.tsx: the per-story maps it loads from storage,
    the chapter shown on each card, deleting a story's progress, and the one-shot reset
    flag that the next press of the card hands to the reader. */
module StoryList {
  import opened Wrappers
  import opened AsyncStore
  import opened StoryModel
  import ProgressManager
  import UnlockManager
  import StorageLayout
  import StoryLoader
  import LanguageProvider
  import ObjectCounts

  /** The chapter shown when none is saved, and the one a delete resets to. */
  const INTRO := "intro"

  /** What the screen keeps per story id: `unlockedMap`, `chapterMap` (the saved chapter,
      or `null`), `chapterTitles`, and the ids in `resetFlags`. */
  datatype ListState = ListState(
    unlockedMap: map<string, bool>,
    chapterMap: map<string, Option<string>>,
    chapterTitles: map<string, map<string, string>>,
    resetFlags: set<string>)

  /** Chapter `i` is the last one with its id. */
  predicate LastWithId(chapters: seq<Chapter>, i: int)
    requires 0 <= i < |chapters|
  {
    forall j :: i < j < |chapters| ==> chapters[j].id != chapters[i].id
  }

  /** The one key whose assignment on a plain object stores nothing: `obj["__proto__"] = v`
      calls the prototype setter, which ignores a string or boolean `v`. */
  const PROTO_KEY := "__proto__"

  /** `for (const chapter of chapters) map[chapter.id] = chapter.title`, as own keys. */
  function TitleMap(chapters: seq<Chapter>): (r: map<string, string>)
    ensures forall id :: id in r <==> id != PROTO_KEY && exists c :: c in chapters && c.id == id
    decreases |chapters|
  {
    if chapters == [] then map[]
    else
      var prefix, last := chapters[..|chapters| - 1], chapters[|chapters| - 1];
      assert forall c :: c in chapters <==> c in prefix || c == last;
      if last.id == PROTO_KEY then TitleMap(prefix)
      else TitleMap(prefix)[last.id := last.title]
  }

  /** Every id maps to the title of the last chapter with that id: a later duplicate
      overwrites an earlier one. */
  lemma {:induction false} TitleMapLastWins(chapters: seq<Chapter>, i: int)
    requires 0 <= i < |chapters| && LastWithId(chapters, i) && chapters[i].id != PROTO_KEY
    ensures TitleMap(chapters)[chapters[i].id] == chapters[i].title
    decreases |chapters|
  {
    var prefix, last := chapters[..|chapters| - 1], chapters[|chapters| - 1];
    if i < |chapters| - 1 {
      assert last.id != chapters[i].id;
      assert prefix[i] == chapters[i];
      TitleMapLastWins(prefix, i);
    }
  }

  /** `block.meta?.chapters || []`. */
  function TitlesOf(meta: Meta): map<string, string> {
    TitleMap(meta.chapters.GetOr([]))
  }

  /** `data[story.id]` does not throw: an own block, or an inherited `Object.prototype`
      member, which has no `meta`. */
  predicate Resolves(data: map<string, Block>, id: string) {
    id in data || id in ObjectCounts.PROTOTYPE_NAMES
  }

  /** The titles of the block `data[id]`: an inherited member gives `[]` chapters. */
  function BlockTitles(data: map<string, Block>, id: string): map<string, string> {
    if id in data then TitlesOf(data[id].meta) else map[]
  }

  /** The load effect for the current language. The screen keeps its own file map, keyed
      like the story loader's (en, de, fr, es, is, jp): a language without a file leaves
      `loader` undefined, and calling it throws a TypeError before anything is listed.
      `keys` is `Object.keys(data)` of the language's file. */
  function Load(lang: string, files: StoryLoader.StoryFiles, keys: seq<string>, s: ListState, store: Store): (r: Result<ListState, string>)
    requires forall k :: k in keys ==> k in StoryLoader.FileOf(files, lang)
    ensures lang !in StoryLoader.STORY_LANGUAGES ==> r == Failure("TypeError")
    ensures var data := StoryLoader.FileOf(files, lang);
      r.Failure? <==> lang !in StoryLoader.STORY_LANGUAGES || exists k :: k in keys && !Resolves(data, data[k].meta.id)
    ensures r.Success? ==> r.value.resetFlags == s.resetFlags
    ensures r.Success? ==> Loaded(keys, StoryLoader.FileOf(files, lang), r.value, store)
  {
    if lang !in StoryLoader.STORY_LANGUAGES then Failure("TypeError")
    else LoadBlocks(keys, StoryLoader.FileOf(files, lang), s, store)
  }

  /** As written, the list screen fails for the provider's Japanese code "ja": its file map
      has "jp", so `storyFileMap["ja"]` is undefined and no story is listed. */
  lemma JapaneseListFails(files: StoryLoader.StoryFiles, keys: seq<string>, s: ListState, store: Store)
    requires forall k :: k in keys ==> k in StoryLoader.FileOf(files, "ja")
    ensures "ja" in LanguageProvider.LANGUAGE_CODES
    ensures Load("ja", files, keys, s, store) == Failure("TypeError")
  {
  }

  /** With the provider's code mapped to its file code, every offered language lists the
      stories of its file, failing only on a story whose id has no block. */
  lemma ProviderLanguagesList(lang: string, files: StoryLoader.StoryFiles, keys: seq<string>, s: ListState, store: Store)
    requires lang in LanguageProvider.LANGUAGE_CODES
    requires var data := StoryLoader.FileOf(files, StoryLoader.StoryFileCode(lang));
      forall k :: k in keys ==> k in data && Resolves(data, data[k].meta.id)
    ensures Load(StoryLoader.StoryFileCode(lang), files, keys, s, store).Success?
  {
  }

  /** The per-story loop over one file's blocks: the listed story of a key is
      `data[key].meta`, and its block is `data[story.id]`; reading `block.meta` throws a
      TypeError when that is undefined, that is, when the id is neither a key of the file nor
      an inherited member. The three maps are replaced by fresh ones; `resetFlags` is not
      touched. */
  function LoadBlocks(keys: seq<string>, data: map<string, Block>, s: ListState, store: Store): (r: Result<ListState, string>)
    requires forall k :: k in keys ==> k in data
    ensures r.Failure? <==> exists k :: k in keys && !Resolves(data, data[k].meta.id)
    ensures r.Success? ==> r.value.resetFlags == s.resetFlags && Loaded(keys, data, r.value, store)
    decreases |keys|
  {
    if keys == [] then Success(ListState(map[], map[], map[], s.resetFlags))
    else
      var prefix, k := keys[..|keys| - 1], keys[|keys| - 1];
      assert forall x :: x in keys <==> x in prefix || x == k;
      match LoadBlocks(prefix, data, s, store)
      case Failure(e) => Failure(e)
      case Success(t) =>
        var id := data[k].meta.id;
        if !Resolves(data, id) then Failure("TypeError")
        else
          LoadedStep(prefix, k, data, t, store);
          Success(Record(t, data, id, store))
  }

  /** Some key of the file lists a story with this id. */
  ghost predicate Listed(keys: seq<string>, data: map<string, Block>, id: string)
    requires forall k :: k in keys ==> k in data
  {
    exists k :: k in keys && data[k].meta.id == id
  }

  /** One loop iteration: the story's unlock status, saved chapter and title map, stored as
      own keys; under `__proto__` none is stored. */
  function Record(t: ListState, data: map<string, Block>, id: string, store: Store): ListState {
    if id == PROTO_KEY then t
    else
      t.(unlockedMap := t.unlockedMap[id := UnlockManager.IsStoryUnlocked(store, id)],
         chapterMap := t.chapterMap[id := ProgressManager.LoadChapterProgress(store, id)],
         chapterTitles := t.chapterTitles[id := BlockTitles(data, id)])
  }

  /** The maps hold exactly the listed ids other than `__proto__`, and for each its unlock
      status, its saved chapter and the title map of the block `data[id]`. */
  ghost predicate Loaded(keys: seq<string>, data: map<string, Block>, t: ListState, store: Store)
    requires forall k :: k in keys ==> k in data
  {
    && (forall id :: id in t.unlockedMap <==> Listed(keys, data, id) && id != PROTO_KEY)
    && (forall id :: id in t.chapterMap <==> Listed(keys, data, id) && id != PROTO_KEY)
    && (forall id :: id in t.chapterTitles <==> Listed(keys, data, id) && id != PROTO_KEY)
    && forall k :: k in keys && data[k].meta.id != PROTO_KEY ==> HoldsStory(data, t, store, data[k].meta.id)
  }

  ghost predicate HoldsStory(data: map<string, Block>, t: ListState, store: Store, id: string) {
    && id in t.unlockedMap && id in t.chapterMap && id in t.chapterTitles
    && (t.unlockedMap[id] <==> UnlockManager.IsStoryUnlocked(store, id))
    && t.chapterMap[id] == ProgressManager.LoadChapterProgress(store, id)
    && t.chapterTitles[id] == BlockTitles(data, id)
  }

  lemma LoadedStep(prefix: seq<string>, k: string, data: map<string, Block>, t: ListState, store: Store)
    requires forall x :: x in prefix + [k] ==> x in data
    requires Loaded(prefix, data, t, store)
    ensures Loaded(prefix + [k], data, Record(t, data, data[k].meta.id, store), store)
  {
    var keys, id, t' := prefix + [k], data[k].meta.id, Record(t, data, data[k].meta.id, store);
    forall x ensures Listed(keys, data, x) <==> Listed(prefix, data, x) || x == id {
      ListedAppend(prefix, k, data, x);
    }
    forall x | x in keys && data[x].meta.id != PROTO_KEY ensures HoldsStory(data, t', store, data[x].meta.id) {
      HoldsStoryKept(prefix, k, data, t, store, x);
    }
  }

  lemma ListedAppend(prefix: seq<string>, k: string, data: map<string, Block>, x: string)
    requires forall y :: y in prefix + [k] ==> y in data
    ensures Listed(prefix + [k], data, x) <==> Listed(prefix, data, x) || x == data[k].meta.id
  {
    var keys := prefix + [k];
    if Listed(keys, data, x) && x != data[k].meta.id {
      var y :| y in keys && data[y].meta.id == x;
      assert y in prefix;
    }
    if Listed(prefix, data, x) {
      var y :| y in prefix && data[y].meta.id == x;
      assert y in keys;
    }
    assert k in keys;
  }

  lemma HoldsStoryKept(prefix: seq<string>, k: string, data: map<string, Block>, t: ListState, store: Store, x: string)
    requires forall y :: y in prefix + [k] ==> y in data
    requires Loaded(prefix, data, t, store) && x in prefix + [k] && data[x].meta.id != PROTO_KEY
    ensures HoldsStory(data, Record(t, data, data[k].meta.id, store), store, data[x].meta.id)
  {
    if x != k {
      assert x in prefix;
      assert HoldsStory(data, t, store, data[x].meta.id);
    }
  }

  /** `chapterMap[id] || "intro"`: a missing, `null` or empty chapter shows the intro. */
  function DisplayedChapterId(s: ListState, storyId: string): (r: string)
    ensures Truthy(r)
    ensures r != INTRO ==> storyId in s.chapterMap && s.chapterMap[storyId] == Some(r)
    ensures storyId in s.chapterMap && s.chapterMap[storyId].Some? && Truthy(s.chapterMap[storyId].value) ==>
      r == s.chapterMap[storyId].value
  {
    if storyId in s.chapterMap && s.chapterMap[storyId].Some? && Truthy(s.chapterMap[storyId].value)
    then s.chapterMap[storyId].value
    else INTRO
  }

  /** After loading, a story's card shows the chapter saved for it. */
  lemma LoadedChapterIsSaved(keys: seq<string>, data: map<string, Block>, s: ListState, store: Store,
                             k: string, chapterId: string)
    requires forall k :: k in keys ==> k in data && Resolves(data, data[k].meta.id)
    requires k in keys && data[k].meta.id != PROTO_KEY && Truthy(chapterId)
    ensures var id := data[k].meta.id;
      var loaded := LoadBlocks(keys, data, s, ProgressManager.SaveChapterProgress(store, id, chapterId));
      loaded.Success? && DisplayedChapterId(loaded.value, id) == chapterId
  {
    var id := data[k].meta.id;
    var saved := ProgressManager.SaveChapterProgress(store, id, chapterId);
    ProgressManager.ChapterProgressRoundTrip(store, id, chapterId, ProgressManager.Chapter);
    assert HoldsStory(data, LoadBlocks(keys, data, s, saved).value, saved, id);
  }

  /** A story listed under a key that is not its id takes its chapter titles from the block
      stored under its id, not from the block it was listed from. */
  lemma TitlesFromOwnBlock(keys: seq<string>, data: map<string, Block>, s: ListState, store: Store, k: string)
    requires forall k :: k in keys ==> k in data && Resolves(data, data[k].meta.id)
    requires k in keys && data[k].meta.id in data && data[k].meta.id != PROTO_KEY
    ensures var id := data[k].meta.id;
      var loaded := LoadBlocks(keys, data, s, store);
      loaded.Success? && id in loaded.value.chapterTitles
      && loaded.value.chapterTitles[id] == TitleMap(data[id].meta.chapters.GetOr([]))
  {
    assert HoldsStory(data, LoadBlocks(keys, data, s, store).value, store, data[k].meta.id);
  }

  /** A story whose id names an inherited member, such as "constructor", is listed: the
      inherited member has no `meta`, so its title map is empty. */
  lemma InheritedIdIsListed(k: string, meta: Meta, s: ListState, store: Store)
    requires meta.id in ObjectCounts.PROTOTYPE_NAMES && meta.id != PROTO_KEY && meta.id != k
    ensures var r := LoadBlocks([k], map[k := Block(meta, [])], s, store);
      && r.Success?
      && meta.id in r.value.unlockedMap && meta.id in r.value.chapterTitles
      && r.value.chapterTitles[meta.id] == map[]
  {
    var data := map[k := Block(meta, [])];
    assert [k][..0] == [];
    assert HoldsStory(data, LoadBlocks([k], data, s, store).value, store, meta.id);
  }

  /** A story with id `__proto__` loads without an entry in any of the three maps. */
  lemma ProtoIdStoresNothing(k: string, meta: Meta, s: ListState, store: Store)
    requires meta.id == PROTO_KEY
    ensures var r := LoadBlocks([k], map[k := Block(meta, [])], s, store);
      && r.Success?
      && r.value.unlockedMap == map[] && r.value.chapterMap == map[] && r.value.chapterTitles == map[]
  {
    assert [k][..0] == [];
  }

  /** The two status lines a card can show. */
  datatype Status =
    | ContinueChapter(title: string)  // "continue chapter: <title>"
    | SampleLimit                     // the sample-limit notice

  /** The card's status line: an unlocked story shows its current chapter's title, or the
      intro caption when the title map has none; any other shows the sample limit. */
  function CardStatus(s: ListState, storyId: string, introCaption: string): (r: Status)
    ensures r.ContinueChapter? <==> storyId in s.unlockedMap && s.unlockedMap[storyId]
    ensures r.ContinueChapter? ==>
      var chapterId := DisplayedChapterId(s, storyId);
      if storyId in s.chapterTitles && chapterId in s.chapterTitles[storyId]
         && Truthy(s.chapterTitles[storyId][chapterId])
      then r.title == s.chapterTitles[storyId][chapterId]
      else r.title == introCaption
  {
    if storyId in s.unlockedMap && s.unlockedMap[storyId] then
      var chapterId := DisplayedChapterId(s, storyId);
      var title :=
        if storyId in s.chapterTitles && chapterId in s.chapterTitles[storyId]
        then s.chapterTitles[storyId][chapterId] else "";
      ContinueChapter(if Truthy(title) then title else introCaption)
    else SampleLimit
  }

  /** The delete action: clear the stored progress, show the intro and flag the next press
      as a reset. The unlock map is left alone. */
  function Delete(s: ListState, store: Store, storyId: string): (res: (ListState, Store))
    ensures res.0.unlockedMap == s.unlockedMap && res.0.chapterTitles == s.chapterTitles
    ensures res.0.chapterMap == s.chapterMap[storyId := Some(INTRO)]
    ensures DisplayedChapterId(res.0, storyId) == INTRO
    ensures res.0.resetFlags == s.resetFlags + {storyId}
    ensures forall other :: UnlockManager.IsStoryUnlocked(res.1, other) == UnlockManager.IsStoryUnlocked(store, other)
    ensures ProgressManager.LoadProgress(res.1, storyId).None?
    ensures res.1 == ProgressManager.ClearProgress(store, storyId)
  {
    var store' := ProgressManager.ClearProgress(store, storyId);
    forall other ensures UnlockManager.IsStoryUnlocked(store', other) == UnlockManager.IsStoryUnlocked(store, other) {
      StorageLayout.ClearsKeepUnlock(store, storyId, other);
    }
    ProgressManager.ClearProgressSlots(store, storyId, ProgressManager.Progress, storyId);
    (s.(chapterMap := s.chapterMap[storyId := Some(INTRO)], resetFlags := s.resetFlags + {storyId}), store')
  }

  /** Where a press navigates: the story, with `reset: "true"` or without. */
  datatype Navigation = Navigation(storyId: string, reset: bool)

  /** Pressing a card: navigate, passing the reset flag if set, then clear the flag. */
  function Press(s: ListState, storyId: string): (res: (Navigation, ListState))
    ensures res.0 == Navigation(storyId, storyId in s.resetFlags)
    ensures res.1.resetFlags == s.resetFlags - {storyId}
    ensures res.1.unlockedMap == s.unlockedMap && res.1.chapterMap == s.chapterMap
  {
    (Navigation(storyId, storyId in s.resetFlags), s.(resetFlags := s.resetFlags - {storyId}))
  }

  /** Only the first press after a delete resets: the flag is consumed by it, and presses
      of other stories neither consume nor set it. */
  lemma ResetIsOneShot(s: ListState, store: Store, storyId: string, other: string)
    requires other != storyId
    ensures var deleted := Delete(s, store, storyId).0;
      var (otherNav, s1) := Press(deleted, other);
      var (first, s2) := Press(s1, storyId);
      var (second, _) := Press(s2, storyId);
      first.reset && !second.reset && otherNav.reset == (other in s.resetFlags)
  {
  }
}

=== FILE: story_loader.dfy ===
/** storyloader.ts: `loadStory(storyId, lang)` picks the story file of a language, takes the
    story's block from it and returns its `meta`, its pages and its chapter list. */
module StoryLoader {
  import opened Wrappers
  import opened StoryModel
  import LanguageProvider

  /** The language of a call that passes none. */
  const DEFAULT_LANGUAGE := "en"

  /** The keys of `storyFileMap`: the languages with a story file. */
  const STORY_LANGUAGES: set<string> := {"en", "de", "fr", "es", "is", "jp"}

  /** The bundled story files: for each language code, its blocks by story id. A code
      without an entry has an empty file. */
  type StoryFiles = map<string, map<string, Block>>

  /** The two errors `loadStory` throws. */
  datatype LoadError =
    | UnsupportedLanguage(lang: string)
    | StoryNotFound(storyId: string, lang: string)

  /** The error's `message`, which the loading screen shows. */
  function Message(e: LoadError): (m: string)
    ensures e.UnsupportedLanguage? ==> m == "Unsupported language: " + e.lang
    ensures e.StoryNotFound? ==> m == "Story block for \"" + e.storyId + "\" not found in " + e.lang
  {
    match e
    case UnsupportedLanguage(lang) => "Unsupported language: " + lang
    case StoryNotFound(storyId, lang) => "Story block for \"" + storyId + "\" not found in " + lang
  }

  /** The two messages never coincide, so the screen tells the causes apart. */
  lemma MessagesDiffer(lang: string, storyId: string, lang': string)
    ensures Message(UnsupportedLanguage(lang)) != Message(StoryNotFound(storyId, lang'))
  {
    var a, b := Message(UnsupportedLanguage(lang)), Message(StoryNotFound(storyId, lang'));
    assert a[0] == 'U' && b[0] == 'S';
  }

  /** What a successful load returns. */
  datatype Loaded = Loaded(meta: Meta, story: seq<Page>, chapters: seq<Chapter>)

  /** The blocks of one language's file. */
  function FileOf(files: StoryFiles, lang: string): map<string, Block> {
    if lang in files then files[lang] else map[]
  }

  /** `loadStory(storyId, lang)`; `None` is a call without a language. */
  function LoadStory(files: StoryFiles, storyId: string, lang: Option<string>): (r: Result<Loaded, LoadError>)
    ensures var code := lang.GetOr(DEFAULT_LANGUAGE);
      r == Failure(UnsupportedLanguage(code)) <==> code !in STORY_LANGUAGES
    ensures var code := lang.GetOr(DEFAULT_LANGUAGE);
      r == Failure(StoryNotFound(storyId, code)) <==>
        code in STORY_LANGUAGES && storyId !in FileOf(files, code)
    ensures r.Success? ==>
      var block := FileOf(files, lang.GetOr(DEFAULT_LANGUAGE))[storyId];
      && r.value.meta == block.meta
      && r.value.story == block.story
      && r.value.chapters == block.meta.chapters.GetOr([])
  {
    var code := lang.GetOr(DEFAULT_LANGUAGE);
    if code !in STORY_LANGUAGES then Failure(UnsupportedLanguage(code))
    else
      var file := FileOf(files, code);
      if storyId !in file then Failure(StoryNotFound(storyId, code))
      else
        var block := file[storyId];
        Success(Loaded(block.meta, block.story, block.meta.chapters.GetOr([])))
  }

  /** A call without a language loads English. */
  lemma DefaultIsEnglish(files: StoryFiles, storyId: string)
    ensures LoadStory(files, storyId, None) == LoadStory(files, storyId, Some("en"))
  {
  }

  /** A story with no chapter list loads with none. */
  lemma NoChaptersIsEmpty(files: StoryFiles, storyId: string, lang: string)
    requires lang in STORY_LANGUAGES && storyId in FileOf(files, lang)
    requires FileOf(files, lang)[storyId].meta.chapters.None?
    ensures LoadStory(files, storyId, Some(lang)).Success?
    ensures LoadStory(files, storyId, Some(lang)).value.chapters == []
  {
  }

  /** As written, the loading screen passes the provider's language straight through, and
      the provider's code for Japanese, "ja", has no story file ("jp" has): choosing
      Japanese fails every story with "Unsupported language: ja". */
  lemma JapaneseSelectionFails(files: StoryFiles, storyId: string)
    ensures "ja" in LanguageProvider.LANGUAGE_CODES
    ensures LoadStory(files, storyId, Some("ja")) == Failure(UnsupportedLanguage("ja"))
    ensures Message(LoadStory(files, storyId, Some("ja")).error) == "Unsupported language: ja"
  {
  }

  /** The story file code of a provider language: "ja" names the "jp" file; every other
      code is its own. */
  function StoryFileCode(lang: string): (code: string)
    ensures lang in LanguageProvider.LANGUAGE_CODES ==> code in STORY_LANGUAGES
    ensures lang != "ja" ==> code == lang
  {
    if lang == "ja" then "jp" else lang
  }

  /** Loading in the provider's language, as intended. */
  function LoadForProvider(files: StoryFiles, storyId: string, lang: string): (r: Result<Loaded, LoadError>)
    ensures lang in LanguageProvider.LANGUAGE_CODES ==> !(r.Failure? && r.error.UnsupportedLanguage?)
    ensures lang in LanguageProvider.LANGUAGE_CODES ==>
      (r.Success? <==> storyId in FileOf(files, StoryFileCode(lang)))
  {
    LoadStory(files, storyId, Some(StoryFileCode(lang)))
  }

  /** With the mapping, every language the app offers loads any story its file holds, and
      Japanese loads the Japanese file. */
  lemma ProviderLanguagesLoad(files: StoryFiles, storyId: string, lang: string)
    requires lang in LanguageProvider.LANGUAGE_CODES
    requires storyId in FileOf(files, StoryFileCode(lang))
    ensures LoadForProvider(files, storyId, lang).Success?
    ensures LoadForProvider(files, storyId, lang).value.story == FileOf(files, StoryFileCode(lang))[storyId].story
    ensures lang == "ja" ==> LoadForProvider(files, storyId, lang) == LoadStory(files, storyId, Some("jp"))
  {
  }
}

=== FILE: story_model.dfy ===
/** The story data the app reads from a story block: pages with their choices, and the
    block's meta record. Only the fields the modelled code reads are kept. */
module StoryModel {
  import opened Wrappers

  /** One choice button: its label and the id of the page it leads to. */
  datatype Choice = Choice(text: string, nextId: string)

  /** A story page. `image` and `choices` are optional fields of the story files. */
  datatype Page = Page(id: string, text: string, image: Option<string>, choices: Option<seq<Choice>>)

  /** A chapter entry of `meta.chapters`. */
  datatype Chapter = Chapter(id: string, title: string, order: int)

  /** The `meta` record of a story block. `sampleLimit` is absent for stories without a
      free sample; `chapters` is absent for stories without chapters. */
  datatype Meta = Meta(id: string, title: string, sampleLimit: Option<int>, chapters: Option<seq<Chapter>>)

  /** A story block of one language file: `{ meta, story }`. */
  datatype Block = Block(meta: Meta, story: seq<Page>)

  /** JavaScript truthiness of a string: every string but "" is truthy. */
  predicate Truthy(s: string) {
    s != ""
  }

  /** The page at index `i` is the first page of `story` with id `id`. */
  predicate FirstWithId(story: seq<Page>, id: string, i: int) {
    0 <= i < |story| && story[i].id == id && forall j :: 0 <= j < i ==> story[j].id != id
  }

  /** `story.find((p) => p.id === id)` (app/story.tsx): the first page with that id. */
  function FindPage(story: seq<Page>, id: string): (r: Option<Page>)
    ensures r.None? <==> forall i :: 0 <= i < |story| ==> story[i].id != id
    ensures r.Some? ==> exists i :: FirstWithId(story, id, i) && story[i] == r.value
  {
    if |story| == 0 then None
    else if story[0].id == id then
      assert FirstWithId(story, id, 0);
      Some(story[0])
    else
      var r := FindPage(story[1..], id);
      if r.Some? then
        var i :| FirstWithId(story[1..], id, i) && story[1..][i] == r.value;
        assert FirstWithId(story, id, i + 1);
        r
      else
        r
  }
}

=== FILE: story_validation.dfy ===
/** The story-file checks of the validation suites, as predicates and report functions
    over a page list. `__test__/storyValidation.test.js` is the current suite (links,
    capitalisation, 430-unit length, duplicate ids, duplicate text with exclusions, self
    loops); `test/storyValidation.test.js` is the older one (links, 550-unit length,
    duplicate ids, duplicate text without exclusions). Both run every check once per
    language file. */
module StoryValidation {
  import opened Wrappers
  import opened StoryModel
  import Text
  import ObjectCounts

  const LANGUAGES: seq<string> := ["en", "de", "es", "fr", "is", "jp"]
  const LEGACY_LANGUAGES: seq<string> := ["en", "de", "es", "fr", "is", "ja"]

  /** Pages the capitalisation and duplicate-text checks skip. */
  const EXCLUDED_IDS: set<string> := {"DedicationView", "Silver_Ending", "Gold_Ending"}

  const MAX_TEXT_LENGTH := 430
  const LEGACY_MAX_TEXT_LENGTH := 550

  /** `new Set(story.map((page) => page.id))`. */
  function PageIds(story: seq<Page>): set<string> {
    set i | 0 <= i < |story| :: story[i].id
  }

  /** Some page of the story has the id `id`. */
  predicate HasPage(story: seq<Page>, id: string) {
    exists k :: 0 <= k < |story| && story[k].id == id
  }

  // ---------------------------------------------------------------------------
  // Links
  // ---------------------------------------------------------------------------

  datatype BrokenLink = BrokenLink(from: string, invalidNextId: string)

  /** Every choice of the page leads to a page id in `ids`; a page without a `choices`
      field has nothing to check. */
  predicate ChoicesResolve(page: Page, ids: set<string>) {
    page.choices.None? || forall j :: 0 <= j < |page.choices.value| ==> page.choices.value[j].nextId in ids
  }

  /** The broken links of one page's choices, in choice order. */
  function ChoiceBrokenLinks(from: string, choices: seq<Choice>, ids: set<string>): (r: seq<BrokenLink>)
    ensures r == [] <==> forall j :: 0 <= j < |choices| ==> choices[j].nextId in ids
    ensures forall l :: l in r ==> l.from == from && l.invalidNextId !in ids
    ensures |r| <= |choices|
  {
    if choices == [] then []
    else
      var rest := ChoiceBrokenLinks(from, choices[1..], ids);
      if choices[0].nextId in ids then rest else [BrokenLink(from, choices[0].nextId)] + rest
  }

  /** `brokenLinks` of the link test: one entry per choice whose `nextId` is not in `ids`,
      in page and choice order. */
  function BrokenLinks(story: seq<Page>, ids: set<string>): (r: seq<BrokenLink>)
    ensures r == [] <==> forall i :: 0 <= i < |story| ==> ChoicesResolve(story[i], ids)
    ensures forall l :: l in r ==> l.invalidNextId !in ids && HasPage(story, l.from)
  {
    if story == [] then []
    else
      var here := if story[0].choices.Some? then ChoiceBrokenLinks(story[0].id, story[0].choices.value, ids) else [];
      var rest := BrokenLinks(story[1..], ids);
      assert forall l :: l in rest ==> HasPage(story, l.from) by {
        forall l | l in rest ensures HasPage(story, l.from) {
          var k :| 0 <= k < |story[1..]| && story[1..][k].id == l.from;
          assert story[k + 1].id == l.from;
        }
      }
      assert forall l :: l in here ==> HasPage(story, l.from) by {
        forall l | l in here ensures HasPage(story, l.from) {
          assert story[0].id == l.from;
        }
      }
      assert (forall i :: 0 <= i < |story| ==> ChoicesResolve(story[i], ids))
        <==> ChoicesResolve(story[0], ids) && forall i :: 0 <= i < |story[1..]| ==> ChoicesResolve(story[1..][i], ids) by {
        if forall i :: 0 <= i < |story[1..]| ==> ChoicesResolve(story[1..][i], ids) {
          forall i | 1 <= i < |story| ensures ChoicesResolve(story[i], ids) {
            assert story[i] == story[1..][i - 1];
          }
        }
      }
      here + rest
  }

  /** The link test passes. */
  predicate LinkCheckPasses(story: seq<Page>) {
    BrokenLinks(story, PageIds(story)) == []
  }

  /** The link test passes exactly when every choice of every page leads to the id of a
      page of the same story. */
  lemma LinkCheckPassesIff(story: seq<Page>)
    ensures LinkCheckPasses(story) <==>
      forall i, j :: 0 <= i < |story| && story[i].choices.Some? && 0 <= j < |story[i].choices.value| ==>
        HasPage(story, story[i].choices.value[j].nextId)
  {
    var ids := PageIds(story);
    forall id ensures id in ids <==> HasPage(story, id) {
      if HasPage(story, id) {
        var k :| 0 <= k < |story| && story[k].id == id;
        assert story[k].id in ids;
      }
    }
  }

  // ---------------------------------------------------------------------------
  // Self loops
  // ---------------------------------------------------------------------------

  /** No choice of the page leads back to the page itself. */
  predicate NoSelfChoice(page: Page) {
    page.choices.None? || forall j :: 0 <= j < |page.choices.value| ==> page.choices.value[j].nextId != page.id
  }

  /** One entry (the page id) per choice of `id`'s page that leads back to `id`. */
  function ChoiceSelfLinks(id: string, choices: seq<Choice>): (r: seq<string>)
    ensures r == [] <==> forall j :: 0 <= j < |choices| ==> choices[j].nextId != id
    ensures forall x :: x in r ==> x == id
  {
    if choices == [] then []
    else
      var rest := ChoiceSelfLinks(id, choices[1..]);
      if choices[0].nextId == id then [id] + rest else rest
  }

  /** `selfLinking` of the self-loop test, as the ids of the looping pages. */
  function SelfLinks(story: seq<Page>): (r: seq<string>)
    ensures r == [] <==> forall i :: 0 <= i < |story| ==> NoSelfChoice(story[i])
    ensures forall x :: x in r ==> HasPage(story, x)
  {
    if story == [] then []
    else
      var here := if story[0].choices.Some? then ChoiceSelfLinks(story[0].id, story[0].choices.value) else [];
      var rest := SelfLinks(story[1..]);
      assert forall x :: x in rest ==> HasPage(story, x) by {
        forall x | x in rest ensures HasPage(story, x) {
          var k :| 0 <= k < |story[1..]| && story[1..][k].id == x;
          assert story[k + 1].id == x;
        }
      }
      assert forall x :: x in here ==> HasPage(story, x) by {
        forall x | x in here ensures HasPage(story, x) {
          assert story[0].id == x;
        }
      }
      assert (forall i :: 0 <= i < |story| ==> NoSelfChoice(story[i]))
        <==> NoSelfChoice(story[0]) && forall i :: 0 <= i < |story[1..]| ==> NoSelfChoice(story[1..][i]) by {
        if forall i :: 0 <= i < |story[1..]| ==> NoSelfChoice(story[1..][i]) {
          forall i | 1 <= i < |story| ensures NoSelfChoice(story[i]) {
            assert story[i] == story[1..][i - 1];
          }
        }
      }
      here + rest
  }

  // ---------------------------------------------------------------------------
  // Text length
  // ---------------------------------------------------------------------------

  /** `page.text.trim().length`, in UTF-16 code units. */
  function TrimmedLength(page: Page): nat {
    Text.Utf16Length(Text.JsTrim(page.text))
  }

  datatype LongPage = LongPage(id: string, length: nat)

  /** The pages whose trimmed text is longer than `limit`, in story order, with that
      length. */
  function LongPages(story: seq<Page>, limit: int): (r: seq<LongPage>)
    ensures |r| <= |story|
    ensures forall e :: e in r ==> e.length > limit
  {
    if story == [] then []
    else
      var rest := LongPages(story[1..], limit);
      var length := TrimmedLength(story[0]);
      if length > limit then [LongPage(story[0].id, length)] + rest else rest
  }

  /** Every reported entry is a page of the story with its trimmed length. */
  lemma {:induction false} LongPagesAreLong(story: seq<Page>, limit: int, e: LongPage)
    requires e in LongPages(story, limit)
    ensures exists i :: 0 <= i < |story| && story[i].id == e.id && TrimmedLength(story[i]) == e.length
  {
    if e != LongPage(story[0].id, TrimmedLength(story[0])) {
      LongPagesAreLong(story[1..], limit, e);
      var k :| 0 <= k < |story[1..]| && story[1..][k].id == e.id && TrimmedLength(story[1..][k]) == e.length;
      assert story[k + 1] == story[1..][k];
    }
  }

  /** The length test passes exactly when every trimmed text is within the limit. */
  lemma {:induction false} LongPagesEmptyIff(story: seq<Page>, limit: int)
    ensures LongPages(story, limit) == [] <==> forall i :: 0 <= i < |story| ==> TrimmedLength(story[i]) <= limit
  {
    if story != [] {
      LongPagesEmptyIff(story[1..], limit);
      WithinLimitCons(story, limit);
    }
  }

  lemma WithinLimitCons(story: seq<Page>, limit: int)
    requires story != []
    ensures (forall i :: 0 <= i < |story| ==> TrimmedLength(story[i]) <= limit) <==>
      TrimmedLength(story[0]) <= limit && forall i :: 0 <= i < |story[1..]| ==> TrimmedLength(story[1..][i]) <= limit
  {
    var tail := story[1..];
    if TrimmedLength(story[0]) <= limit && forall i :: 0 <= i < |tail| ==> TrimmedLength(tail[i]) <= limit {
      forall i | 0 <= i < |story| ensures TrimmedLength(story[i]) <= limit {
        if i > 0 {
          assert story[i] == tail[i - 1];
        }
      }
    }
  }

  /** A story within the current suite's 430-unit limit is within the older suite's
      550-unit limit. */
  lemma CurrentLengthLimitIsStricter(story: seq<Page>)
    requires LongPages(story, MAX_TEXT_LENGTH) == []
    ensures LongPages(story, LEGACY_MAX_TEXT_LENGTH) == []
  {
    LongPagesEmptyIff(story, MAX_TEXT_LENGTH);
    LongPagesEmptyIff(story, LEGACY_MAX_TEXT_LENGTH);
  }

  // ---------------------------------------------------------------------------
  // Capitalisation
  // ---------------------------------------------------------------------------

  /** The characters listed in the class `[ „"A-ZÁÉÍÓÚÝÆÖÞ«À¡.¿“]`. */
  predicate InClass(c: char) {
    || c == ' ' || c == '\U{201E}' || c == '"' || ('A' <= c <= 'Z')
    || c == '\U{00C1}' || c == '\U{00C9}' || c == '\U{00CD}' || c == '\U{00D3}' || c == '\U{00DA}'
    || c == '\U{00DD}' || c == '\U{00C6}' || c == '\U{00D6}' || c == '\U{00DE}' || c == '\U{00AB}'
    || c == '\U{00C0}' || c == '\U{00A1}' || c == '.' || c == '\U{00BF}' || c == '\U{201C}'
  }

  /** Canonicalize of a case-insensitive, non-Unicode regular expression (section
      22.2.2.7.3 of ECMA-262): the upper-case form when it is a single character, except
      that a non-ASCII character never maps to an ASCII one. */
  function Canonicalize(c: char): char {
    var u := Text.UpperChar(c);
    if |u| != 1 then c
    else if c as int >= 128 && u[0] as int < 128 then c
    else u[0]
  }

  /** The `/i` class test: with ignoreCase a character matches when its canonical form is
      that of a class member, and every class member is its own canonical form. */
  predicate ClassMatches(c: char) {
    InClass(Canonicalize(c))
  }

  lemma ClassMembersAreCanonical(c: char)
    requires InClass(c)
    ensures Canonicalize(c) == c && Text.UpperChar(c) == [c]
  {
  }

  /** `isCapitalized(text)`: the trimmed text is non-empty and its first character is its
      own upper-case form and matches the class. */
  predicate IsCapitalized(text: string) {
    var trimmed := Text.JsTrim(text);
    trimmed != [] && Text.UpperChar(trimmed[0]) == [trimmed[0]] && ClassMatches(trimmed[0])
  }

  /** The two tests together accept exactly the class members as first character: an
      initial whose upper-case form is in the class, such as 'a' or 'é', fails the
      upper-case test. */
  lemma IsCapitalizedIff(text: string)
    ensures IsCapitalized(text) <==> Text.JsTrim(text) != [] && InClass(Text.JsTrim(text)[0])
  {
    var trimmed := Text.JsTrim(text);
    if trimmed != [] {
      var c := trimmed[0];
      if InClass(c) {
        ClassMembersAreCanonical(c);
      }
      if Text.UpperChar(c) == [c] {
        assert Canonicalize(c) == c;
      }
    }
  }

  /** The ids of the pages the capitalisation test reports: it is skipped for "jp", skips
      the excluded pages, and tests each page's trimmed text. */
  function CapitalisationErrors(lang: string, story: seq<Page>): (r: seq<string>)
    ensures lang == "jp" ==> r == []
    ensures forall id :: id in r ==> id !in EXCLUDED_IDS && HasPage(story, id)
  {
    if lang == "jp" then [] else UncapitalisedPages(story)
  }

  function UncapitalisedPages(story: seq<Page>): (r: seq<string>)
    ensures forall id :: id in r ==> id !in EXCLUDED_IDS && HasPage(story, id)
  {
    if story == [] then []
    else
      var rest := UncapitalisedPages(story[1..]);
      HasPageCons(story);
      var page := story[0];
      if page.id !in EXCLUDED_IDS && !IsCapitalized(Text.JsTrim(page.text)) then [page.id] + rest
      else rest
  }

  /** The first page's id is a page of the story, and so is every id of the other pages. */
  lemma HasPageCons(story: seq<Page>)
    requires story != []
    ensures HasPage(story, story[0].id)
    ensures forall x :: HasPage(story[1..], x) ==> HasPage(story, x)
  {
    assert story[0].id == story[0].id;
    forall x | HasPage(story[1..], x) ensures HasPage(story, x) {
      var k :| 0 <= k < |story[1..]| && story[1..][k].id == x;
      assert story[k + 1].id == x;
    }
  }

  /** Outside Japanese, the capitalisation test passes exactly when every page that is not
      excluded has a capitalised text; trimming before `isCapitalized` trims again changes
      nothing. */
  lemma {:induction false} UncapitalisedPagesIff(story: seq<Page>)
    ensures UncapitalisedPages(story) == [] <==>
      forall i :: 0 <= i < |story| ==> story[i].id in EXCLUDED_IDS || IsCapitalized(story[i].text)
  {
    if story != [] {
      var rest := story[1..];
      UncapitalisedPagesIff(rest);
      CapitalizedOfTrimmed(story[0].text);
      assert forall i :: 1 <= i < |story| ==> story[i] == rest[i - 1];
    }
  }

  /** The test trims before `isCapitalized` trims again, which changes nothing. */
  lemma CapitalizedOfTrimmed(text: string)
    ensures IsCapitalized(Text.JsTrim(text)) == IsCapitalized(text)
  {
    Text.TrimIdempotent(text, Text.IsJsSpace);
  }

  // ---------------------------------------------------------------------------
  // Duplicate ids
  // ---------------------------------------------------------------------------

  function Ids(story: seq<Page>): (r: seq<string>)
    ensures |r| == |story| && forall i :: 0 <= i < |story| ==> r[i] == story[i].id
  {
    if story == [] then [] else [story[0].id] + Ids(story[1..])
  }

  /** The duplicate-id test as written, counting in a plain object: ids that name
      `Object.prototype` members are never reported. */
  predicate IdCheckPassesAsWritten(story: seq<Page>) {
    ObjectCounts.ReportedAsWritten(Ids(story)) == {}
  }

  /** The duplicate-id test with the counts kept in a `Map`. */
  predicate IdCheckPasses(story: seq<Page>) {
    ObjectCounts.Reported(Ids(story)) == {}
  }

  /** The intended test passes exactly when page ids are pairwise distinct. */
  lemma IdCheckPassesIff(story: seq<Page>)
    ensures IdCheckPasses(story) <==> forall i, j :: 0 <= i < j < |story| ==> story[i].id != story[j].id
  {
    ObjectCounts.NoDuplicatesIffDistinct(Ids(story));
  }

  /** As written, the test also passes stories whose only repeated ids are
      `Object.prototype` names. */
  lemma IdCheckAsWrittenIff(story: seq<Page>)
    ensures IdCheckPassesAsWritten(story) <==> ObjectCounts.Duplicates(Ids(story)) <= ObjectCounts.PROTOTYPE_NAMES
  {
    ObjectCounts.ReportedAsWrittenMissesPrototypeNames(Ids(story));
  }

  /** Two pages with id "constructor" pass the test as written and fail the intended one. */
  lemma ConstructorIdsPassAsWritten(a: Page, b: Page)
    requires a.id == "constructor" && b.id == "constructor"
    ensures IdCheckPassesAsWritten([a, b])
    ensures !IdCheckPasses([a, b])
  {
    assert Ids([a, b]) == ["constructor", "constructor"];
    ObjectCounts.ConstructorCounterexample();
    IdCheckPassesIff([a, b]);
  }

  // ---------------------------------------------------------------------------
  // Duplicate text (current suite)
  // ---------------------------------------------------------------------------

  function TrimmedTexts(story: seq<Page>): (r: seq<string>)
    ensures |r| == |story| && forall i :: 0 <= i < |story| ==> r[i] == Text.JsTrim(story[i].text)
  {
    if story == [] then [] else [Text.JsTrim(story[0].text)] + TrimmedTexts(story[1..])
  }

  /** A page as the duplicate-text test sees it: its trimmed text and its id. */
  datatype TextEntry = TextEntry(text: string, id: string)

  function Entries(story: seq<Page>): (r: seq<TextEntry>)
    ensures |r| == |story|
    ensures forall i :: 0 <= i < |story| ==> r[i] == TextEntry(Text.JsTrim(story[i].text), story[i].id)
  {
    if story == [] then [] else [TextEntry(Text.JsTrim(story[0].text), story[0].id)] + Entries(story[1..])
  }

  /** `textMap` after the loop: each trimmed text to the ids of its pages, in order. */
  function GroupByText(entries: seq<TextEntry>): map<string, seq<string>>
    decreases |entries|
  {
    if entries == [] then map[]
    else
      var groups := GroupByText(entries[..|entries| - 1]);
      var e := entries[|entries| - 1];
      groups[e.text := (if e.text in groups then groups[e.text] else []) + [e.id]]
  }

  /** The ids of the entries whose text is `text`, in order. */
  function IdsWithText(entries: seq<TextEntry>, text: string): seq<string>
    decreases |entries|
  {
    if entries == [] then []
    else
      var e := entries[|entries| - 1];
      IdsWithText(entries[..|entries| - 1], text) + if e.text == text then [e.id] else []
  }

  lemma {:induction false} GroupByTextEntries(entries: seq<TextEntry>, text: string)
    ensures text in GroupByText(entries) <==> IdsWithText(entries, text) != []
    ensures text in GroupByText(entries) ==> GroupByText(entries)[text] == IdsWithText(entries, text)
    decreases |entries|
  {
    if entries != [] {
      GroupByTextEntries(entries[..|entries| - 1], text);
    }
  }

  /** `ids.filter((id) => !EXCLUDED_IDS.has(id))`. */
  function NotExcluded(ids: seq<string>): seq<string>
    decreases |ids|
  {
    if ids == [] then []
    else NotExcluded(ids[..|ids| - 1]) + if ids[|ids| - 1] in EXCLUDED_IDS then [] else [ids[|ids| - 1]]
  }

  /** The texts whose `textMap` entry lists more than one page that is not excluded. */
  function SharedTexts(entries: seq<TextEntry>): set<string> {
    var groups := GroupByText(entries);
    set text | text in groups && |NotExcluded(groups[text])| > 1
  }

  /** Some page's trimmed text names an `Object.prototype` member. */
  predicate HasPrototypeText(entries: seq<TextEntry>) {
    exists i :: 0 <= i < |entries| && entries[i].text in ObjectCounts.PROTOTYPE_NAMES
  }

  /** The duplicate-text test: the texts shared by more than one page that is not
      excluded. Building `textMap` throws a TypeError when a trimmed text names an
      `Object.prototype` member, because `textMap[text]` is then the inherited member,
      which has no `push`. */
  function DuplicateTexts(story: seq<Page>): Result<set<string>, string> {
    var entries := Entries(story);
    if HasPrototypeText(entries) then Failure("TypeError") else Success(SharedTexts(entries))
  }

  /** Entry `i` counts towards duplicates of `text`. */
  predicate Shares(entries: seq<TextEntry>, text: string, i: int) {
    0 <= i < |entries| && entries[i].text == text && entries[i].id !in EXCLUDED_IDS
  }

  function SharingCount(entries: seq<TextEntry>, text: string): nat
    decreases |entries|
  {
    if entries == [] then 0
    else SharingCount(entries[..|entries| - 1], text) + if Shares(entries, text, |entries| - 1) then 1 else 0
  }

  lemma {:induction false} NotExcludedCount(entries: seq<TextEntry>, text: string)
    ensures |NotExcluded(IdsWithText(entries, text))| == SharingCount(entries, text)
    decreases |entries|
  {
    if entries != [] {
      var prefix, e := entries[..|entries| - 1], entries[|entries| - 1];
      NotExcludedCount(prefix, text);
      var ids := IdsWithText(entries, text);
      if e.text == text {
        assert ids[..|ids| - 1] == IdsWithText(prefix, text);
      } else {
        assert ids == IdsWithText(prefix, text);
      }
    }
  }

  lemma {:induction false} SharingCountOne(entries: seq<TextEntry>, text: string)
    ensures SharingCount(entries, text) >= 1 <==> exists i :: Shares(entries, text, i)
    decreases |entries|
  {
    if entries != [] {
      var prefix, n := entries[..|entries| - 1], |entries| - 1;
      SharingCountOne(prefix, text);
      if exists i :: Shares(entries, text, i) {
        var i :| Shares(entries, text, i);
        if i < n {
          assert Shares(prefix, text, i);
        }
      }
      if SharingCount(prefix, text) >= 1 {
        var i :| Shares(prefix, text, i);
        assert Shares(entries, text, i);
      }
    }
  }

  lemma {:induction false} SharingCountTwo(entries: seq<TextEntry>, text: string)
    ensures SharingCount(entries, text) >= 2 <==>
      exists i, j :: i < j && Shares(entries, text, i) && Shares(entries, text, j)
    decreases |entries|
  {
    if entries != [] {
      var prefix, n := entries[..|entries| - 1], |entries| - 1;
      SharingCountTwo(prefix, text);
      SharingCountOne(prefix, text);
      if exists i, j :: i < j && Shares(entries, text, i) && Shares(entries, text, j) {
        var i, j :| i < j && Shares(entries, text, i) && Shares(entries, text, j);
        assert Shares(prefix, text, i);
        if j < n {
          assert Shares(prefix, text, j);
        }
      }
      if SharingCount(entries, text) >= 2 {
        if SharingCount(prefix, text) >= 2 {
          var i, j :| i < j && Shares(prefix, text, i) && Shares(prefix, text, j);
          assert Shares(entries, text, i) && Shares(entries, text, j);
        } else {
          var i :| Shares(prefix, text, i);
          assert Shares(entries, text, i) && Shares(entries, text, n);
        }
      }
    }
  }

  /** Pages `i` and `j` are two pages, neither excluded, whose trimmed text is `text`. */
  predicate PagesShare(story: seq<Page>, text: string, i: int, j: int) {
    && 0 <= i < j < |story|
    && Text.JsTrim(story[i].text) == text && story[i].id !in EXCLUDED_IDS
    && Text.JsTrim(story[j].text) == text && story[j].id !in EXCLUDED_IDS
  }

  lemma SharedTextsIff(entries: seq<TextEntry>, text: string)
    ensures text in SharedTexts(entries) <==>
      exists i, j :: i < j && Shares(entries, text, i) && Shares(entries, text, j)
  {
    GroupByTextEntries(entries, text);
    NotExcludedCount(entries, text);
    SharingCountTwo(entries, text);
  }

  /** When the test runs to the end, a text is reported exactly when two pages that are
      not excluded share it. */
  lemma DuplicateTextsIff(story: seq<Page>, text: string)
    requires DuplicateTexts(story).Success?
    ensures text in DuplicateTexts(story).value <==> exists i, j :: PagesShare(story, text, i, j)
  {
    var entries := Entries(story);
    assert DuplicateTexts(story).value == SharedTexts(entries);
    SharedTextsIff(entries, text);
    if text in SharedTexts(entries) {
      var i, j :| i < j && Shares(entries, text, i) && Shares(entries, text, j);
      SharesPage(story, text, i);
      SharesPage(story, text, j);
      assert PagesShare(story, text, i, j);
    }
    if exists i, j :: PagesShare(story, text, i, j) {
      var i, j :| PagesShare(story, text, i, j);
      SharesPage(story, text, i);
      SharesPage(story, text, j);
      assert i < j && Shares(entries, text, i) && Shares(entries, text, j);
    }
  }

  /** Entry `i` of a story's entries shares `text` exactly when page `i` does. */
  lemma SharesPage(story: seq<Page>, text: string, i: int)
    ensures Shares(Entries(story), text, i) <==>
      0 <= i < |story| && Text.JsTrim(story[i].text) == text && story[i].id !in EXCLUDED_IDS
  {
  }

  /** An excluded page may repeat another page's text. */
  lemma ExcludedPageMayRepeat(text: string)
    ensures SharedTexts([TextEntry(text, "Gold_Ending"), TextEntry(text, "intro")]) == {}
  {
    var entries := [TextEntry(text, "Gold_Ending"), TextEntry(text, "intro")];
    forall t | t in SharedTexts(entries) ensures false {
      SharedTextsIff(entries, t);
    }
  }

  /** Without a repeated text nothing is reported. */
  lemma DistinctTextsShareNothing(entries: seq<TextEntry>)
    requires forall i, j :: 0 <= i < j < |entries| ==> entries[i].text != entries[j].text
    ensures SharedTexts(entries) == {}
  {
    forall t | t in SharedTexts(entries) ensures false {
      SharedTextsIff(entries, t);
    }
  }

  // ---------------------------------------------------------------------------
  // Duplicate text (older suite)
  // ---------------------------------------------------------------------------

  /** The older duplicate-text test: `textCounts` in a plain object, no exclusions. */
  predicate LegacyTextCheckPasses(story: seq<Page>) {
    ObjectCounts.ReportedAsWritten(TrimmedTexts(story)) == {}
  }

  /** The older text test as written passes exactly when the only repeated trimmed texts
      are names of `Object.prototype` members. */
  lemma LegacyTextCheckIff(story: seq<Page>)
    ensures LegacyTextCheckPasses(story) <==> ObjectCounts.Duplicates(TrimmedTexts(story)) <= ObjectCounts.PROTOTYPE_NAMES
  {
    ObjectCounts.ReportedAsWrittenMissesPrototypeNames(TrimmedTexts(story));
  }

  function EntryTexts(entries: seq<TextEntry>): (r: seq<string>)
    ensures |r| == |entries| && forall i :: 0 <= i < |entries| ==> r[i] == entries[i].text
  {
    if entries == [] then [] else [entries[0].text] + EntryTexts(entries[1..])
  }

  lemma EntryTextsAreTrimmedTexts(story: seq<Page>)
    ensures EntryTexts(Entries(story)) == TrimmedTexts(story)
  {
  }

  /** Texts that the plain-object count accepts, none naming an `Object.prototype`
      member, are pairwise distinct, so no text is shared. */
  lemma CountedTextsShareNothing(entries: seq<TextEntry>)
    requires ObjectCounts.ReportedAsWritten(EntryTexts(entries)) == {}
    requires !HasPrototypeText(entries)
    ensures SharedTexts(entries) == {}
  {
    var texts := EntryTexts(entries);
    ObjectCounts.ReportedAsWrittenMissesPrototypeNames(texts);
    assert ObjectCounts.Duplicates(texts) == {} by {
      forall t | t in ObjectCounts.Duplicates(texts) ensures false {
      }
    }
    ObjectCounts.NoDuplicatesIffDistinct(texts);
    DistinctTextsShareNothing(entries);
  }

  /** A story that passes the older text test and on which the current text test runs to
      the end passes the current text test: the exclusions only relax it. */
  lemma ExclusionsOnlyRelax(story: seq<Page>)
    requires LegacyTextCheckPasses(story)
    requires DuplicateTexts(story).Success?
    ensures DuplicateTexts(story).value == {}
  {
    EntryTextsAreTrimmedTexts(story);
    CountedTextsShareNothing(Entries(story));
  }
}

=== FILE: text.dfy ===
/** String operations of the JavaScript and Python runtimes that the modelled code relies
    on: `trim`/`strip` (whose whitespace sets differ), case mapping, `indexOf`/`includes`,
    `startsWith`, `split`/`join`, UTF-16 `length`, number-to-text and `parseInt`.

    Strings are sequences of Unicode code points. JavaScript measures strings in UTF-16
    code units, so `Utf16Length` counts a code point above U+FFFF twice. */
module Text {
  import opened Wrappers

  // ---------------------------------------------------------------------------
  // Whitespace and trimming
  // ---------------------------------------------------------------------------

  /** The characters JavaScript's `String.prototype.trim` removes (WhiteSpace and
      LineTerminator of ECMA-262). */
  predicate IsJsSpace(c: char) {
    || c == '\t' || c == '\n' || c == '\U{000B}' || c == '\U{000C}' || c == '\r' || c == ' '
    || c == '\U{00A0}' || c == '\U{1680}' || ('\U{2000}' <= c <= '\U{200A}')
    || c == '\U{2028}' || c == '\U{2029}' || c == '\U{202F}' || c == '\U{205F}'
    || c == '\U{3000}' || c == '\U{FEFF}'
  }

  /** The characters Python's `str.strip()` removes (`str.isspace`). Unlike JavaScript it
      strips U+001C..U+001F and U+0085 but keeps U+FEFF. */
  predicate IsPySpace(c: char) {
    || c == '\t' || c == '\n' || c == '\U{000B}' || c == '\U{000C}' || c == '\r'
    || ('\U{001C}' <= c <= '\U{001F}') || c == ' ' || c == '\U{0085}' || c == '\U{00A0}'
    || c == '\U{1680}' || ('\U{2000}' <= c <= '\U{200A}') || c == '\U{2028}' || c == '\U{2029}'
    || c == '\U{202F}' || c == '\U{205F}' || c == '\U{3000}'
  }

  /** `s` without its leading characters satisfying `drop`. */
  function TrimStart(s: string, drop: char -> bool): (r: string)
    ensures |r| <= |s| && r == s[|s| - |r|..]
    ensures forall k :: 0 <= k < |s| - |r| ==> drop(s[k])
    ensures r == [] || !drop(r[0])
  {
    if |s| > 0 && drop(s[0]) then TrimStart(s[1..], drop) else s
  }

  /** `s` without its trailing characters satisfying `drop`. */
  function TrimEnd(s: string, drop: char -> bool): (r: string)
    ensures |r| <= |s| && r == s[..|r|]
    ensures forall k :: |r| <= k < |s| ==> drop(s[k])
    ensures r == [] || !drop(r[|r| - 1])
  {
    if |s| > 0 && drop(s[|s| - 1]) then TrimEnd(s[..|s| - 1], drop) else s
  }

  /** `s` without leading and trailing characters satisfying `drop`. */
  function Trim(s: string, drop: char -> bool): (r: string)
    ensures |r| <= |s|
    ensures r == [] || (!drop(r[0]) && !drop(r[|r| - 1]))
    ensures r == [] ==> forall k :: 0 <= k < |s| ==> drop(s[k])
  {
    var front := TrimStart(s, drop);
    var r := TrimEnd(front, drop);
    r
  }

  /** JavaScript `s.trim()`. */
  function JsTrim(s: string): string {
    Trim(s, IsJsSpace)
  }

  /** Python `s.strip()`. */
  function PyStrip(s: string): string {
    Trim(s, IsPySpace)
  }

  lemma TrimOfUntrimmed(s: string, drop: char -> bool)
    requires s == [] || (!drop(s[0]) && !drop(s[|s| - 1]))
    ensures Trim(s, drop) == s
  {
  }

  /** Trimming twice is trimming once. */
  lemma TrimIdempotent(s: string, drop: char -> bool)
    ensures Trim(Trim(s, drop), drop) == Trim(s, drop)
  {
    TrimOfUntrimmed(Trim(s, drop), drop);
  }

  // ---------------------------------------------------------------------------
  // Case mapping (Basic Latin and Latin-1 Supplement)
  // ---------------------------------------------------------------------------

  /** `toUpperCase` of one code point, as a string because U+00DF maps to "SS". */
  function UpperChar(c: char): string {
    if 'a' <= c <= 'z' then [(c as int - 32) as char]
    else if c == '\U{00B5}' then ['\U{039C}']
    else if c == '\U{00DF}' then "SS"
    else if '\U{00E0}' <= c <= '\U{00FE}' && c != '\U{00F7}' then [(c as int - 32) as char]
    else if c == '\U{00FF}' then ['\U{0178}']
    else [c]
  }

  /** `toLowerCase` of one code point. */
  function LowerChar(c: char): char {
    if 'A' <= c <= 'Z' then (c as int + 32) as char
    else if '\U{00C0}' <= c <= '\U{00DE}' && c != '\U{00D7}' then (c as int + 32) as char
    else c
  }

  function ToUpper(s: string): string {
    if s == [] then [] else UpperChar(s[0]) + ToUpper(s[1..])
  }

  function ToLower(s: string): (r: string)
    ensures |r| == |s|
    ensures forall i :: 0 <= i < |s| ==> r[i] == LowerChar(s[i])
  {
    if s == [] then [] else [LowerChar(s[0])] + ToLower(s[1..])
  }

  // ---------------------------------------------------------------------------
  // Searching
  // ---------------------------------------------------------------------------

  /** `pat` occurs in `s` starting at index `k`. */
  predicate OccursAt(s: string, pat: string, k: int) {
    0 <= k && k + |pat| <= |s| && s[k..k + |pat|] == pat
  }

  /** The first index at or after `from` where `pat` occurs. */
  function IndexOfFrom(s: string, pat: string, from: nat): (r: Option<nat>)
    decreases |s| - from
    ensures r.Some? ==> from <= r.value && OccursAt(s, pat, r.value)
    ensures r.Some? ==> forall k :: from <= k < r.value ==> !OccursAt(s, pat, k)
    ensures r.None? ==> forall k :: from <= k ==> !OccursAt(s, pat, k)
  {
    if from + |pat| > |s| then None
    else if s[from..from + |pat|] == pat then Some(from)
    else IndexOfFrom(s, pat, from + 1)
  }

  /** JavaScript `s.indexOf(pat)`, with `None` for -1. */
  function IndexOf(s: string, pat: string): Option<nat> {
    IndexOfFrom(s, pat, 0)
  }

  /** JavaScript `s.includes(pat)`. */
  predicate Contains(s: string, pat: string) {
    IndexOf(s, pat).Some?
  }

  lemma ContainsIffOccurs(s: string, pat: string)
    ensures Contains(s, pat) <==> exists k :: OccursAt(s, pat, k)
  {
  }

  lemma ContainsItself(s: string)
    ensures Contains(s, s)
  {
    assert OccursAt(s, s, 0);
    ContainsIffOccurs(s, s);
  }

  /** JavaScript `startsWith` / Python `str.startswith`. */
  predicate StartsWith(s: string, prefix: string) {
    |prefix| <= |s| && s[..|prefix|] == prefix
  }

  /** A string starts with any of its prefixes. */
  lemma StartsWithAppend(a: string, b: string)
    ensures StartsWith(a + b, a)
  {
    assert (a + b)[..|a|] == a;
  }

  // ---------------------------------------------------------------------------
  // Splitting and joining
  // ---------------------------------------------------------------------------

  /** JavaScript `s.split(sep)` for a one-character separator: always at least one part,
      empty parts kept. */
  function Split(s: string, sep: char): (parts: seq<string>)
    ensures |parts| >= 1
    ensures forall i :: 0 <= i < |parts| ==> sep !in parts[i]
  {
    if |s| == 0 then [""]
    else
      var rest := Split(s[1..], sep);
      if s[0] == sep then [""] + rest
      else [[s[0]] + rest[0]] + rest[1..]
  }

  /** JavaScript `parts.join(sep)`. */
  function Join(parts: seq<string>, sep: string): string {
    if |parts| == 0 then ""
    else if |parts| == 1 then parts[0]
    else parts[0] + sep + Join(parts[1..], sep)
  }

  /** Splitting at a character and joining with it gives back the string. */
  lemma {:induction false} JoinSplit(s: string, sep: char)
    ensures Join(Split(s, sep), [sep]) == s
  {
    if |s| > 0 {
      var rest := Split(s[1..], sep);
      JoinSplit(s[1..], sep);
      if s[0] == sep {
        assert Split(s, sep) == [""] + rest;
        assert Join([""] + rest, [sep]) == "" + [sep] + Join(rest, [sep]);
        assert s == [s[0]] + s[1..];
      } else {
        var parts := Split(s, sep);
        assert parts == [[s[0]] + rest[0]] + rest[1..];
        if |rest| == 1 {
          assert Join(parts, [sep]) == [s[0]] + rest[0];
        } else {
          assert parts[1..] == rest[1..];
          assert Join(parts, [sep]) == [s[0]] + rest[0] + [sep] + Join(rest[1..], [sep]);
          assert Join(rest, [sep]) == rest[0] + [sep] + Join(rest[1..], [sep]);
        }
        assert s == [s[0]] + s[1..];
      }
    }
  }

  /** Joining one more part appends the separator and the part. */
  lemma {:induction false} JoinSnoc(parts: seq<string>, sep: string, last: string)
    requires parts != []
    ensures Join(parts + [last], sep) == Join(parts, sep) + sep + last
    decreases |parts|
  {
    if |parts| > 1 {
      assert (parts + [last])[1..] == parts[1..] + [last];
      JoinSnoc(parts[1..], sep, last);
    }
  }

  /** A string without the separator splits into itself. */
  lemma {:induction false} SplitFree(a: string, sep: char)
    requires sep !in a
    ensures Split(a, sep) == [a]
    decreases |a|
  {
    if |a| > 0 {
      SplitFree(a[1..], sep);
      assert [a[0]] + a[1..] == a;
    }
  }

  /** Splitting a separator-free part followed by the separator peels off that part. */
  lemma {:induction false} SplitAfter(a: string, sep: char, rest: string)
    requires sep !in a
    ensures Split(a + [sep] + rest, sep) == [a] + Split(rest, sep)
    decreases |a|
  {
    var s := a + [sep] + rest;
    if |a| == 0 {
      assert s == [sep] + rest;
      assert s[1..] == rest;
    } else {
      assert s[1..] == a[1..] + [sep] + rest;
      SplitAfter(a[1..], sep, rest);
      assert [a[0]] + a[1..] == a;
    }
  }

  /** Joining separator-free parts and splitting again gives the parts back. */
  lemma {:induction false} SplitJoin(parts: seq<string>, sep: char)
    requires parts != []
    requires forall i :: 0 <= i < |parts| ==> sep !in parts[i]
    ensures Split(Join(parts, [sep]), sep) == parts
    decreases |parts|
  {
    if |parts| == 1 {
      SplitFree(parts[0], sep);
    } else {
      SplitJoin(parts[1..], sep);
      SplitAfter(parts[0], sep, Join(parts[1..], [sep]));
      assert parts == [parts[0]] + parts[1..];
    }
  }

  // ---------------------------------------------------------------------------
  // Lengths and numbers
  // ---------------------------------------------------------------------------

  /** JavaScript `s.length`: code points above U+FFFF take two UTF-16 code units. */
  function Utf16Length(s: string): (n: nat)
    ensures |s| <= n <= 2 * |s|
  {
    if s == [] then 0
    else (if s[0] as int > 0xFFFF then 2 else 1) + Utf16Length(s[1..])
  }

  lemma Utf16LengthAppend(a: string, b: string)
    ensures Utf16Length(a + b) == Utf16Length(a) + Utf16Length(b)
  {
    if a != [] {
      assert (a + b)[0] == a[0];
      assert (a + b)[1..] == a[1..] + b;
      Utf16LengthAppend(a[1..], b);
      assert Utf16Length(a + b) == (if a[0] as int > 0xFFFF then 2 else 1) + Utf16Length(a[1..] + b);
    } else {
      assert a + b == b;
    }
  }

  predicate IsDigit(c: char) {
    '0' <= c <= '9'
  }

  predicate AllDigits(s: string) {
    forall i :: 0 <= i < |s| ==> IsDigit(s[i])
  }

  function DigitChar(d: nat): (c: char)
    requires d < 10
    ensures IsDigit(c)
  {
    ('0' as int + d) as char
  }

  function DigitValue(c: char): (d: nat)
    requires IsDigit(c)
    ensures d < 10 && DigitChar(d) == c
  {
    c as int - '0' as int
  }

  /** Decimal text of a natural number, without leading zeros. */
  function NatToString(n: nat): (r: string)
    ensures |r| >= 1 && AllDigits(r)
  {
    if n < 10 then [DigitChar(n)] else NatToString(n / 10) + [DigitChar(n % 10)]
  }

  /** JavaScript's text of an integer (`${n}`); exponent notation from 1e21 on is not
      modelled. */
  function IntToString(n: int): (r: string)
    ensures |r| >= 1
  {
    if n < 0 then "-" + NatToString(-n) else NatToString(n)
  }

  /** The value of a string of decimal digits. */
  function DigitsValue(d: string): nat
    requires AllDigits(d)
  {
    if |d| == 0 then 0 else DigitsValue(d[..|d| - 1]) * 10 + DigitValue(d[|d| - 1])
  }

  lemma {:induction false} DigitsValueOfNatToString(n: nat)
    ensures DigitsValue(NatToString(n)) == n
  {
    if n >= 10 {
      var s := NatToString(n);
      assert s[..|s| - 1] == NatToString(n / 10);
      DigitsValueOfNatToString(n / 10);
    }
  }

  /** Length of the longest prefix of decimal digits. */
  function DigitPrefixLength(s: string): (k: nat)
    ensures k <= |s|
    ensures forall i :: 0 <= i < k ==> IsDigit(s[i])
    ensures k < |s| ==> !IsDigit(s[k])
  {
    if |s| > 0 && IsDigit(s[0]) then 1 + DigitPrefixLength(s[1..]) else 0
  }

  /** JavaScript `parseInt(s, 10)`: skip leading whitespace, read an optional sign and
      the longest run of digits; `None` stands for NaN (no digit at all). */
  function ParseInt(s: string): (r: Option<int>)
    ensures r.None? <==> DigitPrefixLength(SignFree(TrimStart(s, IsJsSpace))) == 0
  {
    ParseSigned(TrimStart(s, IsJsSpace))
  }

  /** `parseInt` once the leading whitespace is gone. */
  function ParseSigned(t: string): (r: Option<int>)
    ensures r.None? <==> DigitPrefixLength(SignFree(t)) == 0
  {
    var u := SignFree(t);
    var k := DigitPrefixLength(u);
    if k == 0 then None
    else
      var v: int := DigitsValue(u[..k]);
      Some(if |t| > 0 && t[0] == '-' then -v else v)
  }

  /** `t` without one leading sign character. */
  function SignFree(t: string): string {
    if |t| > 0 && (t[0] == '-' || t[0] == '+') then t[1..] else t
  }

  /** `parseInt` reads back the text of any integer. */
  lemma ParseIntOfIntToString(n: int)
    ensures ParseInt(IntToString(n)) == Some(n)
  {
    ParseIntOfIntToStringThen(n, "");
    assert IntToString(n) + "" == IntToString(n);
  }

  /** ... also when other text that does not start with a digit follows it. */
  lemma {:induction false} ParseIntOfIntToStringThen(n: int, rest: string)
    requires rest == [] || !IsDigit(rest[0])
    ensures ParseInt(IntToString(n) + rest) == Some(n)
  {
    var m: nat := if n < 0 then -n else n;
    ParseIntOfDigitsThen(NatToString(m), rest);
    DigitsValueOfNatToString(m);
    if n < 0 {
      NegativeTextThen(n, rest);
    }
  }

  lemma NegativeTextThen(n: int, rest: string)
    requires n < 0
    ensures IntToString(n) + rest == "-" + (NatToString(-n) + rest)
  {
    var d := NatToString(-n);
    assert IntToString(n) == "-" + d;
    assert ("-" + d) + rest == "-" + (d + rest);
  }

  /** `parseInt` of a run of digits followed by a non-digit, with and without a minus. */
  lemma {:induction false} ParseIntOfDigitsThen(digits: string, rest: string)
    requires |digits| >= 1 && AllDigits(digits) && (rest == [] || !IsDigit(rest[0]))
    ensures ParseInt(digits + rest) == Some(DigitsValue(digits) as int)
    ensures ParseInt("-" + (digits + rest)) == Some(-(DigitsValue(digits) as int))
  {
    var u := digits + rest;
    DigitPrefixOfDigitsThen(digits, rest);
    assert IsDigit(u[0]);
    TrimStartKeeps(u);
    ParseSignedOf(u, digits, rest);
    var t := "-" + u;
    assert t[0] == '-' && t[1..] == u;
    TrimStartKeeps(t);
    ParseSignedOf(t, digits, rest);
  }

  /** `ParseSigned` of text whose unsigned part is a run of digits and then a non-digit. */
  lemma ParseSignedOf(t: string, digits: string, rest: string)
    requires |digits| >= 1 && AllDigits(digits) && DigitPrefixLength(digits + rest) == |digits|
    requires SignFree(t) == digits + rest
    ensures ParseSigned(t) ==
      Some(if |t| > 0 && t[0] == '-' then -(DigitsValue(digits) as int) else DigitsValue(digits) as int)
  {
    assert (digits + rest)[..|digits|] == digits;
  }

  /** Text that does not start with whitespace is its own `TrimStart`. */
  lemma TrimStartKeeps(s: string)
    requires s == [] || !IsJsSpace(s[0])
    ensures TrimStart(s, IsJsSpace) == s
  {
  }

  lemma {:induction false} DigitPrefixOfDigitsThen(d: string, rest: string)
    requires AllDigits(d) && (rest == [] || !IsDigit(rest[0]))
    ensures DigitPrefixLength(d + rest) == |d|
  {
    if |d| > 0 {
      assert (d + rest)[1..] == d[1..] + rest;
      DigitPrefixOfDigitsThen(d[1..], rest);
    } else {
      assert d + rest == rest;
    }
  }

  lemma {:induction false} DigitPrefixOfAllDigits(s: string)
    requires AllDigits(s)
    ensures DigitPrefixLength(s) == |s|
  {
    if |s| > 0 {
      DigitPrefixOfAllDigits(s[1..]);
    }
  }
}

=== FILE: unlock_manager.dfy ===
/** Purchase flags (storage/unlockManager.ts): a story counts as bought when the text
    "true" is stored under "story_unlocked_" followed by its id. */
module UnlockManager {
  import opened Wrappers
  import opened AsyncStore

  const UNLOCK_KEY_PREFIX := "story_unlocked_"

  function UnlockKey(storyId: string): string {
    UNLOCK_KEY_PREFIX + storyId
  }

  lemma UnlockKeyInjective(s: string, t: string)
    ensures UnlockKey(s) == UnlockKey(t) <==> s == t
  {
    if UnlockKey(s) == UnlockKey(t) {
      assert s == UnlockKey(s)[|UNLOCK_KEY_PREFIX|..];
      assert t == UnlockKey(t)[|UNLOCK_KEY_PREFIX|..];
    }
  }

  /** `isStoryUnlocked`: true exactly when the stored text is "true"; any other text,
      such as "TRUE" or "1", and a missing key read as locked. */
  predicate IsStoryUnlocked(store: Store, storyId: string) {
    GetItem(store, UnlockKey(storyId)) == Some("true")
  }

  function UnlockStory(store: Store, storyId: string): Store {
    SetItem(store, UnlockKey(storyId), "true")
  }

  /** After `unlockStory(s)` the story is unlocked, and every other story keeps its
      status. */
  lemma UnlockStoryEffect(store: Store, storyId: string, other: string)
    ensures IsStoryUnlocked(UnlockStory(store, storyId), storyId)
    ensures other != storyId ==>
      (IsStoryUnlocked(UnlockStory(store, storyId), other) <==> IsStoryUnlocked(store, other))
  {
    UnlockKeyInjective(storyId, other);
  }
}

/** How the key families of the two storage files relate: no progress key is ever a
    purchase-flag key, so clearing progress never re-locks a story. */
module StorageLayout {
  import opened AsyncStore
  import ProgressManager
  import UnlockManager

  lemma UnlockKeyIsNoProgressKey(slot: ProgressManager.Slot, s: string, t: string)
    ensures UnlockManager.UnlockKey(s) != ProgressManager.Key(slot, t)
  {
    var a := UnlockManager.UnlockKey(s);
    var b := ProgressManager.Key(slot, t);
    var i := if ProgressManager.Prefix(slot)[0] == 's' then 6 else 0;
    assert a[i] == UnlockManager.UNLOCK_KEY_PREFIX[i];
    assert b[i] == ProgressManager.Prefix(slot)[i];
  }

  /** Neither `clearProgress` nor `clearProgressOnly` changes any story's purchase flag. */
  lemma ClearsKeepUnlock(store: Store, storyId: string, other: string)
    ensures UnlockManager.IsStoryUnlocked(ProgressManager.ClearProgress(store, storyId), other)
      <==> UnlockManager.IsStoryUnlocked(store, other)
    ensures UnlockManager.IsStoryUnlocked(ProgressManager.ClearProgressOnly(store, storyId), other)
      <==> UnlockManager.IsStoryUnlocked(store, other)
  {
    UnlockKeyIsNoProgressKey(ProgressManager.Progress, other, storyId);
    UnlockKeyIsNoProgressKey(ProgressManager.UnlockedChapters, other, storyId);
    UnlockKeyIsNoProgressKey(ProgressManager.History, other, storyId);
    UnlockKeyIsNoProgressKey(ProgressManager.CurrentPath, other, storyId);
  }

  /** Saving a page never changes a purchase flag, and unlocking never changes a saved
      page. */
  lemma SaveAndUnlockIndependent(store: Store, s: string, t: string, pageId: string)
    ensures UnlockManager.IsStoryUnlocked(ProgressManager.SaveProgress(store, s, pageId), t)
      <==> UnlockManager.IsStoryUnlocked(store, t)
    ensures ProgressManager.LoadProgress(UnlockManager.UnlockStory(store, s), t)
      == ProgressManager.LoadProgress(store, t)
  {
    UnlockKeyIsNoProgressKey(ProgressManager.Progress, t, s);
    UnlockKeyIsNoProgressKey(ProgressManager.Progress, s, t);
  }
}

=== FILE: wrappers.dfy ===
/** Failure-compatible wrappers shared by every module of the model: `Option` for
    values a lookup may not find (JavaScript `undefined`/`null`, Python `None`) and
    `Result` for operations that throw. */
module Wrappers {

  datatype Option<+T> = None | Some(value: T) {

    predicate IsFailure() {
      None?
    }

    function PropagateFailure<U>(): Option<U>
      requires None?
    {
      None
    }

    function Extract(): T
      requires Some?
    {
      value
    }

    /** The value, or `default` when there is none. */
    function GetOr(default: T): T {
      match this
      case Some(v) => v
      case None => default
    }
  }

  datatype Result<+R, +E> = Success(value: R) | Failure(error: E) {

    predicate IsFailure() {
      Failure?
    }

    function PropagateFailure<U>(): Result<U, E>
      requires Failure?
    {
      Failure(error)
    }

    function Extract(): R
      requires Success?
    {
      value
    }
  }
}
